=== FILE: README.md ===
# shop-databaser core, modelled in Dafny

shop-databaser mirrors a Shopify store onto the local disk and answers
queries over the copy. This project models the core of its background
worker:

- **Array extensions.** `none`, `existentialEvery`, `chunk`, and
  `pureChunk`, which sorts by chunk id and forms piles no two of which
  share a chunk (`Combinators`, `Ordering`, `PureChunking`).
- **The file-backed database.** Typed stores, each a map from record id to
  chunk id plus the chunk files it names (`Storage`). The rest of the
  database works on them:
  - appending a fresh chunk;
  - merging index changes;
  - the index health check;
  - repairing dangling entries and orphan files;
  - reading (`Reading`);
  - deduplication by latest write time (`Dedup`);
  - garbage collection into pure piles (`Collector`).
- **The query language.** Its parser (`QueryParse`), a renderer that
  inverts it (`QueryRender`), the filter and quantifier semantics
  (`QueryEval`), joins between stored types (`Joins`), and multi-line
  queries (`Queries`). JavaScript values are modelled in `JsValues`.
- **The Shopify client.** The token monitor, which picks the request
  pace, and the throttle. Header-based pagination and its `Link` parsing.
  Batched reads by id, the padded date windows, and the fulfillment-event
  fallback (`Shopify`).
- **The data task manager.** The order, fulfillment-event and inventory
  tasks (`ReadTasks`). The `run` loop as a transition on the task
  metadata, covering the recent window, the customer and discount
  `updated_at` window, each task's backfill day, the no-data
  backoff, re-syncs and `forceSync` (`Sync`). Millisecond instants and
  windows are in `Time`.

JavaScript exceptions are modelled as `None` results, for example:

- reading a property of `null` or `undefined`;
- an unknown join linkage;
- a filter applied without a field.

`Object.keys` enumeration order is an explicit parameter `keys`.

## Model

| member | source | states |
|---|---|---|
| Combinators.NoneOf | worker/components/common-class-extensions.js:7-9 | `none` holds exactly when no element satisfies the predicate, so it is true on an empty array |
| Combinators.ExistentialEvery | worker/components/common-class-extensions.js:11-13 | `existentialEvery` holds exactly when the array is non-empty and every element satisfies the predicate; it then implies `some` |
| Combinators.Chunk | worker/components/common-class-extensions.js:60-69 | an empty array or a non-positive size gives no chunks; otherwise the chunks concatenate back to the input, each holds 1 to `size` elements, and all but the last are full |
| Combinators.Distinct | worker/components/database.js:592 | `Array.from(new Set(…))` keeps every element, adds none, repeats none, and lists them in the order of their first occurrence |
| Ordering.SortByKeyIsStableSort | worker/components/common-class-extensions.js:44-48 | the sort by chunk id orders the elements by key, and the elements sharing a key keep their input order (a stable sort, as the comparator-based sort is) |
| PureChunking.PureChunk | worker/components/common-class-extensions.js:43-58 | `pureChunk` returns nothing for an empty input or a non-positive size; otherwise the piles concatenate to the key-sorted input, none is empty, their keys ascend strictly from pile to pile, every pile before the last is at least full, and a pile grows past `size` only by a key it already holds |
| PureChunking.PureChunkIsPure | worker/components/common-class-extensions.js:41-58 | two different piles never share a key, which is the "pure" promise of the comment |
| Dedup.DeduplicateKeepsLatestPerId | worker/components/database.js:554-567 | with positive write times, deduplication keeps an order-preserving subsequence holding every id exactly once, each with the greatest write time its id has in the input |
| Dedup.Deduplicate | worker/components/database.js:558-567 | with positive write times, the kept records are exactly the ones carrying their id's greatest time with no earlier record of that id carrying it too, in input order |
| Dedup.DeduplicateIdempotent | worker/components/database.js:558-567 | deduplicating a deduplicated list changes nothing |
| Dedup.DeduplicateDropsOnly | worker/components/database.js:558-567 | whatever the write times, deduplication only removes records and never invents an id |
| Storage.RecordFreshDataChunk | worker/components/database.js:399-405 | an empty batch changes nothing; otherwise the stamped batch becomes the new chunk and every batch id is indexed to it; with the index readable every other entry keeps its chunk, and with it unreadable the index written holds the batch ids only |
| Storage.Stamp | worker/components/database.js:402 | every record keeps its id and body and gets its own clock reading as write time, in batch order |
| Storage.AppendKeepsRecordsBacked | worker/components/database.js:399-405 | with a new chunk id, appending keeps every index entry pointing at a chunk that holds a record of that id |
| Storage.AppendKeepsStamped | worker/components/database.js:399-405 | with positive clock readings, appending keeps every stored record carrying a positive write time |
| Storage.MaintainIndex | worker/components/database.js:524-529 | every id of the batch is pointed at the new chunk; a readable index keeps its other entries, and an unreadable one (read as `{}`) is replaced by the batch ids alone |
| Storage.MaintainIndexIsMerge | worker/components/database.js:524-536 | appending to the index is the same as merging the change map "batch id to new chunk", readable or not |
| Storage.MergeIndexChanges | worker/components/database.js:531-536 | the changes win; a readable index keeps its other entries, so the result has both key sets, and an unreadable one leaves exactly the changes |
| Storage.ValidateIndexContents | worker/components/database.js:372-389 | after the repair every entry names an existing chunk and every chunk is named; nothing is added and surviving files keep their contents; with the index readable, entries whose chunk exists survive unchanged; with it unreadable (`_read` gives `{}`), every chunk file of the type is deleted and the empty index is written |
| Storage.ValidateIndexContentsFixesConsistent | worker/components/database.js:372-389 | with the index readable, the repair leaves a consistent store unchanged; repairing again with a readable index changes nothing, whatever the first read gave |
| Storage.IndexHealthOfType | worker/components/database.js:344-362 | one type's index is replaced exactly when its first three read attempts fail; attempts stop at the first success, with at most four |
| Storage.ValidateIndexHealth | worker/components/database.js:341-365 | every type's index ends up replaced or kept by its own attempts, chunk files are never touched, and the result reports whether any index was purged |
| Storage.ReferencedChunks | worker/components/database.js:592 | the chunks a pile refers to: each indexed id's chunk appears, only chunks the ids name appear, none appears twice, and they come in the order of the first id naming each |
| Storage.LoadChunks | worker/components/database.js:596-601 | the loaded records are the records of the named chunks that exist, plus the `{}` that `_read` gives for a missing chunk whenever some named chunk is missing |
| Dedup.DeduplicateKeepsOneOf | worker/components/database.js:558-567 | when every record carrying an id is the same record, with a non-zero write time, deduplication keeps exactly one copy of it, and none when it is absent |
| Reading.ReadChunk | worker/components/database.js:437-446 | reading a chunk gives its records exactly when the file exists |
| Reading.ReadFiles | worker/components/database.js:425-428 | outside query mode, nothing when the index cannot be read; otherwise one result per chunk `dataUrls` lists (distinct, in first-key order, by `Storage.ReferencedChunks`), each that chunk's records or a missing file |
| Reading.ReadMerged | worker/components/database.js:425-433 | in query mode, nothing when the index cannot be read; otherwise the deduplicated concatenation of the chunks `dataUrls` lists |
| Reading.ReadFilesCoversIndex | worker/components/database.js:427 | the files read are exactly the chunks the index names, each once |
| Reading.ReadMergedLatestWins | worker/components/database.js:429-433 | in query mode, when every entry's chunk holds its record, the result holds every indexed id once, only records from chunks the index names, each with its id's latest write time |
| Reading.ReadMergedKeepsOneBlank | worker/components/database.js:427-431 | in query mode the result holds exactly one `{}` when some chunk the index names cannot be read, and none otherwise |
| Collector.Purge | worker/components/database.js:604-607 | a record survives exactly when it has a non-empty id that is indexed and belongs to the pile |
| Collector.Rewrite | worker/components/database.js:613-626 | after a pile rewrite the index holds no id it lacked before, each pointing at its old chunk or a new one; when the index is read again successfully it keeps every id, and when that read fails it holds only the new entries; no chunk the old index named survives, and no file appears except the new ones |
| Collector.RewriteKeepsRecordsBacked | worker/components/database.js:590-626 | with fresh chunk names and piles that partition the index, every indexed id ends up pointing at its own pile's new chunk, which holds it, with no id repeated in a chunk |
| Collector.RewriteKeepsIds | worker/components/database.js:613-626 | with the index read again and piles that partition it, the rewrite keeps exactly the index's ids |
| Collector.PilesPartition | worker/components/database.js:585 | the piles `pureChunk` forms from the index keys place every indexed id in exactly one pile |
| Collector.GcKeepsRecordsBacked | worker/components/database.js:578-629 | garbage collection of one type keeps every index entry backed by a record; the id set is unchanged unless both index reads fail, when the index becomes empty; with the first read successful every chunk the old index named is deleted, and otherwise no chunk is touched |
| Collector.RewriteOrphansUnfound | worker/components/database.js:617-626 | an indexed id whose record no pile found keeps its old entry when the index is read again, yet that entry's chunk is deleted, leaving it dangling; when the second read fails the id is dropped |
| Collector.AllChanges | worker/components/database.js:617-622 | the merged change map points every id a pile wrote at that pile's new chunk, and nothing else |
| QueryParse.ParseSegments | worker/components/database.js:186-206 | a line's segments parse exactly when every segment text does, one segment per text |
| QueryParse.NextBracket | worker/components/database.js:187 | the first `[…]` pair splits the text into the part before it, its contents and the rest; with no pair, no `[` precedes a `]` |
| QueryRender.ParseRenderFilter | worker/components/database.js:192-203 | parsing a rendered filter gives the filter back |
| QueryRender.ParseRenderSegment | worker/components/database.js:186-205 | parsing a rendered segment gives back its type, its filters and the quantifier its leading character names |
| QueryRender.ParseRenderLine | worker/components/database.js:177-206 | parsing a rendered well-formed line gives the line back |
| QueryRender.ParseRenderQuery | worker/components/database.js:176-207 | parsing the rendering of any non-empty list of well-formed lines gives the lines back |
| QueryEval.Coerce | worker/components/database.js:253-260 | an undefined field coerces to nothing; a defined field and an argument that both convert to numbers become those numbers, and only then; otherwise, where dates are allowed and both parse, the two dates; otherwise text: a truthy string lower-cased, a falsy field as it is, the argument lower-cased or, when it is `null`, `null`; a truthy non-string throws |
| QueryEval.Compare | worker/components/database.js:263-290 | a falsy field passes only `field=null` on `null`; two numbers compare as numbers under `=`, `!`, `>`, `<`, `>=`, `<=`; a string against a non-numeric argument other than `null` compares lower-cased, by equality or by code-unit order; `~` is `Includes`; only a truthy non-string throws |
| QueryEval.Includes | worker/components/database.js:267-270 | `~` holds exactly when the field is truthy and its text contains the argument at some position, letter case ignored |
| JsValues.ContainsIgnoringCase | worker/components/database.js:268-269 | lower-casing both sides and testing `includes` is finding the argument at some position up to letter case |
| QueryEval.Quantify | worker/components/database.js:219-224 | `*` is the negation of `some`; `&` passes only where `some` does; on an empty array only `*` passes |
| QueryEval.RunQuerySound | worker/components/database.js:209-227 | whenever `_runQuery` does not throw, its answer is the declarative meaning of the line: the filters hold, on some element for arrays, and the child named by the next segment matches as the quantifier demands |
| QueryEval.EqNeComplement | worker/components/database.js:263-274 | on a truthy field, `!` is the negation of `=` and both throw together |
| QueryEval.GeIsNotLt | worker/components/database.js:279-286 | on a truthy field and an argument other than `null`, `>=` is the negation of `<` |
| QueryEval.TextAgainstNull | worker/components/database.js:275-290 | text that is not a number compared with the argument `null` fails every ordering filter |
| QueryEval.EqualsNullMeansNull | worker/components/database.js:271-274 | `field=null` holds exactly when the field is `null`, not the text "null" |
| QueryEval.HasIgnoresCase | worker/components/database.js:267-270 | `~` gives the same answer for any letter case of its argument |
| Joins.ChildMapGroups | worker/components/database.js:98-101 | the child map files every child under its key, in input order, and holds no empty group |
| Joins.ChildMap | worker/components/database.js:98-101 | building the child map throws exactly when some child is `null` or `undefined` |
| Joins.Attach | worker/components/database.js:108-112 | an object target gets the group under its key, or `undefined`; an array target is returned unchanged, the property being invisible to the value model; any other target throws |
| Joins.AttachAt | worker/components/database.js:103-114 | at the end of the path, an object target is attached, a falsy one left as is, and an array attaches every element, succeeding exactly when each does; along the path, `null` or `undefined` throws, and an object keeps every property other than the one stepped into |
| Joins.AttachAtStep | worker/components/database.js:104-106 | from an object, the join along a path succeeds exactly when the join below its first key does, and that property then holds the joined value below |
| Joins.LinkagesInverse | worker/components/database.js:78-95 | the orders–fulfillments and orders–customers linkages are each other's inverse |
| Joins.JoinOntoParents | worker/components/database.js:103-115 | joining onto the parents keeps every parent in place with its other properties and gives it exactly the children whose key matches its own, or nothing when none do |
| Joins.JoinThroughArrayField | worker/components/database.js:103-115 | joining through an array property of object elements keeps every parent in place with its other properties and the array's length, and gives each element exactly the children whose key matches its own, keeping its other properties |
| Joins.AttachAll | worker/components/database.js:104-114 | the join succeeds exactly when every parent's attachment does, and leaves one result per parent |
| Queries.Select | worker/components/database.js:160-162 | the filter throws when any record's test throws; otherwise it keeps a subsequence of the records in which every record whose test is true occurs as often as in the input, and no other record occurs |
| Queries.SelectMatches | worker/components/database.js:160-162 | the records kept are exactly those satisfying the line's meaning |
| Queries.JoinFreeQueryNarrows | worker/components/database.js:118-174 | a multi-line query that joins nothing answers with records of its starting data that satisfy every line |
| Queries.JoinFreeLineComplete | worker/components/database.js:118-174 | one line that joins nothing answers with records of its data in their order, including every one that satisfies the line |
| Queries.JoinFreeQueryComplete | worker/components/database.js:118-174 | a multi-line query that joins nothing answers with records of its starting data in their order, including every one that satisfies every line |
| Queries.Query | worker/components/database.js:118-174 | a found answer is typed by the first segment of the last line |
| Queries.AnswerLine | worker/components/database.js:120-136 | a line answers only when its primary type is a data type, and an unknown primary type is reported as such |
| Queries.UnknownLinkCannotConnect | worker/components/database.js:138-156 | a line whose first joined type has no linkage to the type before it answers "cannot connect", whatever the data |
| ReadTasks.NormaliseOrder | worker/components/data-task-manager.js:181-188 | an order keeps its other properties, its customer becomes the customer's id or `null`, and its fulfillments become their ids, returned separately |
| ReadTasks.NormaliseOrders | worker/components/data-task-manager.js:181-188 | normalisation succeeds exactly when it does for each order, and keeps one order per input |
| ReadTasks.NormaliseOrdersFulfillments | worker/components/data-task-manager.js:183-187 | the fulfillments stored separately are the orders' own fulfillments, in order |
| ReadTasks.OrdersReferenceTheirFulfillments | worker/components/data-task-manager.js:183-187 | the fulfillment ids the stored orders hold are exactly the ids of the stored fulfillments, in order |
| ReadTasks.OrderTasks | worker/components/data-task-manager.js:181-205 | the order task rejects exactly when an order cannot be normalised or the fulfillment events cannot be attached; otherwise it stores the backfill day's orders then the updated ones, each normalised; the fulfillments it stores are all the orders' own, in order, with events attached as `AttachEvents` gives them; and the orders reference exactly those fulfillments |
| ReadTasks.SubjectIds | worker/components/data-task-manager.js:170 | a `null` event throws; otherwise the ids are the `subject_id`s of the events of the requested type, in event order and one per event, repeats included |
| ReadTasks.OrderReads | worker/components/data-task-manager.js:168-179 | the order reads succeed exactly when the events have no `null` entry; the by-id read asks for the subject ids of the order events, and the by-date read, present only with a backfill day, reads that day widened by 180 minutes |
| ReadTasks.AttachEvents | worker/components/data-task-manager.js:190-198 | attaching fulfillment events changes no fulfillment's id or position |
| ReadTasks.LastEvents | worker/components/data-task-manager.js:195-197 | the events that stand for a gid are those of the last node carrying it, and there are none exactly when no node carries it |
| ReadTasks.AttachNodesDelivers | worker/components/data-task-manager.js:195-197 | attaching nodes one by one leaves the first fulfillment carrying each gid with the events of the last node for that gid, or untouched, and every later fulfillment with the same gid untouched; with distinct gids, every fulfillment with a truthy gid is the first |
| ReadTasks.AttachBatchesIsNodes | worker/components/data-task-manager.js:190-198 | querying batch after batch attaches the nodes of all replies in order |
| ReadTasks.AttachEventsDelivers | worker/components/data-task-manager.js:190-198 | when the events reads succeed, the first fulfillment carrying each gid receives the events of the last node any reply gives for it, or is left as it was when no reply mentions it; every later fulfillment with the same gid is left as it was |
| ReadTasks.AttachEventsMalformed | worker/components/data-task-manager.js:195-197 | an events reply that cannot be read rejects the whole fulfillment step |
| ReadTasks.FailedQueriesGiveEmptyEvents | worker/components/data-task-manager.js:190-198 | when every events query fails, the first fulfillment carrying each queried gid gets an empty event list and every other is untouched; with distinct gids, those are exactly the queried fulfillments |
| ReadTasks.InventoryRequests | worker/components/data-task-manager.js:273-281 | the inventory requests succeed exactly when the products are an array of non-null products with non-null variants; they then cover the variants' item ids in order, at most 100 per request |
| ReadTasks.PreviousProducts | worker/components/data-task-manager.js:143 | the previous cycle's products are those of the first result with truthy `products`, or the empty array when none has them |
| Shopify.Pace | worker/components/shopify.js:18-21 | the pace is slow exactly above 85% usage in the last minute and fast exactly at or below 65% |
| Shopify.PaceMonotone | worker/components/shopify.js:18-21 | more recent calls never give a faster pace |
| Shopify.RegisterCall | worker/components/shopify.js:15-22 | registering a call records it, forgets calls older than five minutes, keeps the rest, and sets the pace from the last minute's calls |
| Shopify.QuantifyUsage | worker/components/shopify.js:26-29 | the usage percentage is the ceiling of 100 × (calls in the last minute) / `calls_max` |
| Shopify.AfterWithinAtOrAfter | worker/components/shopify.js:18-27 | the calls `quantify_usage` counts (at or after a minute ago) include those `registerCall` counts (strictly after) |
| Shopify.SlowPaceReportsHighUsage | worker/components/shopify.js:15-29 | a call that makes the pace slow is reported as more than 85% usage |
| Shopify.Throttle | worker/components/shopify.js:66-68 | the wait is at least 50 ms, makes the request and the wait last at least the pace, and is one of those two bounds |
| Shopify.FailedRequestWaitsFullPace | worker/components/shopify.js:169-172 | a failed request, taking no time, waits the full pace |
| Shopify.ReadPagesFollowsLinks | worker/components/shopify.js:164-187 | a read that ends returns the items of the pages up to the first one without a next link, having requested the first parameters and then each page's link parameters; it never ends only if every page links on |
| Shopify.ReadPagesIgnoresLater | worker/components/shopify.js:164-187 | pages after the last one requested do not affect the result |
| Shopify.FailedRequestEndsRead | worker/components/shopify.js:169-182 | a failed request contributes no items and ends the read |
| Shopify.NextParamsOfLink | worker/components/shopify.js:178-182 | in a link header whose last path occurrence is followed by the parameters and `>;`, the next parameters are read back exactly |
| Shopify.BatchingTransparent | worker/components/shopify.js:267-277 | for a fetch that distributes over concatenation, reading ids in batches of 250 gives the same result as one read |
| Shopify.ById | worker/components/shopify.js:267-268 | no ids give no records |
| Shopify.ByDateWindow | worker/components/shopify.js:256-265 | the date read is widened by 180 minutes on both sides |
| Shopify.EventsWindow | worker/components/shopify.js:345-349 | the events read is widened by 60 minutes on both sides |
| Shopify.FulfillmentEvents | worker/components/shopify.js:224-247 | a failed events query gives every queried gid an empty event list, in order; a success whose nodes cannot be read rejects; any other success gives its nodes |
| Sync.RecentRange | worker/components/data-task-manager.js:433-439 | a cursor more than a day old gives exactly the day after the cursor, and only then does the window start at the cursor; otherwise the window runs from a minute before the cursor to now |
| Sync.WindowsCover | worker/components/data-task-manager.js:146-148 | successive cycles' recent windows cover every instant from the first cursor to the last, without a gap |
| Sync.CursorCatchesUp | worker/components/data-task-manager.js:146-148 | with the clock standing still, a cursor that has fallen behind reaches the clock after one cycle per day of lag |
| Sync.CustomerWindowsCover | worker/components/data-task-manager.js:146-148 | the corrected customer and discount windows are each cycle's recent window and cover every instant without a gap |
| Sync.CustomerWindowsAsWrittenLeaveGap | worker/components/data-task-manager.js:146-148 | as written, two cycles' customer windows miss an instant the recent windows cover |
| Sync.NextNoDataSleep | worker/components/data-task-manager.js:136-139 | outside the backoff condition, or with no previous sleep, the sleep is the default; in backoff it is the floor of 1.1 times the previous sleep, or ten minutes exactly when that reaches ten minutes |
| Sync.BackoffReachesCap | worker/components/data-task-manager.js:136-139 | idle cycles grow the sleep by at least a millisecond each until the ten-minute cap, where it stays |
| Sync.Backfill | worker/components/data-task-manager.js:173-179 | a cycle reads the day `step` days back unless `max_steps` is set and the step has passed it |
| Sync.DayWindow | worker/components/data-task-manager.js:175-176 | a backfill window spans exactly one day |
| Sync.BackfillCovers | worker/components/data-task-manager.js:173-179 | the backfill days 1 to n cover every instant of the last n days |
| Sync.UpdateShopInfo | worker/components/data-task-manager.js:286-296 | reading the shop sets `max_steps` to the number of days since creation, rounded up, changing nothing else; a failed read changes nothing |
| Sync.SendLogs | worker/components/data-task-manager.js:309-316 | sending logs re-reads the shop's `max_steps`; when a recount is due (never counted, ten minutes since the last, or the backfill unfinished) the time is stamped and `f_factor` recomputed, and otherwise both are kept; nothing else changes |
| Sync.Settle | worker/components/data-task-manager.js:90-93 | once a read cycle's queue resolves, its step advances by one exactly when `max_steps` has not been passed, and nothing else changes |
| Sync.BackfillReachesCreation | worker/components/data-task-manager.js:286-296 | once `max_steps` is set, every instant since the shop's creation lies in a backfill day that is still read |
| Sync.Run | worker/components/data-task-manager.js:52-259 | a rejected previous task ends the loop with nothing changed; otherwise the previous read cycle's step increment runs first, then the iteration disconnects, retries offline, initialises, collects garbage or reads, in that priority; every initialised iteration re-reads the shop's `max_steps` and may recount `f_factor` before deciding; garbage collection clears its flags; a read cycle reads the recent window's events and moves the cursor to its end; customers and discounts are read by `updated_at` over the recent window of that new cursor, which leaves the gap listed under Findings; customers and discounts read the backfill day of the step left after the re-sync; orders and products read that day too, or that of the step before the re-sync when the events name no such subject; the last backfill step forces a garbage collection; a due re-sync sets the step to 0; the step stays in range when `max_steps` does not shrink |
| Sync.Proceed | worker/components/data-task-manager.js:68-259 | online, an uninitialised database is initialised, a fragmented or flagged one is garbage-collected with both flags cleared, and otherwise a read cycle reads the recent window, moves the cursor to its end, grows or resets the idle sleep, and leaves its step increment pending; the last backfill step forces a garbage collection and records the sync; a due re-sync sets the step to 0; the updated-since window of customers and discounts is the recent window of the cursor already moved; their backfill day is that of the step left after the re-sync; orders and products read that day too, or that of the step before the re-sync when the events name no such subject |
| Sync.ForceSync | worker/components/data-task-manager.js:120-123 | `forceSync` clears the last sync time and nothing else |
| Sync.ForceSyncRestartsBackfill | worker/components/data-task-manager.js:97-100 | after `forceSync`, the next online iteration re-syncs and sets the step to 0, unless it is the read cycle of the last backfill day |
| Sync.StepStaysInRange | worker/components/data-task-manager.js:55-100 | with a fixed creation date and a clock that never goes back, over any number of iterations the step stays between 0 and `max_steps + 1` |
| Sync.RunAll | worker/components/data-task-manager.js:52-107 | the loop over successive iterations changes nothing without iterations or when the previous task rejected, and ends after settling the pending increment when the first iteration disconnects |
| Sync.RunAllStopsAtDisconnect | worker/components/data-task-manager.js:59 | once an iteration disconnects, no later iteration has any effect |
| Time.Widen | worker/components/common-class-extensions.js:15-23 | widening a window by n minutes keeps every instant it held and adds n minutes on each side |
| Time.CeilDiv | worker/components/data-task-manager.js:293 | `Math.ceil(a / b)` is the least integer whose multiple of b reaches a |
| Time.CeilDivMonotone | worker/components/data-task-manager.js:293 | a later clock reading never gives fewer days since creation |
| JsValues.IntToStringParses | worker/components/database.js:255-256 | an integer rendered as text parses back to the same number |
| JsValues.SplitJoin | worker/components/database.js:177 | splitting on newlines inverts joining lines that contain none |
| JsValues.Get | worker/components/database.js:106 | reading a property throws exactly on `null` and `undefined`; a missing property is `undefined` |

## Left out

- The minimum iteration duration, status reports, log files and the log messages: they are timing and I/O, not logic.
- The query cache (`use_caching`, on by default) and its TTL timers: `Queries.QueryText` reads a fixed table. In the source, `read` returns the cached array itself (database.js:422-423, 432) and `_join` writes into those records (database.js:103-111). A later query within the TTL therefore sees the properties an earlier join attached. For example, `orders:fulfillments` sets `fulfillments` to `undefined` on an order whose `fulfillments` was `[]`. A following `orders[fulfillments]` then drops that order, while a fresh read keeps it. The model answers every query from the stored records, as on a fresh read.
- Gzip, JSON serialisation and the filesystem: chunk files and indices are maps in memory. A chunk file that cannot be read or parsed is a missing chunk.
- `uuid.v4` is a parameter (`newChunk`, `uuid`), and `FreshNames` assumes fresh names. The clock is a parameter: one reading per iteration (`World.now`), and one per record when a batch is stamped (`Stamp`'s `clock`).
- `new Date(x)` parsing in the date filters is a parameter (`dateOf`). Two `Date` objects are never `===`, as in the source.
- Time zones and daylight saving time: a day is taken as 86400000 ms in `minusDays`/`plusDays`.
- Floating point: record write times are integers, numbers parsed in filters are reals (so no NaN beyond "does not parse"), and `f_factor > 1.1` is a flag.
- Object identity and JSON deep copies: values are immutable, so `parentCopy` aliasing and in-place mutation of fetched orders are modelled by returning new values.
- Array values receiving a joined property (`t[childType] = …` on an array): the value model has no named properties on arrays, so such a target is returned unchanged and the property is lost.
- `Promise.all` concurrency (parallel reads, inventory batches of four) is modelled sequentially. `Promise.all` keeps request order, so most results match. The inventory task is the exception: it pushes each reply as it completes (data-task-manager.js:276), so within a group of four requests the stored order depends on timing, while the model uses request order.
- Sync.Run: assumes a read cycle's queue resolves after the iteration has written its metadata, so its step increment runs at the start of the next iteration, after the re-sync check; a queue that finished earlier would increment before that check. The backfill day each task reads depends on timing too. With no Order events, `getOrdersById([])` returns without a request (shopify.js:268), so the order task reads the step before the re-sync; `World.orderEventsEmpty` records this, and `World.productEventsEmpty` does the same for products (shopify.js:297). Otherwise the model takes the step after the re-sync: for orders and products with events, and always for customers and discounts. This assumes their first request outlasts the rest of the iteration. The customer and discount windows use the iteration's clock reading, where the source reads the clock again after the events request.
- The `could not read filter` check of `query`: it never fires, since every parsed filter gets a function (an absent operator selects the existence test, an empty field the whole table).
- Shopify.NextParams: requires a non-empty path, which every caller passes.
- `shop.data` (the raw shop object stored in the metadata), `calls_epoch` and `describe_usage`: stored or reported, never used by the logic.
- The disconnect path's file deletion (`_doDisconnect`) is the `Disconnect` action, without its filesystem effects.
- The axios client, retry configuration and request timing measurement: a request's duration is a parameter of `Throttle`.
- Customer, product and discount tasks beyond their windows: `Sync.Run` states the windows and days they read. Their fetches are not modelled. Products are read by the ids of Product events and by creation day, like orders but without the normalisation. Customers and discounts are read by an `updated_at` window and by creation day. Each task stores the concatenation of its two reads with `recordFreshDataChunk`.
- Dedup.Deduplicate: the characterisation assumes positive write times. A zero or negative time interacts with the `unshift(0)` marker, and `DeduplicateDropsOnly` is all that is stated then.
- Storage.ValidateIndexHealth: an attempt's outcome is an input; what makes a read fail is outside the model.
- Reading.ReadMergedLatestWins: assumes every index entry's chunk holds that id, the invariant that `AppendKeepsRecordsBacked` and `GcKeepsRecordsBacked` preserve.
- Queries.JoinFreeQueryNarrows: stated for lines that join nothing; with joins, the records are transformed and only `Queries.Query`'s typing is stated.
- Queries.Query: states only the type of a found answer. Which records a query with joins returns is not stated beyond the join and filter contracts it is built from.
- Shopify.QuantifyUsage: computes `Math.ceil(100 * calls / calls_max)` exactly. With doubles the product can round up first: 22 calls of 40 give `100 * (22 / 40) = 55.00000000000001`, so the source reports 56 where the model reports 55.
- JsValues.Lower: lower-cases ASCII letters only. `toLowerCase` also maps other scripts (`É` to `é`), so `~`, `=`, `!` and the ordered filters can differ on non-ASCII text.
- QueryEval.HasIgnoresCase: holds for the ASCII lower-casing above, not for full Unicode case mapping.
- QueryEval.Coerce: numbers follow `JsValues.ParseNumber`, described next, and dates come from the `dateOf` parameter.
- JsValues.ParseNumber: accepts optionally signed decimals with a fraction, surrounded by ASCII whitespace, and the empty string as 0. Unary `+` also accepts exponents (`1e3`), hexadecimal, octal and binary literals (`0x10`), `Infinity`, and Unicode whitespace; such arguments are text here.
- JsValues.Value: `Num(n: int)` holds integer field values only. A fractional field value (a price such as 12.5) is outside the model, although filter arguments may be fractional.

## Findings

| source | as written | input that shows it | evidently intended | confidence | as-written member | corrected member |
|---|---|---|---|---|---|---|
| worker/components/data-task-manager.js:146-148 | the recent window's end is stored as the cursor before `generateCustomerTasks` and `generateDiscountTasks` call `_getRecentDateRange` again (lines 212-213, 254-255), so those reads cover only from a minute before the new cursor to now | cursor 0, cycles at 600000 and 1200000 ms: the recent windows cover 900000, the customer windows `[540000, 600000]` and `[1140000, 1200000]` do not | customers and discounts use the same recent window as the events read, so successive cycles leave no gap | not executed | Sync.CustomerWindowsAsWrittenLeaveGap | Sync.CustomerWindowsCover |

=== FILE: combinators.dfy ===
/**
 * Array combinators the application installs on `Array.prototype`:
 * the query quantifiers `some`, `none` and `existentialEvery`, and the
 * fixed-size batching `chunk`.
 */
module Combinators {

  /** `Array.prototype.some`: scans left to right until one element satisfies `q`. */
  function AnyOf<T>(s: seq<T>, q: T -> bool): (r: bool)
    ensures r <==> exists i :: 0 <= i < |s| && q(s[i])
  {
    if s == [] then false
    else q(s[0]) || AnyOf(s[1..], q)
  }

  /** `Array.prototype.every`: scans left to right until one element fails `q`. */
  function AllOf<T>(s: seq<T>, q: T -> bool): (r: bool)
    ensures r <==> forall i :: 0 <= i < |s| ==> q(s[i])
  {
    if s == [] then true
    else q(s[0]) && AllOf(s[1..], q)
  }

  /** `none`: the negation of `some`, hence true on an empty array. */
  function NoneOf<T>(s: seq<T>, q: T -> bool): (r: bool)
    ensures r <==> forall i :: 0 <= i < |s| ==> !q(s[i])
    ensures s == [] ==> r
  {
    !AnyOf(s, q)
  }

  /** `existentialEvery`: `every`, but false on an empty array. */
  function ExistentialEvery<T>(s: seq<T>, q: T -> bool): (r: bool)
    ensures r <==> |s| > 0 && forall i :: 0 <= i < |s| ==> q(s[i])
    ensures r ==> AnyOf(s, q)
  {
    |s| != 0 && AllOf(s, q)
  }

  /** `a` is `b` with some elements left out, the rest in their order. */
  predicate IsSubsequence<T(==)>(a: seq<T>, b: seq<T>)
    decreases |b|
  {
    a == [] ||
    (b != [] && ((a[0] == b[0] && IsSubsequence(a[1..], b[1..])) || IsSubsequence(a, b[1..])))
  }

  /** Leaving out elements twice leaves out elements once. */
  lemma {:induction false} SubsequenceTrans<T>(a: seq<T>, b: seq<T>, c: seq<T>)
    requires IsSubsequence(a, b) && IsSubsequence(b, c)
    ensures IsSubsequence(a, c)
    decreases |c|
  {
    if a != [] {
      if b[0] == c[0] && IsSubsequence(b[1..], c[1..]) {
        if a[0] == b[0] && IsSubsequence(a[1..], b[1..]) {
          SubsequenceTrans(a[1..], b[1..], c[1..]);
        } else {
          SubsequenceTrans(a, b[1..], c[1..]);
        }
      } else {
        SubsequenceTrans(a, b, c[1..]);
      }
    }
  }

  lemma {:induction false} SubsequenceMembers<T>(a: seq<T>, b: seq<T>, i: nat)
    requires IsSubsequence(a, b) && i < |a|
    ensures a[i] in b
    decreases |b|
  {
    if a[0] == b[0] && IsSubsequence(a[1..], b[1..]) {
      if i > 0 {
        SubsequenceMembers(a[1..], b[1..], i - 1);
        assert a[1..][i - 1] == a[i];
      }
    } else {
      SubsequenceMembers(a, b[1..], i);
    }
  }

  /** Concatenation of a sequence of batches (`flatMap(b => b)`). */
  function Flatten<T>(ss: seq<seq<T>>): seq<T>
  {
    if ss == [] then [] else Flatten(ss[..|ss| - 1]) + ss[|ss| - 1]
  }

  lemma {:induction false} FlattenAppend<T>(a: seq<seq<T>>, b: seq<seq<T>>)
    ensures Flatten(a + b) == Flatten(a) + Flatten(b)
    decreases |b|
  {
    if b == [] {
      assert a + b == a;
    } else {
      var b' := b[..|b| - 1];
      assert (a + b)[..|a + b| - 1] == a + b';
      FlattenAppend(a, b');
    }
  }

  lemma FlattenSingle<T>(s: seq<T>)
    ensures Flatten([s]) == s
  {
    assert [s][..0] == [];
  }

  /** Every element of a flattened batch list comes from one of the batches, and back. */
  lemma {:induction false} InFlatten<T>(ss: seq<seq<T>>, x: T)
    ensures x in Flatten(ss) <==> exists i :: 0 <= i < |ss| && x in ss[i]
    decreases |ss|
  {
    if ss != [] {
      var init := ss[..|ss| - 1];
      InFlatten(init, x);
      if x in Flatten(ss) && x !in ss[|ss| - 1] {
        var i :| 0 <= i < |init| && x in init[i];
        assert ss[i] == init[i];
      }
      if exists i :: 0 <= i < |ss| && x in ss[i] {
        var i :| 0 <= i < |ss| && x in ss[i];
        if i < |ss| - 1 {
          assert init[i] == ss[i];
        }
      }
    }
  }

  /** Either append `x` to the last batch (`join`) or open a new batch `[x]`. */
  function Extend<T>(acc: seq<seq<T>>, x: T, join: bool): (r: seq<seq<T>>)
    requires |acc| >= 1
    ensures |r| >= 1
  {
    if join then acc[..|acc| - 1] + [acc[|acc| - 1] + [x]]
    else acc + [[x]]
  }

  lemma ExtendFlatten<T>(acc: seq<seq<T>>, x: T, join: bool)
    requires |acc| >= 1
    ensures Flatten(Extend(acc, x, join)) == Flatten(acc) + [x]
  {
    var init := acc[..|acc| - 1];
    var r := Extend(acc, x, join);
    if join {
      assert r[..|r| - 1] == init;
    } else {
      assert r[..|r| - 1] == acc;
    }
  }

  /** One step of the `reduce` inside `chunk`: grow the last batch while it is short of `size`. */
  function ChunkPush<T>(acc: seq<seq<T>>, x: T, size: int): (r: seq<seq<T>>)
    requires |acc| >= 1
  {
    Extend(acc, x, |acc[|acc| - 1]| < size)
  }

  /** The `reduce` of `chunk` over `s`, started from `[[]]`. */
  function ChunkFold<T>(s: seq<T>, size: int): (acc: seq<seq<T>>)
    ensures |acc| >= 1
    ensures size <= 0 ==> acc[0] == []
    ensures size >= 1 ==> Flatten(acc) == s
    ensures size >= 1 ==> |acc[|acc| - 1]| <= size
    ensures size >= 1 ==> forall i :: 0 <= i < |acc| - 1 ==> |acc[i]| == size
    ensures size >= 1 && s != [] ==> forall i :: 0 <= i < |acc| ==> |acc[i]| >= 1
  {
    if s == [] then [[]]
    else
      var prev := ChunkFold(s[..|s| - 1], size);
      var x := s[|s| - 1];
      var acc := ChunkPush(prev, x, size);
      ExtendFlatten(prev, x, |prev[|prev| - 1]| < size);
      assert s == s[..|s| - 1] + [x];
      assert |s| == 1 ==> prev == [[]];
      ChunkPushShape(prev, x, size);
      acc
  }

  /** A push keeps every batch but the last full, and leaves no batch empty. */
  lemma ChunkPushShape<T>(prev: seq<seq<T>>, x: T, size: int)
    requires |prev| >= 1
    requires size <= 0 ==> prev[0] == []
    requires size >= 1 ==> |prev[|prev| - 1]| <= size && forall i :: 0 <= i < |prev| - 1 ==> |prev[i]| == size
    requires size >= 1 ==> prev == [[]] || forall i :: 0 <= i < |prev| ==> |prev[i]| >= 1
    ensures var acc := ChunkPush(prev, x, size);
      && (size <= 0 ==> acc[0] == [])
      && (size >= 1 ==> |acc[|acc| - 1]| <= size)
      && (size >= 1 ==> forall i :: 0 <= i < |acc| - 1 ==> |acc[i]| == size)
      && (size >= 1 ==> forall i :: 0 <= i < |acc| ==> |acc[i]| >= 1)
  {
    var acc := ChunkPush(prev, x, size);
    if |prev[|prev| - 1]| < size {
      assert acc == prev[..|prev| - 1] + [prev[|prev| - 1] + [x]];
    } else {
      assert acc == prev + [[x]];
    }
  }

  /**
   * `Array.prototype.chunk(size)`: consecutive batches of `size` elements,
   * the last one possibly shorter. The leading batch of the fold is empty
   * exactly when the input is empty or `size <= 0`, and then `[]` is returned.
   */
  function Chunk<T>(s: seq<T>, size: int): (r: seq<seq<T>>)
    ensures s == [] || size <= 0 ==> r == []
    ensures size >= 1 ==> Flatten(r) == s
    ensures size >= 1 ==> forall i :: 0 <= i < |r| ==> 1 <= |r[i]| <= size
    ensures size >= 1 ==> forall i :: 0 <= i < |r| - 1 ==> |r[i]| == size
  {
    var acc := ChunkFold(s, size);
    if acc[0] == [] then [] else acc
  }

  /** The position of the first occurrence of `x` in `s`. */
  function FirstIndex<T(==)>(s: seq<T>, x: T): (i: nat)
    requires x in s
    ensures i < |s| && s[i] == x
    ensures forall j :: 0 <= j < i ==> s[j] != x
  {
    if s[0] == x then 0 else 1 + FirstIndex(s[1..], x)
  }

  /** Appending an element does not move the first occurrence of anything already present. */
  lemma FirstIndexAppend<T>(p: seq<T>, x: T, y: T)
    requires y in p
    ensures y in p + [x] && FirstIndex(p + [x], y) == FirstIndex(p, y)
  {
    var s := p + [x];
    var a := FirstIndex(s, y);
    var b := FirstIndex(p, y);
    assert s[b] == y;
  }

  /**
   * `Array.from(new Set(s))`: every element of `s` once, in the order of
   * its first occurrence.
   */
  function Distinct<T(==)>(s: seq<T>): (r: seq<T>)
    ensures forall i :: 0 <= i < |s| ==> s[i] in r
    ensures forall i :: 0 <= i < |r| ==> r[i] in s
    ensures forall i, j :: 0 <= i < j < |r| ==> r[i] != r[j]
    ensures forall i, j :: 0 <= i < j < |r| ==> FirstIndex(s, r[i]) < FirstIndex(s, r[j])
  {
    if s == [] then []
    else
      var p := s[..|s| - 1];
      var d := Distinct(p);
      var x := s[|s| - 1];
      assert s == p + [x];
      forall y | y in d
        ensures FirstIndex(s, y) == FirstIndex(p, y) < |p|
      {
        FirstIndexAppend(p, x, y);
      }
      if x in d then d
      else
        assert x !in p;
        assert FirstIndex(s, x) == |p|;
        d + [x]
  }
}

=== FILE: dedup.dfy ===
/**
 * Read-time deduplication (`Database.deduplicate`): of all records sharing
 * an id, keep the first one that carries that id's greatest write time.
 */
module Dedup {
  import opened Combinators

  /** Record ids are object keys, hence strings. */
  type Id = string

  /** A stored record: its id, the `_metadata_write_time` stamp, and an opaque body. */
  datatype Record = Record(id: Id, writeTime: int, body: string)

  predicate HasId(data: seq<Record>, id: Id)
  {
    exists i :: 0 <= i < |data| && data[i].id == id
  }

  function IdSet(data: seq<Record>): set<Id>
  {
    set i | 0 <= i < |data| :: data[i].id
  }

  /** The greatest write time among the records with `id` (the head of the descending sort). */
  function MaxTime(data: seq<Record>, id: Id): (m: int)
    ensures HasId(data, id) ==> exists i :: 0 <= i < |data| && data[i].id == id && data[i].writeTime == m
    ensures forall i :: 0 <= i < |data| && data[i].id == id ==> data[i].writeTime <= m
  {
    if data == [] then 0
    else
      var rest := MaxTime(data[1..], id);
      assert forall i :: 1 <= i < |data| ==> data[i] == data[1..][i - 1];
      if data[0].id != id then rest
      else if HasId(data[1..], id) && rest > data[0].writeTime then rest
      else data[0].writeTime
  }

  /**
   * Reference meaning of "kept": record `i` carries its id's greatest write
   * time, and no earlier record of that id carries it too.
   */
  ghost predicate Live(data: seq<Record>, i: int)
    requires 0 <= i < |data|
  {
    && data[i].writeTime == MaxTime(data, data[i].id)
    && forall j :: 0 <= j < i && data[j].id == data[i].id ==> data[j].writeTime != data[i].writeTime
  }

  /** The live records of `data[k..]`, in input order. */
  ghost function LiveFrom(data: seq<Record>, k: nat): seq<Record>
    requires k <= |data|
    decreases |data| - k
  {
    if k == |data| then []
    else (if Live(data, k) then [data[k]] else []) + LiveFrom(data, k + 1)
  }

  /** The id's greatest write time occurs before position `k`. */
  ghost predicate MaxSeenBefore(data: seq<Record>, k: int, id: Id)
  {
    exists j :: 0 <= j < k && j < |data| && data[j].id == id && data[j].writeTime == MaxTime(data, id)
  }

  /**
   * The `filter` pass: `head[id]` is the front of `idWriteTimes[id]`, which
   * starts as the greatest write time and becomes 0 (`unshift(0)`) once a
   * record of that id has been kept.
   */
  function DedupPass(data: seq<Record>, k: nat, head: map<Id, int>): seq<Record>
    requires k <= |data|
    decreases |data| - k
  {
    if k == |data| then []
    else
      var d := data[k];
      if d.id in head && d.writeTime == head[d.id] then [d] + DedupPass(data, k + 1, head[d.id := 0])
      else DedupPass(data, k + 1, head)
  }

  /** The table of greatest write times built by the `forEach`. */
  function InitialHeads(data: seq<Record>): map<Id, int>
  {
    map id | id in IdSet(data) :: MaxTime(data, id)
  }

  ghost predicate HeadsAt(data: seq<Record>, k: int, head: map<Id, int>)
  {
    forall i :: 0 <= i < |data| ==>
      data[i].id in head &&
      head[data[i].id] == (if MaxSeenBefore(data, k, data[i].id) then 0 else MaxTime(data, data[i].id))
  }

  ghost predicate PositiveTimes(data: seq<Record>)
  {
    forall i :: 0 <= i < |data| ==> data[i].writeTime > 0
  }

  lemma {:induction false} DedupPassIsLive(data: seq<Record>, k: nat, head: map<Id, int>)
    requires k <= |data| && PositiveTimes(data) && HeadsAt(data, k, head)
    ensures DedupPass(data, k, head) == LiveFrom(data, k)
    decreases |data| - k
  {
    if k < |data| {
      var d := data[k];
      var seen := MaxSeenBefore(data, k, d.id);
      assert Live(data, k) <==> d.writeTime == MaxTime(data, d.id) && !seen;
      if d.writeTime == head[d.id] {
        var head' := head[d.id := 0];
        forall i | 0 <= i < |data|
          ensures data[i].id in head' &&
            head'[data[i].id] == (if MaxSeenBefore(data, k + 1, data[i].id) then 0 else MaxTime(data, data[i].id))
        {
          if data[i].id == d.id {
            assert MaxSeenBefore(data, k + 1, d.id) by {
              assert data[k].id == d.id && data[k].writeTime == MaxTime(data, d.id);
            }
          } else if MaxSeenBefore(data, k + 1, data[i].id) {
            var j :| 0 <= j < k + 1 && j < |data| && data[j].id == data[i].id && data[j].writeTime == MaxTime(data, data[i].id);
            assert j < k;
          }
        }
        DedupPassIsLive(data, k + 1, head');
      } else {
        forall i | 0 <= i < |data|
          ensures head[data[i].id] == (if MaxSeenBefore(data, k + 1, data[i].id) then 0 else MaxTime(data, data[i].id))
        {
          if MaxSeenBefore(data, k + 1, data[i].id) {
            var j :| 0 <= j < k + 1 && j < |data| && data[j].id == data[i].id && data[j].writeTime == MaxTime(data, data[i].id);
            if j < k {
              assert MaxSeenBefore(data, k, data[i].id);
            }
          }
        }
        DedupPassIsLive(data, k + 1, head);
      }
    }
  }

  /**
   * `deduplicate`: with positive write times (they are clock readings) the
   * result is exactly the live records, in input order.
   */
  function Deduplicate(data: seq<Record>): (r: seq<Record>)
    ensures PositiveTimes(data) ==> r == LiveFrom(data, 0)
  {
    DedupIsLive(data);
    DedupPass(data, 0, InitialHeads(data))
  }

  lemma DedupIsLive(data: seq<Record>)
    ensures PositiveTimes(data) ==> DedupPass(data, 0, InitialHeads(data)) == LiveFrom(data, 0)
  {
    if PositiveTimes(data) {
      DedupPassIsLive(data, 0, InitialHeads(data));
    }
  }

  /** No two records share an id. */
  ghost predicate DistinctIds(s: seq<Record>)
  {
    forall i, j :: 0 <= i < j < |s| ==> s[i].id != s[j].id
  }

  /** `a` is `b` with some elements dropped, order kept. */
  lemma {:induction false} LiveFromIsSubsequence(data: seq<Record>, k: nat)
    requires k <= |data|
    ensures IsSubsequence(LiveFrom(data, k), data[k..])
    decreases |data| - k
  {
    if k < |data| {
      LiveFromIsSubsequence(data, k + 1);
      assert data[k..] == [data[k]] + data[k + 1..];
      var rest := LiveFrom(data, k + 1);
      assert data[k..][0] == data[k] && data[k..][1..] == data[k + 1..];
      if Live(data, k) {
        assert ([data[k]] + rest)[1..] == rest;
      } else {
        assert LiveFrom(data, k) == rest;
      }
    }
  }

  lemma LiveUnique(data: seq<Record>, i: int, j: int)
    requires 0 <= i < |data| && 0 <= j < |data| && Live(data, i) && Live(data, j)
    requires data[i].id == data[j].id
    ensures i == j
  {
  }

  lemma {:induction false} LiveFromMembers(data: seq<Record>, k: nat)
    requires k <= |data|
    ensures forall x :: x in LiveFrom(data, k) ==>
      exists i :: k <= i < |data| && data[i] == x && Live(data, i)
    decreases |data| - k
  {
    if k < |data| {
      LiveFromMembers(data, k + 1);
    }
  }

  lemma {:induction false} LiveFromDistinct(data: seq<Record>, k: nat)
    requires k <= |data|
    ensures DistinctIds(LiveFrom(data, k))
    decreases |data| - k
  {
    if k < |data| {
      LiveFromDistinct(data, k + 1);
      var rest := LiveFrom(data, k + 1);
      if Live(data, k) {
        LiveFromMembers(data, k + 1);
        var s := [data[k]] + rest;
        forall i, j | 0 <= i < j < |s|
          ensures s[i].id != s[j].id
        {
          if i == 0 {
            assert s[j] == rest[j - 1] && s[j] in rest;
            var m :| k + 1 <= m < |data| && data[m] == s[j] && Live(data, m);
            if data[k].id == data[m].id {
              LiveUnique(data, k, m);
            }
          } else {
            assert s[i] == rest[i - 1] && s[j] == rest[j - 1];
          }
        }
      }
    }
  }

  lemma {:induction false} LiveInLiveFrom(data: seq<Record>, i: int, k: nat)
    requires k <= i < |data| && Live(data, i)
    ensures data[i] in LiveFrom(data, k)
    decreases |data| - k
  {
    if k < i {
      LiveInLiveFrom(data, i, k + 1);
    }
  }

  /** The first record of `id` carrying the greatest time, searching from `k`, is live. */
  lemma {:induction false} FirstMaxIsLive(data: seq<Record>, id: Id, k: nat)
    requires k <= |data|
    requires exists j :: k <= j < |data| && data[j].id == id && data[j].writeTime == MaxTime(data, id)
    requires !MaxSeenBefore(data, k, id)
    ensures exists i :: 0 <= i < |data| && data[i].id == id && Live(data, i)
    decreases |data| - k
  {
    if data[k].id == id && data[k].writeTime == MaxTime(data, id) {
      assert Live(data, k);
    } else {
      FirstMaxIsLive(data, id, k + 1);
    }
  }

  /** Latest write wins: one record per id survives, carrying that id's greatest write time. */
  lemma DeduplicateKeepsLatestPerId(data: seq<Record>)
    requires PositiveTimes(data)
    ensures var r := Deduplicate(data);
      && IsSubsequence(r, data)
      && DistinctIds(r)
      && IdSet(r) == IdSet(data)
      && forall i :: 0 <= i < |r| ==> r[i] in data && r[i].writeTime == MaxTime(data, r[i].id)
  {
    var r := Deduplicate(data);
    LiveFromIsSubsequence(data, 0);
    assert data[0..] == data;
    LiveFromDistinct(data, 0);
    LiveFromMembers(data, 0);
    forall i | 0 <= i < |r|
      ensures r[i] in data && r[i].writeTime == MaxTime(data, r[i].id)
    {
      assert r[i] in r;
    }
    forall id | id in IdSet(data)
      ensures id in IdSet(r)
    {
      DeduplicateKeepsId(data, id);
    }
    forall id | id in IdSet(r)
      ensures id in IdSet(data)
    {
      var p :| 0 <= p < |r| && r[p].id == id;
      assert r[p] in r;
      var m :| 0 <= m < |data| && data[m] == r[p] && Live(data, m);
    }
  }

  lemma DeduplicateKeepsId(data: seq<Record>, id: Id)
    requires PositiveTimes(data) && id in IdSet(data)
    ensures id in IdSet(Deduplicate(data))
  {
    var i := LiveOfId(data, id);
    LiveInLiveFrom(data, i, 0);
    var r := Deduplicate(data);
    var p :| 0 <= p < |r| && r[p] == data[i];
  }

  /** Every id present has a live record. */
  lemma LiveOfId(data: seq<Record>, id: Id) returns (i: nat)
    requires id in IdSet(data)
    ensures i < |data| && data[i].id == id && Live(data, i)
  {
    var j :| 0 <= j < |data| && data[j].id == id;
    assert HasId(data, id);
    FirstMaxIsLive(data, id, 0);
    i :| 0 <= i < |data| && data[i].id == id && Live(data, i);
  }

  lemma {:induction false} DistinctIdsAllLive(s: seq<Record>, k: nat)
    requires k <= |s| && DistinctIds(s)
    ensures LiveFrom(s, k) == s[k..]
    decreases |s| - k
  {
    if k < |s| {
      DistinctIdsAllLive(s, k + 1);
      assert HasId(s, s[k].id);
      var m :| 0 <= m < |s| && s[m].id == s[k].id && s[m].writeTime == MaxTime(s, s[k].id);
      assert m == k;
      assert Live(s, k);
      assert s[k..] == [s[k]] + s[k + 1..];
    }
  }

  /** Deduplicating an already deduplicated list changes nothing. */
  lemma DeduplicateIdempotent(data: seq<Record>)
    requires PositiveTimes(data)
    ensures Deduplicate(Deduplicate(data)) == Deduplicate(data)
  {
    var r := Deduplicate(data);
    DeduplicateKeepsLatestPerId(data);
    assert PositiveTimes(r) by {
      forall i | 0 <= i < |r|
        ensures r[i].writeTime > 0
      {
        var m :| 0 <= m < |data| && data[m] == r[i];
      }
    }
    DistinctIdsAllLive(r, 0);
    assert r[0..] == r;
  }

  lemma {:induction false} DedupPassMembers(data: seq<Record>, k: nat, head: map<Id, int>)
    requires k <= |data|
    ensures forall x :: x in DedupPass(data, k, head) ==> x in data[k..]
    decreases |data| - k
  {
    if k < |data| {
      var d := data[k];
      var head' := if d.id in head && d.writeTime == head[d.id] then head[d.id := 0] else head;
      DedupPassMembers(data, k + 1, head');
      assert data[k..] == [d] + data[k + 1..];
    }
  }

  /** Whatever the write times, deduplication only ever drops records. */
  lemma DeduplicateDropsOnly(data: seq<Record>)
    ensures forall x :: x in Deduplicate(data) ==> x in data
    ensures IdSet(Deduplicate(data)) <= IdSet(data)
  {
    DedupPassMembers(data, 0, InitialHeads(data));
    assert data[0..] == data;
    var r := Deduplicate(data);
    forall id | id in IdSet(r)
      ensures id in IdSet(data)
    {
      var p :| 0 <= p < |r| && r[p].id == id;
      assert r[p] in r;
    }
  }

  /** The records carrying `id`, in order (`filter(d => d.id === id)`). */
  function WithId(data: seq<Record>, id: Id): (r: seq<Record>)
    ensures forall x :: x in r <==> x in data && x.id == id
    decreases |data|
  {
    if data == [] then []
    else
      assert forall x :: x in data <==> x == data[0] || x in data[1..];
      (if data[0].id == id then [data[0]] else []) + WithId(data[1..], id)
  }

  /** Some record from position `k` on carries `id`. */
  predicate HasIdFrom(data: seq<Record>, k: nat, id: Id)
  {
    exists i :: k <= i < |data| && data[i].id == id
  }

  /**
   * When every record of `id` from `k` on is the same record `b`, whose
   * write time is not the 0 marker, the filter pass keeps `b` once when the
   * table still holds its time, and never once the marker is in place.
   */
  lemma {:induction false} DedupPassOneOf(data: seq<Record>, k: nat, head: map<Id, int>, b: Record)
    requires k <= |data| && b.writeTime != 0
    requires forall i :: k <= i < |data| && data[i].id == b.id ==> data[i] == b
    requires HasIdFrom(data, k, b.id) ==> b.id in head
    requires b.id in head ==> head[b.id] == b.writeTime || head[b.id] == 0
    ensures WithId(DedupPass(data, k, head), b.id)
         == (if HasIdFrom(data, k, b.id) && head[b.id] == b.writeTime then [b] else [])
    decreases |data| - k
  {
    if k < |data| {
      var d := data[k];
      var head' := if d.id in head && d.writeTime == head[d.id] then head[d.id := 0] else head;
      DedupPassOneOf(data, k + 1, head', b);
      var rest := DedupPass(data, k + 1, head');
      if d.id == b.id {
        assert HasIdFrom(data, k, b.id);
      } else {
        assert HasIdFrom(data, k, b.id) == HasIdFrom(data, k + 1, b.id) by {
          if HasIdFrom(data, k, b.id) {
            var i :| k <= i < |data| && data[i].id == b.id;
            assert i != k;
          }
        }
      }
      if d.id in head && d.writeTime == head[d.id] {
        assert DedupPass(data, k, head) == [d] + rest;
        assert ([d] + rest)[1..] == rest;
      }
    }
  }

  /**
   * A record `b` that stands for every record of its id, with a write time
   * other than the 0 marker, survives deduplication exactly once when
   * present.
   */
  lemma DeduplicateKeepsOneOf(data: seq<Record>, b: Record)
    requires b.writeTime != 0
    requires forall i :: 0 <= i < |data| && data[i].id == b.id ==> data[i] == b
    ensures WithId(Deduplicate(data), b.id) == (if b in data then [b] else [])
  {
    if b in data {
      var i :| 0 <= i < |data| && data[i] == b;
      assert HasIdFrom(data, 0, b.id);
      assert HasId(data, b.id);
    } else {
      assert !HasIdFrom(data, 0, b.id);
    }
    DedupPassOneOf(data, 0, InitialHeads(data), b);
  }
}

=== FILE: gc.dfy ===
/**
 * The compaction pass (`gcTasks`) for one data type: the index keys are
 * grouped into "pure" piles, every pile's chunk files are read, purged of
 * unindexed and foreign records, deduplicated and written to a new chunk,
 * the index is pointed at the new chunks, and every chunk the old index
 * named is deleted. New chunk ids (uuid v4) are the parameter `uuid`:
 * pile `j` is written to `uuid(j)`.
 */
module Collector {
  import opened Combinators
  import opened PureChunking
  import opened Dedup
  import opened Storage

  /** The piles of record ids; no chunk is referenced by two piles. */
  function Piles(index: Index, keys: seq<Id>, size: int): seq<seq<Id>>
  {
    PureChunk(keys, size, ChunkOf(index))
  }

  /** The two `filter`s: keep records with a truthy id that is indexed and belongs to this pile. */
  function Purge(data: seq<Record>, index: Index, pile: seq<Id>): (r: seq<Record>)
    ensures forall x :: x in r <==> x in data && x.id != "" && x.id in index && x.id in pile
    decreases |data|
  {
    if data == [] then []
    else
      var d := data[0];
      var rest := Purge(data[1..], index, pile);
      assert forall x :: x in data <==> x == d || x in data[1..];
      if d.id != "" && d.id in index && d.id in pile then [d] + rest else rest
  }

  /** What pile `pile` writes to its new chunk. */
  function Compact(s: Shelf, pile: seq<Id>): seq<Record>
  {
    Deduplicate(Purge(LoadChunks(s.chunks, ReferencedChunks(s.index, pile)), s.index, pile))
  }

  lemma CompactIds(s: Shelf, pile: seq<Id>)
    ensures forall x :: x in Compact(s, pile) ==> x.id != "" && x.id in s.index && x.id in pile
    ensures IdSet(Compact(s, pile)) <= s.index.Keys
  {
    DeduplicateDropsOnly(Purge(LoadChunks(s.chunks, ReferencedChunks(s.index, pile)), s.index, pile));
  }

  /** What every pile writes to its new chunk. */
  function Outputs(s: Shelf, piles: seq<seq<Id>>): (outs: seq<seq<Record>>)
    ensures |outs| == |piles|
    ensures forall j :: 0 <= j < |piles| ==> outs[j] == Compact(s, piles[j])
  {
    seq(|piles|, j requires 0 <= j < |piles| => Compact(s, piles[j]))
  }

  /** The `Object.assign` of the piles' change maps `{id: uuid(j)}`, first `k` piles. */
  function AllChanges(outs: seq<seq<Record>>, uuid: nat -> ChunkId, k: nat): (r: Index)
    requires k <= |outs|
    ensures forall id :: id in r ==> exists j :: 0 <= j < k && id in IdSet(outs[j]) && r[id] == uuid(j)
    ensures forall j, id :: 0 <= j < k && id in IdSet(outs[j]) ==> id in r
  {
    if k == 0 then map[]
    else
      var ids := IdSet(outs[k - 1]);
      var c := uuid(k - 1);
      AllChanges(outs, uuid, k - 1) + map id | id in ids :: c
  }

  /** The new chunk files of the first `k` piles (a later pile wins a uuid collision). */
  function NewFiles<K, V>(outs: seq<V>, uuid: nat -> K, k: nat): map<K, V>
    requires k <= |outs|
  {
    if k == 0 then map[]
    else NewFiles(outs, uuid, k - 1)[uuid(k - 1) := outs[k - 1]]
  }

  /** The new files are named exactly by the first `k` uuids. */
  lemma {:induction false} NewFilesNames<K, V>(outs: seq<V>, uuid: nat -> K, k: nat)
    requires k <= |outs|
    ensures forall j :: 0 <= j < k ==> uuid(j) in NewFiles(outs, uuid, k)
    ensures forall c :: c in NewFiles(outs, uuid, k) ==> exists j :: 0 <= j < k && uuid(j) == c
  {
    if k > 0 {
      NewFilesNames(outs, uuid, k - 1);
    }
  }

  lemma UpdateOther<K, V>(m: map<K, V>, a: K, b: K, v: V)
    requires b in m && a != b
    ensures m[a := v][b] == m[b]
  {
  }

  /** With distinct names, pile `j`'s file holds pile `j`'s records. */
  lemma {:induction false} NewFileOf<K, V>(outs: seq<V>, uuid: nat -> K, k: nat, j: nat)
    requires j < k <= |outs|
    requires forall i :: j < i < k ==> uuid(i) != uuid(j)
    ensures uuid(j) in NewFiles(outs, uuid, k) && NewFiles(outs, uuid, k)[uuid(j)] == outs[j]
    decreases k
  {
    var m := NewFiles(outs, uuid, k - 1);
    assert NewFiles(outs, uuid, k) == m[uuid(k - 1) := outs[k - 1]];
    if j < k - 1 {
      NewFileOf(outs, uuid, k - 1, j);
      UpdateOther(m, uuid(k - 1), uuid(j), outs[k - 1]);
    }
  }

  /**
   * The second half of `gcTasks` for one type, given its piles: write the
   * new chunks, merge the index changes into the index as read again
   * (`reread` is the outcome of that read; `{}` when it fails), then
   * delete every chunk the old index named.
   */
  function Rewrite(s: Shelf, piles: seq<seq<Id>>, uuid: nat -> ChunkId, reread: bool): (r: Shelf)
    ensures r.index.Keys <= s.index.Keys
    ensures reread ==> r.index.Keys == s.index.Keys
    ensures forall id :: id in r.index ==> r.index[id] == s.index[id] || exists j :: r.index[id] == uuid(j)
    ensures !reread ==> forall id :: id in r.index ==> exists j :: r.index[id] == uuid(j)
    ensures forall c :: c in s.index.Values ==> c !in r.chunks
    ensures forall c :: c in r.chunks ==> c in s.chunks || exists j :: c == uuid(j)
  {
    var outs := Outputs(s, piles);
    var changes := AllChanges(outs, uuid, |outs|);
    var files := NewFiles(outs, uuid, |outs|);
    NewFilesNames(outs, uuid, |outs|);
    assert changes.Keys <= s.index.Keys by {
      forall id | id in changes
        ensures id in s.index
      {
        var j :| 0 <= j < |outs| && id in IdSet(outs[j]) && changes[id] == uuid(j);
        CompactIds(s, piles[j]);
      }
    }
    Shelf(MergeIndexChanges(s.index, reread, changes), (s.chunks + files) - s.index.Values)
  }

  /**
   * An indexed id that no pile's new chunk holds (its record was not
   * found) keeps its old entry, yet that chunk is deleted: the entry is
   * left dangling. When the index cannot be read again the id is dropped.
   */
  lemma RewriteOrphansUnfound(s: Shelf, piles: seq<seq<Id>>, uuid: nat -> ChunkId, reread: bool, id: Id)
    requires id in s.index
    requires forall j :: 0 <= j < |piles| ==> id !in IdSet(Compact(s, piles[j]))
    ensures var r := Rewrite(s, piles, uuid, reread);
      && (reread ==> id in r.index && r.index[id] == s.index[id] && r.index[id] !in r.chunks)
      && (!reread ==> id !in r.index)
  {
    var outs := Outputs(s, piles);
    var changes := AllChanges(outs, uuid, |outs|);
    assert id !in changes;
  }

  /**
   * `gcTasks` for one type; `keys` is the index's `Object.keys` order,
   * `firstRead` and `reread` the outcomes of its two reads of the index.
   * When the first read fails the pass sees `{}`: it forms no pile, writes
   * and deletes nothing, and only writes back the index it reads again.
   */
  function Gc(s: Shelf, keys: seq<Id>, size: int, uuid: nat -> ChunkId, firstRead: bool, reread: bool): Shelf
  {
    if !firstRead then Shelf(MergeIndexChanges(s.index, reread, map[]), s.chunks)
    else Rewrite(s, Piles(s.index, keys, size), uuid, reread)
  }

  /** Fresh uuids: distinct, and none of them names an existing chunk. */
  ghost predicate FreshNames(s: Shelf, uuid: nat -> ChunkId)
  {
    && (forall j, j' :: j != j' ==> uuid(j) != uuid(j'))
    && (forall j :: uuid(j) !in s.chunks)
  }

  /** Every indexed id sits in exactly the pile with its position `j`; no other pile holds it. */
  lemma PileOf(s: Shelf, keys: seq<Id>, size: int, id: Id) returns (j: nat)
    requires size >= 1 && id in keys && (forall i :: 0 <= i < |keys| ==> keys[i] in s.index)
    ensures var piles := Piles(s.index, keys, size);
      && j < |piles| && id in piles[j]
      && forall j' :: 0 <= j' < |piles| && j' != j ==> id !in piles[j']
  {
    var piles := Piles(s.index, keys, size);
    PureChunkPermutation(keys, size, ChunkOf(s.index));
    assert id in multiset(keys);
    assert id in Flatten(piles);
    InFlatten(piles, id);
    var i :| 0 <= i < |piles| && id in piles[i];
    j := i;
    forall j' | 0 <= j' < |piles| && j' != j
      ensures id !in piles[j']
    {
      if id in piles[j'] {
        var a :| 0 <= a < |piles[j]| && piles[j][a] == id;
        var b :| 0 <= b < |piles[j']| && piles[j'][b] == id;
        PureChunkIsPure(keys, size, ChunkOf(s.index), j, j', a, b);
      }
    }
  }

  /** The records loaded for a pile all carry positive write times. */
  lemma LoadedStamped(s: Shelf, pile: seq<Id>)
    requires Stamped(s)
    ensures PositiveTimes(Purge(LoadChunks(s.chunks, ReferencedChunks(s.index, pile)), s.index, pile))
  {
    var cs := ReferencedChunks(s.index, pile);
    var loaded := LoadChunks(s.chunks, cs);
    LoadChunksStamped(s, cs);
    var purged := Purge(loaded, s.index, pile);
    forall m | 0 <= m < |purged|
      ensures purged[m].writeTime > 0
    {
      var x := purged[m];
      assert x in purged;
      assert x in loaded && x != Blank;
      var n :| 0 <= n < |loaded| && loaded[n] == x;
    }
  }

  /** A pile's indexed id whose chunk holds it is among the purged records of the pile. */
  lemma PurgedHas(s: Shelf, pile: seq<Id>, id: Id)
    requires id in pile && id in s.index && id != ""
    requires s.index[id] in s.chunks && HasId(s.chunks[s.index[id]], id)
    ensures id in IdSet(Purge(LoadChunks(s.chunks, ReferencedChunks(s.index, pile)), s.index, pile))
  {
    var c := s.index[id];
    var q :| 0 <= q < |s.chunks[c]| && s.chunks[c][q].id == id;
    var x := s.chunks[c][q];
    LoadedHas(s, pile, id, x);
    PurgeKeeps(LoadChunks(s.chunks, ReferencedChunks(s.index, pile)), s.index, pile, x);
  }

  lemma PurgeKeeps(data: seq<Record>, index: Index, pile: seq<Id>, x: Record)
    requires x in data && x.id != "" && x.id in index && x.id in pile
    ensures x.id in IdSet(Purge(data, index, pile))
  {
    var purged := Purge(data, index, pile);
    var m :| 0 <= m < |purged| && purged[m] == x;
  }

  lemma LoadedHas(s: Shelf, pile: seq<Id>, id: Id, x: Record)
    requires id in pile && id in s.index
    requires s.index[id] in s.chunks && x in s.chunks[s.index[id]]
    ensures x in LoadChunks(s.chunks, ReferencedChunks(s.index, pile))
  {
    var related := ReferencedChunks(s.index, pile);
    var c := s.index[id];
    var i :| 0 <= i < |pile| && pile[i] == id;
    assert c in related;
    var p :| 0 <= p < |related| && related[p] == c;
    assert x in s.chunks[related[p]];
  }

  /** An indexed id whose chunk holds it survives into its pile's new chunk. */
  lemma CompactKeeps(s: Shelf, pile: seq<Id>, id: Id)
    requires Stamped(s) && id in pile && id in s.index && id != ""
    requires s.index[id] in s.chunks && HasId(s.chunks[s.index[id]], id)
    ensures id in IdSet(Compact(s, pile))
  {
    LoadedStamped(s, pile);
    PurgedHas(s, pile, id);
    DeduplicateKeepsLatestPerId(Purge(LoadChunks(s.chunks, ReferencedChunks(s.index, pile)), s.index, pile));
  }

  /** Every indexed id lies in exactly one pile. */
  ghost predicate Partitions(index: Index, piles: seq<seq<Id>>)
  {
    && (forall id :: id in index ==> exists j :: 0 <= j < |piles| && id in piles[j])
    && (forall j, j', id :: 0 <= j < |piles| && 0 <= j' < |piles| && id in piles[j] && id in piles[j'] ==> j == j')
  }

  /** With fresh names, pile `j`'s new chunk survives the deletion of the old ones. */
  lemma RewriteFiles(s: Shelf, piles: seq<seq<Id>>, uuid: nat -> ChunkId, reread: bool, j: nat)
    requires RecordsBacked(s) && FreshNames(s, uuid) && j < |piles|
    ensures var r := Rewrite(s, piles, uuid, reread);
      uuid(j) in r.chunks && r.chunks[uuid(j)] == Compact(s, piles[j])
  {
    var outs := Outputs(s, piles);
    var files := NewFiles(outs, uuid, |outs|);
    assert uuid(j) !in s.index.Values;
    NewFileOf(outs, uuid, |outs|, j);
  }

  /** With a partition into piles, an indexed id is pointed at its own pile's new chunk. */
  lemma RewriteIndex(s: Shelf, piles: seq<seq<Id>>, uuid: nat -> ChunkId, reread: bool, id: Id, j: nat)
    requires RecordsBacked(s) && Stamped(s) && "" !in s.index && Partitions(s.index, piles)
    requires id in s.index && j < |piles| && id in piles[j]
    ensures id in Rewrite(s, piles, uuid, reread).index && Rewrite(s, piles, uuid, reread).index[id] == uuid(j)
  {
    var outs := Outputs(s, piles);
    var changes := AllChanges(outs, uuid, |outs|);
    CompactKeeps(s, piles[j], id);
    assert id in changes;
    var j' :| 0 <= j' < |outs| && id in IdSet(outs[j']) && changes[id] == uuid(j');
    CompactIds(s, piles[j']);
    var m :| 0 <= m < |outs[j']| && outs[j'][m].id == id;
    assert outs[j'][m] in Compact(s, piles[j']);
  }

  /** One indexed id after the rewrite: it points at its pile's new chunk, which holds it. */
  lemma RewriteBacks(s: Shelf, piles: seq<seq<Id>>, uuid: nat -> ChunkId, reread: bool, id: Id) returns (j: nat)
    requires RecordsBacked(s) && Stamped(s) && FreshNames(s, uuid) && "" !in s.index
    requires Partitions(s.index, piles) && id in s.index
    ensures var r := Rewrite(s, piles, uuid, reread);
      && j < |piles| && id in piles[j] && id in r.index && r.index[id] == uuid(j)
      && r.index[id] in r.chunks && HasId(r.chunks[r.index[id]], id)
  {
    j :| 0 <= j < |piles| && id in piles[j];
    RewriteIndex(s, piles, uuid, reread, id, j);
    RewriteFiles(s, piles, uuid, reread, j);
    CompactKeeps(s, piles[j], id);
  }

  /**
   * The rewrite keeps the index backed: if before it every indexed id's
   * chunk held a record of that id, the same holds afterwards (with fresh
   * chunk names, piles that partition the index and ids that are never
   * empty); each id now points at its pile's new chunk, which holds each
   * of its ids once. Every id gets a change, so even an index that cannot
   * be read again loses no id.
   */
  lemma RewriteKeepsRecordsBacked(s: Shelf, piles: seq<seq<Id>>, uuid: nat -> ChunkId, reread: bool)
    requires RecordsBacked(s) && Stamped(s) && FreshNames(s, uuid) && "" !in s.index
    requires Partitions(s.index, piles)
    ensures var r := Rewrite(s, piles, uuid, reread);
      && RecordsBacked(r)
      && r.index.Keys == s.index.Keys
      && (forall id :: id in s.index ==> exists j :: 0 <= j < |piles| && id in piles[j] && id in r.index && r.index[id] == uuid(j))
      && (forall j :: 0 <= j < |piles| ==> uuid(j) in r.chunks && DistinctIds(r.chunks[uuid(j)]))
  {
    RewriteBacksAll(s, piles, uuid, reread);
    RewriteKeepsIds(s, piles, uuid, reread);
    RewriteDistinct(s, piles, uuid, reread);
  }

  lemma RewriteBacksAll(s: Shelf, piles: seq<seq<Id>>, uuid: nat -> ChunkId, reread: bool)
    requires RecordsBacked(s) && Stamped(s) && FreshNames(s, uuid) && "" !in s.index
    requires Partitions(s.index, piles)
    ensures var r := Rewrite(s, piles, uuid, reread);
      && RecordsBacked(r)
      && (forall id :: id in s.index ==> exists j :: 0 <= j < |piles| && id in piles[j] && id in r.index && r.index[id] == uuid(j))
  {
    var r := Rewrite(s, piles, uuid, reread);
    forall id | id in s.index
      ensures exists j :: 0 <= j < |piles| && id in piles[j] && id in r.index && r.index[id] == uuid(j)
      ensures id in r.index && r.index[id] in r.chunks && HasId(r.chunks[r.index[id]], id)
    {
      var j := RewriteBacks(s, piles, uuid, reread, id);
    }
  }

  /** Every indexed id gets a change, so the rewritten index keeps every id. */
  lemma RewriteKeepsIds(s: Shelf, piles: seq<seq<Id>>, uuid: nat -> ChunkId, reread: bool)
    requires RecordsBacked(s) && Stamped(s) && "" !in s.index
    requires Partitions(s.index, piles)
    ensures Rewrite(s, piles, uuid, reread).index.Keys == s.index.Keys
  {
    var r := Rewrite(s, piles, uuid, reread);
    forall id | id in s.index
      ensures id in r.index
    {
      var j :| 0 <= j < |piles| && id in piles[j];
      RewriteIndex(s, piles, uuid, reread, id, j);
    }
    SameKeys(r.index, s.index);
  }

  lemma SameKeys<K, V>(a: map<K, V>, b: map<K, V>)
    requires a.Keys <= b.Keys && forall k :: k in b ==> k in a
    ensures a.Keys == b.Keys
  {
  }

  lemma RewriteDistinct(s: Shelf, piles: seq<seq<Id>>, uuid: nat -> ChunkId, reread: bool)
    requires RecordsBacked(s) && Stamped(s) && FreshNames(s, uuid)
    ensures var r := Rewrite(s, piles, uuid, reread);
      forall j :: 0 <= j < |piles| ==> uuid(j) in r.chunks && DistinctIds(r.chunks[uuid(j)])
  {
    var r := Rewrite(s, piles, uuid, reread);
    forall j | 0 <= j < |piles|
      ensures uuid(j) in r.chunks && DistinctIds(r.chunks[uuid(j)])
    {
      RewriteFiles(s, piles, uuid, reread, j);
      CompactDistinct(s, piles[j]);
    }
  }

  /** The piles `pureChunk` forms from every index key partition the index. */
  lemma PilesPartition(s: Shelf, keys: seq<Id>, size: int)
    requires size >= 1
    requires forall i :: 0 <= i < |keys| ==> keys[i] in s.index
    requires forall id :: id in s.index ==> id in keys
    ensures Partitions(s.index, Piles(s.index, keys, size))
  {
    var piles := Piles(s.index, keys, size);
    forall id | id in s.index
      ensures exists j :: 0 <= j < |piles| && id in piles[j]
    {
      var j := PileOf(s, keys, size, id);
    }
    forall j, j', id | 0 <= j < |piles| && 0 <= j' < |piles| && id in piles[j] && id in piles[j']
      ensures j == j'
    {
      PileUnique(s, keys, size, id, j, j');
    }
  }

  lemma PileUnique(s: Shelf, keys: seq<Id>, size: int, id: Id, j: nat, j': nat)
    requires var piles := Piles(s.index, keys, size);
      j < |piles| && j' < |piles| && id in piles[j] && id in piles[j']
    ensures j == j'
  {
    var piles := Piles(s.index, keys, size);
    if j != j' {
      var a :| 0 <= a < |piles[j]| && piles[j][a] == id;
      var b :| 0 <= b < |piles[j']| && piles[j'][b] == id;
      PureChunkIsPure(keys, size, ChunkOf(s.index), j, j', a, b);
    }
  }

  /**
   * GC keeps the index backed (see `RewriteKeepsRecordsBacked`) when the
   * pile size is positive and `keys` enumerates the index, whatever the
   * outcome of its two index reads. After a readable first read every
   * indexed id has a new entry, so the id set survives even a failed
   * second read, and every old chunk is deleted; after a failed first
   * read the chunks stay and the index is the one read again.
   */
  lemma GcKeepsRecordsBacked(s: Shelf, keys: seq<Id>, size: int, uuid: nat -> ChunkId, firstRead: bool, reread: bool)
    requires RecordsBacked(s) && Stamped(s) && FreshNames(s, uuid) && "" !in s.index
    requires size >= 1
    requires forall i :: 0 <= i < |keys| ==> keys[i] in s.index
    requires forall id :: id in s.index ==> id in keys
    ensures var r := Gc(s, keys, size, uuid, firstRead, reread);
      && RecordsBacked(r)
      && (firstRead || reread ==> r.index.Keys == s.index.Keys)
      && (!firstRead && !reread ==> r.index == map[])
      && (firstRead ==> forall c :: c in s.index.Values ==> c !in r.chunks)
      && (!firstRead ==> r.chunks == s.chunks)
  {
    if firstRead {
      GcReadable(s, keys, size, uuid, reread);
    } else {
      var r := Gc(s, keys, size, uuid, firstRead, reread);
      assert r.index == IndexAsRead(s.index, reread);
    }
  }

  lemma GcReadable(s: Shelf, keys: seq<Id>, size: int, uuid: nat -> ChunkId, reread: bool)
    requires RecordsBacked(s) && Stamped(s) && FreshNames(s, uuid) && "" !in s.index
    requires size >= 1
    requires forall i :: 0 <= i < |keys| ==> keys[i] in s.index
    requires forall id :: id in s.index ==> id in keys
    ensures var r := Rewrite(s, Piles(s.index, keys, size), uuid, reread);
      && RecordsBacked(r)
      && r.index.Keys == s.index.Keys
      && (forall c :: c in s.index.Values ==> c !in r.chunks)
  {
    var piles := Piles(s.index, keys, size);
    PilesPartition(s, keys, size);
    RewriteKeepsRecordsBacked(s, piles, uuid, reread);
  }


  lemma CompactDistinct(s: Shelf, pile: seq<Id>)
    requires Stamped(s)
    ensures DistinctIds(Compact(s, pile))
  {
    LoadedStamped(s, pile);
    DeduplicateKeepsLatestPerId(Purge(LoadChunks(s.chunks, ReferencedChunks(s.index, pile)), s.index, pile));
  }
}

=== FILE: js_values.dfy ===
/**
 * The slice of JavaScript values that records, query data and remote
 * payloads are made of, with the coercions the query filters and the
 * joins rely on: truthiness, property access, `String(v)` and unary `+`.
 */
module JsValues {
  import opened Wrappers

  /** A JSON-like value; numbers are restricted to integers. */
  datatype Value =
    | Undef
    | Null
    | Bool(b: bool)
    | Num(n: int)
    | Str(s: string)
    | Arr(items: seq<Value>)
    | Obj(fields: map<string, Value>)

  /** JavaScript truthiness: `undefined`, `null`, `false`, `0` and `""` are falsy. */
  predicate Truthy(v: Value)
  {
    match v
    case Undef => false
    case Null => false
    case Bool(b) => b
    case Num(n) => n != 0
    case Str(s) => s != ""
    case Arr(_) => true
    case Obj(_) => true
  }

  /**
   * Property access `v[f]`. Reading a property of `null` or `undefined`
   * throws a TypeError, modelled as `None`; primitives and arrays have no
   * modelled own properties.
   */
  function Get(v: Value, f: string): (r: Option<Value>)
    ensures r.None? <==> v.Undef? || v.Null?
    ensures v.Obj? && f in v.fields ==> r == Some(v.fields[f])
    ensures v.Obj? && f !in v.fields ==> r == Some(Undef)
  {
    match v
    case Undef => None
    case Null => None
    case Obj(m) => Some(if f in m then m[f] else Undef)
    case _ => Some(Undef)
  }

  /** `v[f]` on a value known not to be `null`/`undefined`. */
  function Field(v: Value, f: string): Value
  {
    Get(v, f).GetOr(Undef)
  }

  function DigitChar(d: nat): char
    requires d < 10
  {
    ['0', '1', '2', '3', '4', '5', '6', '7', '8', '9'][d]
  }

  function NatToString(n: nat): (s: string)
    ensures |s| >= 1
    decreases n
  {
    if n < 10 then [DigitChar(n)] else NatToString(n / 10) + [DigitChar(n % 10)]
  }

  /** Decimal rendering of an integer, as `String(n)` gives it. */
  function IntToString(n: int): string
  {
    if n < 0 then "-" + NatToString(-n) else NatToString(n)
  }

  /** `String(v)`: also the property key a value becomes when used as an object key. */
  function ToStr(v: Value): string
    decreases v, 1
  {
    match v
    case Undef => "undefined"
    case Null => "null"
    case Bool(b) => if b then "true" else "false"
    case Num(n) => IntToString(n)
    case Str(s) => s
    case Arr(items) => JoinItems(v, items)
    case Obj(_) => "[object Object]"
  }

  /** `Array.prototype.join(",")`, where `null` and `undefined` elements become empty. */
  function JoinItems(parent: Value, items: seq<Value>): string
    requires forall i :: 0 <= i < |items| ==> items[i] < parent
    decreases parent, 0, |items|
  {
    if items == [] then ""
    else
      var head := if items[0].Undef? || items[0].Null? then "" else ToStr(items[0]);
      if |items| == 1 then head else head + "," + JoinItems(parent, items[1..])
  }

  predicate IsSpace(c: char)
  {
    c == ' ' || c == '\t' || c == '\n' || c == '\r' || c == '\U{000B}' || c == '\U{000C}'
  }

  /** `String.prototype.trim` restricted to ASCII whitespace. */
  function Trim(s: string): (r: string)
    ensures |r| <= |s|
    ensures r != [] ==> !IsSpace(r[0]) && !IsSpace(r[|r| - 1])
  {
    if s != [] && IsSpace(s[0]) then Trim(s[1..])
    else if s != [] && IsSpace(s[|s| - 1]) then Trim(s[..|s| - 1])
    else s
  }

  /** Drops leading whitespace (a leading `\s*` of a regular expression). */
  function TrimStart(s: string): (r: string)
    ensures |r| <= |s|
    ensures r == s[|s| - |r|..]
    ensures r != [] ==> !IsSpace(r[0])
    ensures forall i :: 0 <= i < |s| - |r| ==> IsSpace(s[i])
  {
    if s != [] && IsSpace(s[0]) then TrimStart(s[1..]) else s
  }

  /** Drops trailing whitespace (a trailing `\s*` of a regular expression). */
  function TrimEnd(s: string): (r: string)
    ensures |r| <= |s|
    ensures r == s[..|r|]
    ensures r != [] ==> !IsSpace(r[|r| - 1])
    ensures forall i :: |r| <= i < |s| ==> IsSpace(s[i])
  {
    if s != [] && IsSpace(s[|s| - 1]) then TrimEnd(s[..|s| - 1]) else s
  }

  /** Position of the first character satisfying `p`, or `|s|`. */
  function FindFirst(s: string, p: char -> bool): (i: nat)
    ensures i <= |s|
    ensures i < |s| ==> p(s[i])
    ensures forall j :: 0 <= j < i ==> !p(s[j])
  {
    if s == [] then 0
    else if p(s[0]) then 0
    else 1 + FindFirst(s[1..], p)
  }

  /** `s.split(c)` for a one-character separator. */
  function SplitOn(s: string, c: char): (r: seq<string>)
    ensures |r| >= 1
    ensures forall i :: 0 <= i < |r| ==> c !in r[i]
    decreases |s|
  {
    var i := IndexOf(s, c);
    if i == |s| then [s] else [s[..i]] + SplitOn(s[i + 1..], c)
  }

  /** `parts.join(c)`, the inverse of `SplitOn`. */
  function JoinOn(parts: seq<string>, c: char): string
  {
    if parts == [] then "" else if |parts| == 1 then parts[0] else parts[0] + [c] + JoinOn(parts[1..], c)
  }

  /** Splitting undoes joining when no part contains the separator. */
  lemma {:induction false} SplitJoin(parts: seq<string>, c: char)
    requires |parts| >= 1 && forall i :: 0 <= i < |parts| ==> c !in parts[i]
    ensures SplitOn(JoinOn(parts, c), c) == parts
    decreases |parts|
  {
    var s := JoinOn(parts, c);
    var i := IndexOf(s, c);
    if |parts| == 1 {
      assert i == |s|;
    } else {
      var p0 := parts[0];
      var rest := JoinOn(parts[1..], c);
      assert s == p0 + [c] + rest;
      assert forall j :: 0 <= j < |p0| ==> s[j] == p0[j];
      assert s[|p0|] == c;
      assert i == |p0|;
      assert s[..i] == p0;
      assert s[i + 1..] == rest;
      SplitJoin(parts[1..], c);
    }
  }

  predicate IsDigit(c: char)
  {
    '0' <= c <= '9'
  }

  /** Every character is a decimal digit (the empty string included). */
  predicate Digits(s: string)
  {
    forall i :: 0 <= i < |s| ==> IsDigit(s[i])
  }

  function DigitsValue(s: string): nat
    requires Digits(s)
  {
    if s == [] then 0
    else
      assert IsDigit(s[|s| - 1]);
      10 * DigitsValue(s[..|s| - 1]) + (s[|s| - 1] as int - '0' as int)
  }

  predicate AllDigits(s: string)
  {
    |s| >= 1 && Digits(s)
  }

  function Pow10(n: nat): (r: nat)
    ensures r >= 1
  {
    if n == 0 then 1 else 10 * Pow10(n - 1)
  }

  /** Position of the first `c` in `s`, or `|s|`. */
  function IndexOf(s: string, c: char): (i: nat)
    ensures i <= |s|
    ensures i < |s| ==> s[i] == c
    ensures forall j :: 0 <= j < i ==> s[j] != c
  {
    if s == [] then 0
    else if s[0] == c then 0
    else 1 + IndexOf(s[1..], c)
  }

  /**
   * An unsigned decimal literal: `digits`, `digits.`, `.digits` or
   * `digits.digits`; anything else is NaN (`None`).
   */
  function ParseUnsigned(t: string): (r: Option<real>)
    ensures AllDigits(t) ==> r == Some(DigitsValue(t) as real)
    ensures r.Some? ==> r.value >= 0.0
  {
    var p := IndexOf(t, '.');
    if p == |t| then
      if AllDigits(t) then Some(DigitsValue(t) as real) else None
    else
      var whole := t[..p];
      var frac := t[p + 1..];
      if Digits(whole) && Digits(frac) && (whole != [] || frac != []) then
        Some(DigitsValue(whole) as real + DigitsValue(frac) as real / Pow10(|frac|) as real)
      else None
  }

  /**
   * `+s` for a string: surrounding whitespace is ignored, blank is 0, and an
   * optionally signed decimal literal is its value; anything else is NaN
   * (`None`).
   */
  function ParseNumber(s: string): (r: Option<real>)
    ensures AllDigits(s) ==> r == Some(DigitsValue(s) as real)
  {
    var t := Trim(s);
    if AllDigits(s) then
      TrimDigits(s);
      ParseUnsigned(t)
    else if t == [] then Some(0.0)
    else if t[0] == '-' then
      match ParseUnsigned(t[1..])
      case Some(v) => Some(-v)
      case None => None
    else if t[0] == '+' then ParseUnsigned(t[1..])
    else ParseUnsigned(t)
  }

  lemma TrimDigits(s: string)
    requires Digits(s)
    ensures Trim(s) == s
  {
    if s != [] {
      assert IsDigit(s[0]) && IsDigit(s[|s| - 1]);
    }
  }

  /** Unary `+v`; `None` is NaN. Arrays and objects go through `String(v)`. */
  function ToNumber(v: Value): Option<real>
  {
    match v
    case Undef => None
    case Null => Some(0.0)
    case Bool(b) => Some(if b then 1.0 else 0.0)
    case Num(n) => Some(n as real)
    case Str(s) => ParseNumber(s)
    case Arr(_) => ParseNumber(ToStr(v))
    case Obj(_) => ParseNumber(ToStr(v))
  }

  lemma {:induction false} NatToStringDigits(n: nat)
    ensures Digits(NatToString(n))
    ensures DigitsValue(NatToString(n)) == n
    ensures '.' !in NatToString(n)
    decreases n
  {
    if n >= 10 {
      var s := NatToString(n / 10);
      NatToStringDigits(n / 10);
      var t := s + [DigitChar(n % 10)];
      assert t[..|t| - 1] == s;
      assert forall i :: 0 <= i < |t| ==> IsDigit(t[i]) by {
        forall i | 0 <= i < |t|
          ensures IsDigit(t[i])
        {
          if i < |s| {
            assert t[i] == s[i];
          }
        }
      }
    }
  }

  lemma TrimKeeps(s: string)
    requires s != [] && !IsSpace(s[0]) && !IsSpace(s[|s| - 1])
    ensures Trim(s) == s
  {
  }

  lemma TrimStartKeeps(s: string)
    requires s == [] || !IsSpace(s[0])
    ensures TrimStart(s) == s
  {
  }

  lemma TrimEndKeeps(s: string)
    requires s == [] || !IsSpace(s[|s| - 1])
    ensures TrimEnd(s) == s
  {
  }

  /** A minus sign before a digit string negates its value. */
  lemma NegatedDigitsParse(d: string)
    requires AllDigits(d)
    ensures ParseNumber("-" + d) == Some(-(DigitsValue(d) as real))
  {
    var s := "-" + d;
    assert s[1..] == d;
    assert s[|s| - 1] == d[|d| - 1];
    assert IsDigit(d[|d| - 1]);
    TrimKeeps(s);
    assert !IsDigit(s[0]);
    NegativeParse(s, DigitsValue(d) as real);
  }

  /** A trimmed text starting with a minus sign parses as the negated rest. */
  lemma NegativeParse(s: string, v: real)
    requires s != [] && s[0] == '-' && !IsDigit(s[0]) && Trim(s) == s && ParseUnsigned(s[1..]) == Some(v)
    ensures ParseNumber(s) == Some(-v)
  {
  }

  /** `+String(n)` is `n` again: the decimal rendering of an integer parses back. */
  lemma IntToStringParses(n: int)
    ensures ParseNumber(IntToString(n)) == Some(n as real)
  {
    if n < 0 {
      NatToStringDigits(-n);
      NegatedDigitsParse(NatToString(-n));
    } else {
      NatToStringDigits(n);
    }
  }

  function LowerChar(c: char): char
  {
    if 'A' <= c <= 'Z' then (c as int + 32) as char else c
  }

  /** `String.prototype.toLowerCase` on ASCII letters. */
  function Lower(s: string): (r: string)
    ensures |r| == |s|
    ensures forall i :: 0 <= i < |s| ==> r[i] == LowerChar(s[i])
  {
    if s == [] then [] else [LowerChar(s[0])] + Lower(s[1..])
  }

  lemma LowerIdempotent(s: string)
    ensures Lower(Lower(s)) == Lower(s)
  {
    var l := Lower(s);
    assert forall i :: 0 <= i < |s| ==> LowerChar(l[i]) == l[i];
  }

  /** `t` occurs in `s` starting at position `i`. */
  predicate OccursAt(s: string, t: string, i: int)
  {
    0 <= i && i + |t| <= |s| && s[i..i + |t|] == t
  }

  /** `s.includes(t)`. */
  predicate Contains(s: string, t: string)
  {
    exists i :: 0 <= i <= |s| - |t| && OccursAt(s, t, i)
  }

  /** `t` occurs in `s` at position `i` when letter case is ignored. */
  predicate MatchesAt(s: string, t: string, i: int)
  {
    0 <= i && i + |t| <= |s| && forall k :: 0 <= k < |t| ==> LowerChar(s[i + k]) == LowerChar(t[k])
  }

  /** At one position, matching the lower-cased strings is matching up to letter case. */
  lemma OccursLowerAt(s: string, t: string, i: int)
    ensures OccursAt(Lower(s), Lower(t), i) <==> MatchesAt(s, t, i)
  {
    if 0 <= i && i + |t| <= |s| {
      var ls, lt := Lower(s), Lower(t);
      var w := ls[i..i + |t|];
      assert forall k :: 0 <= k < |t| ==> w[k] == ls[i + k];
      if w == lt {
        assert forall k :: 0 <= k < |t| ==> LowerChar(s[i + k]) == lt[k];
      }
      if MatchesAt(s, t, i) {
        assert w == lt;
      }
    }
  }

  /** `s.toLowerCase().includes(t.toLowerCase())` finds `t` in `s` up to letter case. */
  lemma ContainsIgnoringCase(s: string, t: string)
    ensures Contains(Lower(s), Lower(t)) <==> exists i :: MatchesAt(s, t, i)
  {
    if Contains(Lower(s), Lower(t)) {
      var i :| 0 <= i <= |s| - |t| && OccursAt(Lower(s), Lower(t), i);
      OccursLowerAt(s, t, i);
    }
    if i :| MatchesAt(s, t, i) {
      OccursLowerAt(s, t, i);
    }
  }
}

=== FILE: ordering.dfy ===
/**
 * JavaScript's `<` on two strings, and the stable sort that
 * `Array.prototype.sort` performs with a key comparator that answers
 * 1, -1 or 0.
 */
module Ordering {

  /**
   * Lexicographic `<` on strings. Chunk ids are uuids (ASCII), so code points
   * and the UTF-16 code units JavaScript compares coincide.
   */
  predicate StrLess(a: string, b: string)
  {
    if a == [] then b != []
    else b != [] && (a[0] < b[0] || (a[0] == b[0] && StrLess(a[1..], b[1..])))
  }

  lemma StrLessIrreflexive(a: string)
    ensures !StrLess(a, a)
  {
  }

  lemma {:induction false} StrLessTransitive(a: string, b: string, c: string)
    requires StrLess(a, b) && StrLess(b, c)
    ensures StrLess(a, c)
    decreases |a|
  {
    if a != [] && a[0] == b[0] && b[0] == c[0] {
      StrLessTransitive(a[1..], b[1..], c[1..]);
    }
  }

  lemma {:induction false} StrLessTotal(a: string, b: string)
    ensures a == b || StrLess(a, b) || StrLess(b, a)
    decreases |a|
  {
    if a != [] && b != [] && a[0] == b[0] {
      StrLessTotal(a[1..], b[1..]);
      if a[1..] == b[1..] {
        assert a == [a[0]] + a[1..] && b == [b[0]] + b[1..];
      }
    }
  }

  lemma StrLessAsymmetric(a: string, b: string)
    requires StrLess(a, b)
    ensures !StrLess(b, a)
  {
    if StrLess(b, a) {
      StrLessTransitive(a, b, a);
      StrLessIrreflexive(a);
    }
  }

  /** `a < b` and `b <= c` give `a < c`. */
  lemma StrLessLe(a: string, b: string, c: string)
    requires StrLess(a, b) && !StrLess(c, b)
    ensures StrLess(a, c)
  {
    StrLessTotal(b, c);
    if b != c {
      StrLessTransitive(a, b, c);
    }
  }

  /** `a <= b` and `b <= c` give `a <= c`. */
  lemma StrLeTransitive(a: string, b: string, c: string)
    requires !StrLess(b, a) && !StrLess(c, b)
    ensures !StrLess(c, a)
  {
    StrLessTotal(a, b);
    if a != b && StrLess(c, a) {
      StrLessTransitive(c, a, b);
    }
  }

  /** Every later element has a key that is not smaller. */
  ghost predicate SortedBy<T>(l: seq<T>, key: T -> string)
  {
    forall i, j :: 0 <= i < j < |l| ==> !StrLess(key(l[j]), key(l[i]))
  }

  /** The elements of `s` whose key is `k`, in order. */
  function KeyFilter<T>(s: seq<T>, key: T -> string, k: string): (r: seq<T>)
    ensures forall i :: 0 <= i < |r| ==> key(r[i]) == k
  {
    if s == [] then []
    else (if key(s[0]) == k then [s[0]] else []) + KeyFilter(s[1..], key, k)
  }

  lemma {:induction false} KeyFilterAppend<T>(a: seq<T>, b: seq<T>, key: T -> string, k: string)
    ensures KeyFilter(a + b, key, k) == KeyFilter(a, key, k) + KeyFilter(b, key, k)
    decreases |a|
  {
    if a == [] {
      assert a + b == b;
    } else {
      assert (a + b)[1..] == a[1..] + b;
      KeyFilterAppend(a[1..], b, key, k);
    }
  }

  lemma {:induction false} KeyFilterEmpty<T>(s: seq<T>, key: T -> string, k: string)
    requires forall i :: 0 <= i < |s| ==> key(s[i]) != k
    ensures KeyFilter(s, key, k) == []
    decreases |s|
  {
    if s != [] {
      KeyFilterEmpty(s[1..], key, k);
    }
  }

  /** Stable insertion: `x` goes after every element whose key is not greater than its own. */
  function Insert<T>(l: seq<T>, x: T, key: T -> string): (r: seq<T>)
    ensures multiset(r) == multiset(l) + multiset{x}
    ensures |r| == |l| + 1
  {
    if l == [] then [x]
    else if StrLess(key(x), key(l[0])) then [x] + l
    else
      assert l == [l[0]] + l[1..];
      [l[0]] + Insert(l[1..], x, key)
  }

  lemma {:induction false} InsertSorted<T>(l: seq<T>, x: T, key: T -> string)
    requires SortedBy(l, key)
    ensures SortedBy(Insert(l, x, key), key)
    decreases |l|
  {
    if l != [] {
      var r := Insert(l, x, key);
      if StrLess(key(x), key(l[0])) {
        forall i, j | 0 <= i < j < |r|
          ensures !StrLess(key(r[j]), key(r[i]))
        {
          if i == 0 {
            assert r[j] == l[j - 1];
            if j - 1 > 0 {
              StrLessLe(key(x), key(l[0]), key(l[j - 1]));
            }
            StrLessAsymmetric(key(x), key(l[j - 1]));
          } else {
            assert r[i] == l[i - 1] && r[j] == l[j - 1];
          }
        }
      } else {
        var rest := Insert(l[1..], x, key);
        InsertSorted(l[1..], x, key);
        assert r == [l[0]] + rest;
        forall i, j | 0 <= i < j < |r|
          ensures !StrLess(key(r[j]), key(r[i]))
        {
          if i == 0 {
            var y := rest[j - 1];
            assert y in multiset(rest);
            if y in multiset(l[1..]) {
              var m :| 0 <= m < |l[1..]| && l[1..][m] == y;
              assert l[m + 1] == y;
            } else {
              assert y == x;
            }
          } else {
            assert r[i] == rest[i - 1] && r[j] == rest[j - 1];
          }
        }
      }
    }
  }

  lemma {:induction false} InsertKeyFilter<T>(l: seq<T>, x: T, key: T -> string, k: string)
    requires SortedBy(l, key)
    ensures KeyFilter(Insert(l, x, key), key, k)
         == KeyFilter(l, key, k) + (if key(x) == k then [x] else [])
    decreases |l|
  {
    if l == [] {
    } else if StrLess(key(x), key(l[0])) {
      assert ([x] + l)[1..] == l;
      if key(x) == k {
        forall i | 0 <= i < |l|
          ensures key(l[i]) != k
        {
          if i > 0 {
            StrLessLe(key(x), key(l[0]), key(l[i]));
          }
          StrLessIrreflexive(k);
        }
        KeyFilterEmpty(l, key, k);
      }
    } else {
      var rest := Insert(l[1..], x, key);
      assert ([l[0]] + rest)[1..] == rest;
      InsertKeyFilter(l[1..], x, key, k);
    }
  }

  /**
   * The stable sort by key: repeated stable insertion, which is what any
   * stable sort (such as the one `Array.prototype.sort` is required to be)
   * produces for a comparator that orders by key.
   */
  function SortByKey<T>(s: seq<T>, key: T -> string): (r: seq<T>)
    ensures multiset(r) == multiset(s)
    ensures |r| == |s|
  {
    if s == [] then []
    else
      assert s == s[..|s| - 1] + [s[|s| - 1]];
      Insert(SortByKey(s[..|s| - 1], key), s[|s| - 1], key)
  }

  lemma SortStepKeyFilter<T>(init: seq<T>, x: T, key: T -> string, k: string)
    requires SortedBy(SortByKey(init, key), key)
    requires KeyFilter(SortByKey(init, key), key, k) == KeyFilter(init, key, k)
    ensures KeyFilter(SortByKey(init + [x], key), key, k) == KeyFilter(init + [x], key, k)
  {
    var s := init + [x];
    assert s[..|s| - 1] == init && s[|s| - 1] == x;
    InsertKeyFilter(SortByKey(init, key), x, key, k);
    KeyFilterAppend(init, [x], key, k);
  }

  /** The sort orders by key and keeps the input order among equal keys. */
  lemma {:induction false} SortByKeyIsStableSort<T>(s: seq<T>, key: T -> string)
    ensures SortedBy(SortByKey(s, key), key)
    ensures forall k :: KeyFilter(SortByKey(s, key), key, k) == KeyFilter(s, key, k)
    decreases |s|
  {
    if s != [] {
      var init := s[..|s| - 1];
      var x := s[|s| - 1];
      SortByKeyIsStableSort(init, key);
      assert s == init + [x];
      InsertSorted(SortByKey(init, key), x, key);
      forall k
        ensures KeyFilter(SortByKey(s, key), key, k) == KeyFilter(s, key, k)
      {
        SortStepKeyFilter(init, x, key, k);
      }
    }
  }
}

=== FILE: pure_chunk.dfy ===
/**
 * `Array.prototype.pureChunk(chunkSize, idMap)`: sort the elements by their
 * `idMap` value, then batch them like `chunk`, except that an element whose
 * key already occurs in the current batch always joins it. Compaction uses
 * it so that no source chunk is split across two groups.
 */
module PureChunking {
  import opened Combinators
  import opened Ordering

  /** Some element of `g` has key `k` (`currentChunkIdSet.includes(k)`). */
  predicate HasKey<T>(g: seq<T>, key: T -> string, k: string)
  {
    exists i :: 0 <= i < |g| && key(g[i]) == k
  }

  /** Every key of an earlier group is strictly below every key of a later one. */
  ghost predicate Separated<T>(gs: seq<seq<T>>, key: T -> string)
  {
    forall i, j, a, b :: 0 <= i < j < |gs| && 0 <= a < |gs[i]| && 0 <= b < |gs[j]| ==>
      StrLess(key(gs[i][a]), key(gs[j][b]))
  }

  /** Past position `size`, a group only takes elements whose key it already holds. */
  ghost predicate GrowsOnlyByKnownKeys<T>(gs: seq<seq<T>>, size: int, key: T -> string)
  {
    forall i, p :: 0 <= i < |gs| && 0 <= p && size <= p < |gs[i]| ==> HasKey(gs[i][..p], key, key(gs[i][p]))
  }

  /** Every group but the last reached `size` before the next one was opened. */
  ghost predicate FullBeforeLast<T>(gs: seq<seq<T>>, size: int)
  {
    forall i :: 0 <= i < |gs| - 1 ==> |gs[i]| >= size
  }

  ghost predicate AllNonEmpty<T>(gs: seq<seq<T>>)
  {
    forall i :: 0 <= i < |gs| ==> |gs[i]| >= 1
  }

  /** One step of the `reduce` inside `pureChunk`. */
  function PurePush<T>(acc: seq<seq<T>>, x: T, size: int, key: T -> string): (r: seq<seq<T>>)
    requires |acc| >= 1
  {
    var cur := acc[|acc| - 1];
    Extend(acc, x, |cur| < size || HasKey(cur, key, key(x)))
  }

  /** `x` is not below any key already placed. */
  ghost predicate NotBelowAny<T>(acc: seq<seq<T>>, x: T, key: T -> string)
  {
    forall i, a :: 0 <= i < |acc| && 0 <= a < |acc[i]| ==> !StrLess(key(x), key(acc[i][a]))
  }

  lemma PurePushKeepsShape<T>(acc: seq<seq<T>>, x: T, size: int, key: T -> string)
    requires |acc| >= 1 && size >= 1
    requires acc == [[]] || AllNonEmpty(acc)
    requires FullBeforeLast(acc, size) && GrowsOnlyByKnownKeys(acc, size, key)
    ensures AllNonEmpty(PurePush(acc, x, size, key))
    ensures FullBeforeLast(PurePush(acc, x, size, key), size)
    ensures GrowsOnlyByKnownKeys(PurePush(acc, x, size, key), size, key)
  {
    var cur := acc[|acc| - 1];
    var r := PurePush(acc, x, size, key);
    if |cur| < size || HasKey(cur, key, key(x)) {
      var g := cur + [x];
      assert r == acc[..|acc| - 1] + [g];
      forall i, p | 0 <= i < |r| && 0 <= p && size <= p < |r[i]|
        ensures HasKey(r[i][..p], key, key(r[i][p]))
      {
        if i == |r| - 1 {
          if p < |cur| {
            assert g[..p] == cur[..p] && g[p] == cur[p];
          } else {
            assert g[..p] == cur;
          }
        } else {
          assert r[i] == acc[i];
        }
      }
    }
  }

  lemma PurePushSeparated<T>(acc: seq<seq<T>>, x: T, size: int, key: T -> string)
    requires |acc| >= 1 && size >= 1
    requires acc == [[]] || AllNonEmpty(acc)
    requires Separated(acc, key) && NotBelowAny(acc, x, key)
    ensures Separated(PurePush(acc, x, size, key), key)
  {
    var cur := acc[|acc| - 1];
    var r := PurePush(acc, x, size, key);
    var join := |cur| < size || HasKey(cur, key, key(x));
    if join {
      var g := cur + [x];
      assert r == acc[..|acc| - 1] + [g];
      forall i, j, a, b | 0 <= i < j < |r| && 0 <= a < |r[i]| && 0 <= b < |r[j]|
        ensures StrLess(key(r[i][a]), key(r[j][b]))
      {
        assert r[i] == acc[i];
        if j < |r| - 1 {
          assert r[j] == acc[j];
        } else if b < |cur| {
          assert r[j][b] == cur[b];
        } else {
          assert r[j][b] == x;
          assert |cur| >= 1;
          StrLessLe(key(acc[i][a]), key(cur[0]), key(x));
        }
      }
    } else {
      forall i, j, a, b | 0 <= i < j < |r| && 0 <= a < |r[i]| && 0 <= b < |r[j]|
        ensures StrLess(key(r[i][a]), key(r[j][b]))
      {
        assert r[i] == acc[i];
        if j < |r| - 1 {
          assert r[j] == acc[j];
        } else {
          assert r[j][b] == x;
          if i == |acc| - 1 {
            assert key(cur[a]) != key(x);
            StrLessTotal(key(cur[a]), key(x));
          } else {
            StrLessLe(key(acc[i][a]), key(cur[0]), key(x));
          }
        }
      }
    }
  }

  /** An element of a sorted list is not below any element placed before it. */
  lemma LastNotBelowPlaced<T>(t: seq<T>, acc: seq<seq<T>>, key: T -> string)
    requires |t| >= 1 && SortedBy(t, key)
    requires Flatten(acc) == t[..|t| - 1]
    ensures NotBelowAny(acc, t[|t| - 1], key)
  {
    forall i, a | 0 <= i < |acc| && 0 <= a < |acc[i]|
      ensures !StrLess(key(t[|t| - 1]), key(acc[i][a]))
    {
      var y := acc[i][a];
      InFlatten(acc, y);
      var m :| 0 <= m < |t| - 1 && t[..|t| - 1][m] == y;
      assert t[m] == y;
    }
  }

  /** The `reduce` of `pureChunk` over the already sorted `t`, started from `[[]]`. */
  function PureFold<T>(t: seq<T>, size: int, key: T -> string): (acc: seq<seq<T>>)
    ensures |acc| >= 1
    ensures size <= 0 ==> acc[0] == []
    ensures size >= 1 ==> Flatten(acc) == t
    ensures size >= 1 ==> acc == [[]] || AllNonEmpty(acc)
    ensures size >= 1 ==> FullBeforeLast(acc, size) && GrowsOnlyByKnownKeys(acc, size, key)
  {
    if t == [] then [[]]
    else
      var init := t[..|t| - 1];
      var x := t[|t| - 1];
      var prev := PureFold(init, size, key);
      var cur := prev[|prev| - 1];
      ExtendFlatten(prev, x, |cur| < size || HasKey(cur, key, key(x)));
      assert t == init + [x];
      if size >= 1 then
        PurePushKeepsShape(prev, x, size, key);
        PurePush(prev, x, size, key)
      else PurePush(prev, x, size, key)
  }

  lemma {:induction false} PureFoldSeparated<T>(t: seq<T>, size: int, key: T -> string)
    requires size >= 1 && SortedBy(t, key)
    ensures Separated(PureFold(t, size, key), key)
    decreases |t|
  {
    if t != [] {
      var init := t[..|t| - 1];
      var prev := PureFold(init, size, key);
      assert SortedBy(init, key);
      PureFoldSeparated(init, size, key);
      LastNotBelowPlaced(t, prev, key);
      PurePushSeparated(prev, t[|t| - 1], size, key);
    }
  }

  /**
   * `pureChunk`: groups whose concatenation is the input stably sorted by key;
   * keys never straddle two groups; a group is closed only once it holds
   * `size` elements and grows past `size` only with keys it already holds.
   */
  function PureChunk<T>(s: seq<T>, size: int, key: T -> string): (r: seq<seq<T>>)
    ensures s == [] || size <= 0 ==> r == []
    ensures size >= 1 ==> Flatten(r) == SortByKey(s, key)
    ensures AllNonEmpty(r)
    ensures Separated(r, key)
    ensures FullBeforeLast(r, size)
    ensures GrowsOnlyByKnownKeys(r, size, key)
  {
    SortByKeyIsStableSort(s, key);
    var acc := PureFold(SortByKey(s, key), size, key);
    if size >= 1 then
      PureFoldSeparated(SortByKey(s, key), size, key);
      if acc[0] == [] then [] else acc
    else
    if acc[0] == [] then [] else acc
  }

  /** The groups are a permutation of the input. */
  lemma PureChunkPermutation<T>(s: seq<T>, size: int, key: T -> string)
    requires size >= 1
    ensures multiset(Flatten(PureChunk(s, size, key))) == multiset(s)
  {
  }

  /** Purity: two different groups never share a key. */
  lemma PureChunkIsPure<T>(s: seq<T>, size: int, key: T -> string, i: int, j: int, a: int, b: int)
    requires var r := PureChunk(s, size, key);
      0 <= i < |r| && 0 <= j < |r| && i != j && 0 <= a < |r[i]| && 0 <= b < |r[j]|
    ensures var r := PureChunk(s, size, key);
      key(r[i][a]) != key(r[j][b])
  {
    var r := PureChunk(s, size, key);
    if i < j {
      assert StrLess(key(r[i][a]), key(r[j][b]));
      StrLessIrreflexive(key(r[j][b]));
    } else {
      assert StrLess(key(r[j][b]), key(r[i][a]));
      StrLessIrreflexive(key(r[i][a]));
    }
  }
}

=== FILE: query.dfy ===
/**
 * `Database.query`: a query text is parsed into lines; the first line's
 * first segment names the primary data type, whose records are read (or,
 * for every later line, handed on from the line before), joined with the
 * other data types the line mentions, and kept when `_runQuery` accepts
 * them. Reading is a parameter: `tables(t)` is what `read(t)` returns.
 */
module Queries {
  import opened Wrappers
  import opened JsValues
  import opened Combinators
  import opened QueryParse
  import opened QueryEval
  import opened Joins

  datatype Answer =
    | Found(typ: string, data: seq<Value>)   // the records of the last line's primary type that passed
    | UnknownType(typ: string)              // "Invalid query - unknown data type"
    | CannotConnect(typ: string)            // "Invalid query -- cannot connect … to parent"
    | Failed                                // an exception: the returned promise rejects

  /**
   * `filter` with a test that may throw: every element is tested, so one
   * throw fails the whole filter.
   */
  function FilterAll<T(==,!new)>(xs: seq<T>, test: T -> Option<bool>): (r: Option<seq<T>>)
    ensures r.Some? <==> forall i :: 0 <= i < |xs| ==> test(xs[i]).Some?
    ensures r.Some? ==> IsSubsequence(r.value, xs)
    ensures r.Some? ==> forall i :: 0 <= i < |r.value| ==> test(r.value[i]) == Some(true)
    ensures r.Some? ==> forall i :: 0 <= i < |xs| && test(xs[i]) == Some(true) ==> xs[i] in r.value
    // every passing element is kept as often as it occurs, every other one never
    ensures r.Some? ==> forall x :: multiset(r.value)[x] == if test(x) == Some(true) then multiset(xs)[x] else 0
  {
    if xs == [] then Some([])
    else
      assert forall i :: 1 <= i < |xs| ==> xs[i] == xs[1..][i - 1];
      match (test(xs[0]), FilterAll(xs[1..], test))
      case (Some(keep), Some(rest)) =>
        FilterStep(xs, rest, test);
        Some(if keep then [xs[0]] + rest else rest)
      case _ => None
  }

  /** Filtering the head onto the filtered tail keeps every property of the filter. */
  lemma FilterStep<T(!new)>(xs: seq<T>, rest: seq<T>, test: T -> Option<bool>)
    requires xs != [] && test(xs[0]).Some?
    requires IsSubsequence(rest, xs[1..])
    requires forall y :: multiset(rest)[y] == if test(y) == Some(true) then multiset(xs[1..])[y] else 0
    ensures var kept := if test(xs[0]) == Some(true) then [xs[0]] + rest else rest;
      && IsSubsequence(kept, xs)
      && (forall i :: 0 <= i < |kept| ==> test(kept[i]) == Some(true))
      && (forall i :: 0 <= i < |xs| && test(xs[i]) == Some(true) ==> xs[i] in kept)
      && (forall y :: multiset(kept)[y] == if test(y) == Some(true) then multiset(xs)[y] else 0)
  {
    assert xs == [xs[0]] + xs[1..];
    FilterCounts(xs[0], xs[1..], rest, test);
    var kept := if test(xs[0]) == Some(true) then [xs[0]] + rest else rest;
    assert test(xs[0]) == Some(true) ==> kept[1..] == rest;
    CountsGiveMembers(xs, kept, test);
  }

  /** Counts that follow the test decide which elements are kept. */
  lemma CountsGiveMembers<T(!new)>(xs: seq<T>, r: seq<T>, test: T -> Option<bool>)
    requires forall x :: multiset(r)[x] == if test(x) == Some(true) then multiset(xs)[x] else 0
    ensures forall i :: 0 <= i < |r| ==> test(r[i]) == Some(true)
    ensures forall i :: 0 <= i < |xs| && test(xs[i]) == Some(true) ==> xs[i] in r
  {
    forall i | 0 <= i < |r|
      ensures test(r[i]) == Some(true)
    {
      assert r[i] in multiset(r);
    }
    forall i | 0 <= i < |xs| && test(xs[i]) == Some(true)
      ensures xs[i] in r
    {
      assert xs[i] in multiset(xs);
    }
  }

  /** One filter step keeps the counts: the head is counted once if it passes. */
  lemma FilterCounts<T(!new)>(x: T, tail: seq<T>, rest: seq<T>, test: T -> Option<bool>)
    requires test(x).Some?
    requires forall y :: multiset(rest)[y] == if test(y) == Some(true) then multiset(tail)[y] else 0
    ensures var kept := if test(x) == Some(true) then [x] + rest else rest;
      forall y :: multiset(kept)[y] == if test(y) == Some(true) then multiset([x] + tail)[y] else 0
  {
    assert multiset([x] + tail) == multiset{x} + multiset(tail);
    assert multiset([x] + rest) == multiset{x} + multiset(rest);
  }

  /** `data.filter(d => _runQuery(d, segs, 0))`. */
  function Select(data: seq<Value>, segs: seq<Segment>, dateOf: DateParser): (r: Option<seq<Value>>)
    requires segs != []
    ensures r.Some? <==> forall i :: 0 <= i < |data| ==> RunQuery(data[i], segs, 0, dateOf).Some?
    ensures r.Some? ==> IsSubsequence(r.value, data)
    ensures r.Some? ==> forall i :: 0 <= i < |r.value| ==> RunQuery(r.value[i], segs, 0, dateOf) == Some(true)
    ensures r.Some? ==> forall i :: 0 <= i < |data| && RunQuery(data[i], segs, 0, dateOf) == Some(true) ==> data[i] in r.value
    ensures r.Some? ==> forall x :: multiset(r.value)[x] == if RunQuery(x, segs, 0, dateOf) == Some(true) then multiset(data)[x] else 0
  {
    FilterAll(data, d => RunQuery(d, segs, 0, dateOf))
  }

  /** `querySegmentTypes.indexOf(t)`: the first segment of type `t`. */
  function TypeIndex(segs: seq<Segment>, t: string): (k: nat)
    ensures k <= |segs|
    ensures k < |segs| ==> segs[k].typ == t
    ensures forall j :: 0 <= j < k ==> segs[j].typ != t
  {
    if segs == [] then 0
    else if segs[0].typ == t then 0
    else 1 + TypeIndex(segs[1..], t)
  }

  function Types(segs: seq<Segment>): (r: seq<string>)
    ensures |r| == |segs| && forall i :: 0 <= i < |segs| ==> r[i] == segs[i].typ
  {
    seq(|segs|, i requires 0 <= i < |segs| => segs[i].typ)
  }

  datatype Stage = Ready(data: seq<Value>) | Unconnected(typ: string)

  /**
   * The join loop of `query`: every segment whose type is a data type
   * other than the primary one is read and joined onto the data, under the
   * previous segment's type, along the types between the primary segment
   * and the first segment of that type.
   */
  function JoinSegments(segs: seq<Segment>, i: nat, data: seq<Value>, datatypes: seq<string>, tables: string -> seq<Value>): Stage
    requires segs != [] && i <= |segs|
    decreases |segs| - i
  {
    if i == |segs| then Ready(data)
    else
      var seg := segs[i];
      if seg.typ != segs[0].typ && seg.typ in datatypes then
        var k := TypeIndex(segs, seg.typ);
        match Join(segs[i - 1].typ, data, Types(segs)[1..k], seg.typ, tables(seg.typ))
        case None => Unconnected(seg.typ)
        case Some(joined) => JoinSegments(segs, i + 1, joined, datatypes, tables)
      else JoinSegments(segs, i + 1, data, datatypes, tables)
  }

  /** A line joins nothing when no segment names another data type. */
  predicate JoinFree(segs: seq<Segment>, datatypes: seq<string>)
  {
    forall i :: 0 <= i < |segs| ==> segs[i].typ == segs[0].typ || segs[i].typ !in datatypes
  }

  /**
   * One line of `query(q, subQueryData, queries)`: the primary records
   * (handed on, or read), joined, then filtered.
   */
  function AnswerLine(segs: seq<Segment>, sub: Option<seq<Value>>, datatypes: seq<string>,
                      tables: string -> seq<Value>, dateOf: DateParser): (r: Answer)
    ensures r.Found? ==> segs != [] && r.typ == segs[0].typ && segs[0].typ in datatypes
    ensures segs != [] && segs[0].typ !in datatypes ==> r == UnknownType(segs[0].typ)
  {
    if segs == [] then Failed
    else if segs[0].typ !in datatypes then UnknownType(segs[0].typ)
    else
      var data := if sub.Some? then sub.value else tables(segs[0].typ);
      match JoinSegments(segs, 0, data, datatypes, tables)
      case Unconnected(t) => CannotConnect(t)
      case Ready(joined) =>
        match Select(joined, segs, dateOf)
        case None => Failed
        case Some(kept) => Found(segs[0].typ, kept)
  }

  /**
   * `query(q, subQueryData, queries)` over parsed lines: the first line is
   * answered, and its records become the data of the next.
   */
  function Query(lines: seq<seq<Segment>>, sub: Option<seq<Value>>, datatypes: seq<string>,
                 tables: string -> seq<Value>, dateOf: DateParser): (r: Answer)
    requires lines != []
    ensures r.Found? ==> lines[0] != [] && lines[|lines| - 1] != [] && r.typ == lines[|lines| - 1][0].typ
    decreases |lines|
  {
    var a := AnswerLine(lines[0], sub, datatypes, tables, dateOf);
    if a.Found? && |lines| > 1 then Query(lines[1..], Some(a.data), datatypes, tables, dateOf)
    else a
  }

  /** `query(q)`: a text whose parsing throws fails. */
  function QueryText(q: string, datatypes: seq<string>, tables: string -> seq<Value>, dateOf: DateParser): Answer
  {
    match ParseQuery(q)
    case None => Failed
    case Some(lines) => Query(lines, None, datatypes, tables, dateOf)
  }

  lemma {:induction false} JoinFreeKeepsData(segs: seq<Segment>, i: nat, data: seq<Value>, datatypes: seq<string>, tables: string -> seq<Value>)
    requires segs != [] && i <= |segs| && JoinFree(segs, datatypes)
    ensures JoinSegments(segs, i, data, datatypes, tables) == Ready(data)
    decreases |segs| - i
  {
    if i < |segs| {
      JoinFreeKeepsData(segs, i + 1, data, datatypes, tables);
    }
  }

  /** Segments that join nothing leave the join loop's data as it is. */
  lemma {:induction false} JoinSegmentsSkip(segs: seq<Segment>, j: nat, i: nat, data: seq<Value>, datatypes: seq<string>, tables: string -> seq<Value>)
    requires segs != [] && j <= i <= |segs|
    requires forall k :: j <= k < i ==> segs[k].typ == segs[0].typ || segs[k].typ !in datatypes
    ensures JoinSegments(segs, j, data, datatypes, tables) == JoinSegments(segs, i, data, datatypes, tables)
    decreases i - j
  {
    if j < i {
      JoinSegmentsSkip(segs, j + 1, i, data, datatypes, tables);
    }
  }

  /**
   * A line whose first joined type has no linkage to the type before it
   * answers "cannot connect", whatever the data: `_join` throws and
   * `query` catches it.
   */
  lemma UnknownLinkCannotConnect(segs: seq<Segment>, i: nat, sub: Option<seq<Value>>, datatypes: seq<string>,
                                 tables: string -> seq<Value>, dateOf: DateParser)
    requires 0 < i < |segs| && segs[0].typ in datatypes
    requires forall k :: 0 <= k < i ==> segs[k].typ == segs[0].typ || segs[k].typ !in datatypes
    requires segs[i].typ != segs[0].typ && segs[i].typ in datatypes
    requires Linkage(segs[i - 1].typ, segs[i].typ).None?
    ensures AnswerLine(segs, sub, datatypes, tables, dateOf) == CannotConnect(segs[i].typ)
  {
    var data := if sub.Some? then sub.value else tables(segs[0].typ);
    JoinSegmentsSkip(segs, 0, i, data, datatypes, tables);
  }

  /** What `Select` keeps is exactly what the line means, whenever it does not throw. */
  lemma SelectMatches(data: seq<Value>, segs: seq<Segment>, dateOf: DateParser)
    requires segs != [] && Select(data, segs, dateOf).Some?
    ensures var r := Select(data, segs, dateOf).value;
      && (forall i :: 0 <= i < |r| ==> Matches(r[i], segs, 0, dateOf))
      && (forall i :: 0 <= i < |data| && Matches(data[i], segs, 0, dateOf) ==> data[i] in r)
  {
    var r := Select(data, segs, dateOf).value;
    forall i | 0 <= i < |r|
      ensures Matches(r[i], segs, 0, dateOf)
    {
      RunQuerySound(r[i], segs, 0, dateOf);
    }
    forall i | 0 <= i < |data| && Matches(data[i], segs, 0, dateOf)
      ensures data[i] in r
    {
      RunQuerySound(data[i], segs, 0, dateOf);
    }
  }

  /** A line that joins nothing keeps records of its data that satisfy it. */
  lemma JoinFreeLineNarrows(segs: seq<Segment>, sub: Option<seq<Value>>, datatypes: seq<string>,
                            tables: string -> seq<Value>, dateOf: DateParser)
    requires segs != [] && JoinFree(segs, datatypes)
    ensures var a := AnswerLine(segs, sub, datatypes, tables, dateOf);
      var start := if sub.Some? then sub.value else tables(segs[0].typ);
      a.Found? ==> forall i :: 0 <= i < |a.data| ==> a.data[i] in start && Matches(a.data[i], segs, 0, dateOf)
  {
    var start := if sub.Some? then sub.value else tables(segs[0].typ);
    JoinFreeKeepsData(segs, 0, start, datatypes, tables);
    if Select(start, segs, dateOf).Some? {
      var kept := Select(start, segs, dateOf).value;
      SelectMatches(start, segs, dateOf);
      KeptFromStart(kept, start);
    }
  }

  lemma KeptFromStart(kept: seq<Value>, start: seq<Value>)
    requires IsSubsequence(kept, start)
    ensures forall i :: 0 <= i < |kept| ==> kept[i] in start
  {
    forall i | 0 <= i < |kept|
      ensures kept[i] in start
    {
      SubsequenceMembers(kept, start, i);
    }
  }

  /** `x` is one of the records `start` and satisfies every line. */
  predicate Narrowed(x: Value, start: seq<Value>, lines: seq<seq<Segment>>, dateOf: DateParser)
  {
    x in start && forall l :: 0 <= l < |lines| ==> lines[l] != [] && Matches(x, lines[l], 0, dateOf)
  }

  /**
   * A query whose lines join nothing answers with records of the data it
   * started from, each of which satisfies every line.
   */
  lemma {:induction false} JoinFreeQueryNarrows(lines: seq<seq<Segment>>, sub: Option<seq<Value>>, datatypes: seq<string>,
                                                tables: string -> seq<Value>, dateOf: DateParser)
    requires lines != [] && lines[0] != []
    requires forall l :: 0 <= l < |lines| ==> JoinFree(lines[l], datatypes)
    ensures var r := Query(lines, sub, datatypes, tables, dateOf);
      var start := if sub.Some? then sub.value else tables(lines[0][0].typ);
      r.Found? ==> forall i :: 0 <= i < |r.data| ==> Narrowed(r.data[i], start, lines, dateOf)
    decreases |lines|
  {
    if |lines| == 1 {
      NarrowsOneLine(lines, sub, datatypes, tables, dateOf);
    } else {
      var a := AnswerLine(lines[0], sub, datatypes, tables, dateOf);
      var rest := lines[1..];
      if a.Found? && Query(rest, Some(a.data), datatypes, tables, dateOf).Found? {
        assert forall l :: 0 <= l < |rest| ==> JoinFree(rest[l], datatypes) by {
          assert forall l :: 0 <= l < |rest| ==> rest[l] == lines[l + 1];
        }
        JoinFreeQueryNarrows(rest, Some(a.data), datatypes, tables, dateOf);
      }
      NarrowsStep(lines, sub, datatypes, tables, dateOf);
    }
  }

  lemma NarrowsOneLine(lines: seq<seq<Segment>>, sub: Option<seq<Value>>, datatypes: seq<string>,
                       tables: string -> seq<Value>, dateOf: DateParser)
    requires |lines| == 1 && lines[0] != [] && JoinFree(lines[0], datatypes)
    ensures var r := Query(lines, sub, datatypes, tables, dateOf);
      var start := if sub.Some? then sub.value else tables(lines[0][0].typ);
      r.Found? ==> forall i :: 0 <= i < |r.data| ==> Narrowed(r.data[i], start, lines, dateOf)
  {
    var a := AnswerLine(lines[0], sub, datatypes, tables, dateOf);
    var start := if sub.Some? then sub.value else tables(lines[0][0].typ);
    JoinFreeLineNarrows(lines[0], sub, datatypes, tables, dateOf);
    assert Query(lines, sub, datatypes, tables, dateOf) == a;
    if a.Found? {
      forall i | 0 <= i < |a.data|
        ensures Narrowed(a.data[i], start, lines, dateOf)
      {
        var x := a.data[i];
        assert x in start && Matches(x, lines[0], 0, dateOf);
        forall l | 0 <= l < |lines|
          ensures lines[l] != [] && Matches(x, lines[l], 0, dateOf)
        {
          assert l == 0;
        }
      }
    }
  }

  lemma NarrowsStep(lines: seq<seq<Segment>>, sub: Option<seq<Value>>, datatypes: seq<string>,
                    tables: string -> seq<Value>, dateOf: DateParser)
    requires |lines| > 1 && lines[0] != [] && JoinFree(lines[0], datatypes)
    requires var a := AnswerLine(lines[0], sub, datatypes, tables, dateOf);
      a.Found? ==> var r := Query(lines[1..], Some(a.data), datatypes, tables, dateOf);
        r.Found? ==> forall i :: 0 <= i < |r.data| ==> Narrowed(r.data[i], a.data, lines[1..], dateOf)
    ensures var r := Query(lines, sub, datatypes, tables, dateOf);
      var start := if sub.Some? then sub.value else tables(lines[0][0].typ);
      r.Found? ==> forall i :: 0 <= i < |r.data| ==> Narrowed(r.data[i], start, lines, dateOf)
  {
    var a := AnswerLine(lines[0], sub, datatypes, tables, dateOf);
    var start := if sub.Some? then sub.value else tables(lines[0][0].typ);
    if a.Found? {
      var r := Query(lines[1..], Some(a.data), datatypes, tables, dateOf);
      assert Query(lines, sub, datatypes, tables, dateOf) == r;
      if r.Found? {
        JoinFreeLineNarrows(lines[0], sub, datatypes, tables, dateOf);
        forall i | 0 <= i < |r.data|
          ensures Narrowed(r.data[i], start, lines, dateOf)
        {
          EveryLineFromRest(lines, r.data[i], a.data, start, dateOf);
        }
      }
    } else {
      assert Query(lines, sub, datatypes, tables, dateOf) == a;
    }
  }

  /** What the first line kept and every later line accepts is narrowed by every line. */
  lemma EveryLineFromRest(lines: seq<seq<Segment>>, x: Value, kept: seq<Value>, start: seq<Value>, dateOf: DateParser)
    requires |lines| > 1 && lines[0] != []
    requires forall i :: 0 <= i < |kept| ==> kept[i] in start && Matches(kept[i], lines[0], 0, dateOf)
    requires Narrowed(x, kept, lines[1..], dateOf)
    ensures Narrowed(x, start, lines, dateOf)
  {
    var rest := lines[1..];
    var j :| 0 <= j < |kept| && kept[j] == x;
    forall l | 0 <= l < |lines|
      ensures lines[l] != [] && Matches(x, lines[l], 0, dateOf)
    {
      if l > 0 {
        assert rest[l - 1] == lines[l];
      }
    }
  }

  /**
   * One line that joins nothing, conversely: its answer keeps the records
   * of its data in their order, and keeps every one of them that
   * satisfies the line.
   */
  lemma JoinFreeLineComplete(segs: seq<Segment>, sub: Option<seq<Value>>, datatypes: seq<string>,
                             tables: string -> seq<Value>, dateOf: DateParser)
    requires segs != [] && JoinFree(segs, datatypes)
    ensures var a := AnswerLine(segs, sub, datatypes, tables, dateOf);
      var start := if sub.Some? then sub.value else tables(segs[0].typ);
      a.Found? ==> IsSubsequence(a.data, start) && forall x :: x in start && Matches(x, segs, 0, dateOf) ==> x in a.data
  {
    var start := if sub.Some? then sub.value else tables(segs[0].typ);
    JoinFreeKeepsData(segs, 0, start, datatypes, tables);
    if Select(start, segs, dateOf).Some? {
      SelectMatches(start, segs, dateOf);
    }
  }

  /**
   * The converse of `JoinFreeQueryNarrows`: a query whose lines join
   * nothing answers with records of the data it started from in their
   * order, and keeps every one of them that satisfies every line.
   */
  lemma {:induction false} JoinFreeQueryComplete(lines: seq<seq<Segment>>, sub: Option<seq<Value>>, datatypes: seq<string>,
                                                 tables: string -> seq<Value>, dateOf: DateParser)
    requires lines != [] && lines[0] != []
    requires forall l :: 0 <= l < |lines| ==> JoinFree(lines[l], datatypes)
    ensures var r := Query(lines, sub, datatypes, tables, dateOf);
      var start := if sub.Some? then sub.value else tables(lines[0][0].typ);
      r.Found? ==> IsSubsequence(r.data, start) && forall x :: Narrowed(x, start, lines, dateOf) ==> x in r.data
    decreases |lines|
  {
    var a := AnswerLine(lines[0], sub, datatypes, tables, dateOf);
    var start := if sub.Some? then sub.value else tables(lines[0][0].typ);
    JoinFreeLineComplete(lines[0], sub, datatypes, tables, dateOf);
    if |lines| == 1 || !a.Found? {
      assert Query(lines, sub, datatypes, tables, dateOf) == a;
    } else {
      var rest := lines[1..];
      var r := Query(rest, Some(a.data), datatypes, tables, dateOf);
      assert Query(lines, sub, datatypes, tables, dateOf) == r;
      if r.Found? {
        assert forall l :: 0 <= l < |rest| ==> rest[l] == lines[l + 1];
        JoinFreeQueryComplete(rest, Some(a.data), datatypes, tables, dateOf);
        SubsequenceTrans(r.data, a.data, start);
        forall x | Narrowed(x, start, lines, dateOf)
          ensures x in r.data
        {
          assert Matches(x, lines[0], 0, dateOf);
          assert Narrowed(x, a.data, rest, dateOf);
        }
      }
    }
  }
}

=== FILE: query_eval.dfy ===
/**
 * Evaluating a parsed query line against one record (`_runQuery` and the
 * filter table of `_availableQueryFilters`). Anything that throws in
 * JavaScript (reading a property of `null`, calling `toLowerCase` on a
 * number, calling a filter table that is not a function) is `None`.
 */
module QueryEval {
  import opened Wrappers
  import opened JsValues
  import opened Ordering
  import opened QueryParse

  /** What `coerce(a, b, allowDates)` returns. */
  datatype Coerced =
    | Nothing                      // `a` is undefined: `coerce` returns undefined
    | Numbers(x: real, y: real)    // both convert with unary `+`
    | Dates(t: int, u: int)        // both parse as dates (relational filters only)
    | Texts(a: Value, b: Value)    // lower-cased text; a `"null"` argument becomes `null`

  /**
   * `new Date(v).getTime()` when that is not NaN. Date parsing is outside
   * the model, so evaluation takes it as a parameter.
   */
  type DateParser = Value -> Option<int>

  /**
   * `coerce(a, b, allowDates)` for a filter argument `b`; `None` when the
   * text branch calls `toLowerCase` on a truthy value that is not a string.
   */
  function Coerce(a: Value, b: string, allowDates: bool, dateOf: DateParser): (r: Option<Coerced>)
    ensures r == Some(Nothing) <==> a.Undef?
    ensures r.None? ==> Truthy(a) && !a.Str?
    ensures r.Some? && r.value.Numbers? ==> ToNumber(a) == Some(r.value.x) && ParseNumber(b) == Some(r.value.y)
    ensures !a.Undef? && ToNumber(a).Some? && ParseNumber(b).Some? ==> r.Some? && r.value.Numbers?
    ensures r.Some? && r.value.Dates? ==> allowDates && dateOf(a) == Some(r.value.t) && dateOf(Str(b)) == Some(r.value.u)
    ensures (!a.Undef? && !(ToNumber(a).Some? && ParseNumber(b).Some?) && allowDates && dateOf(a).Some? && dateOf(Str(b)).Some?)
              ==> r.Some? && r.value.Dates?
    ensures (!a.Undef? && !(ToNumber(a).Some? && ParseNumber(b).Some?) && !(allowDates && dateOf(a).Some? && dateOf(Str(b)).Some?)
             && (!Truthy(a) || a.Str?)) ==> r.Some? && r.value.Texts?
    ensures r.Some? && r.value.Texts? && Truthy(a) ==> a.Str? && r.value.a == Str(Lower(a.s))
    ensures r.Some? && r.value.Texts? && !Truthy(a) ==> r.value.a == a
    ensures r.Some? && r.value.Texts? ==> (r.value.b == Null <==> b == "null")
    ensures r.Some? && r.value.Texts? && b != "null" ==> r.value.b == Str(Lower(b))
  {
    if a.Undef? then Some(Nothing)
    else if ToNumber(a).Some? && ParseNumber(b).Some? then Some(Numbers(ToNumber(a).value, ParseNumber(b).value))
    else if allowDates && dateOf(a).Some? && dateOf(Str(b)).Some? then Some(Dates(dateOf(a).value, dateOf(Str(b)).value))
    else if Truthy(a) && !a.Str? then None
    else Some(Texts(if Truthy(a) then Str(Lower(a.s)) else a, if b == "null" then Null else Str(Lower(b))))
  }

  /** `c[0] === c[1]`; two `Date` objects are never identical. */
  predicate Same(c: Coerced)
  {
    match c
    case Nothing => false
    case Numbers(x, y) => x == y
    case Dates(_, _) => false
    case Texts(a, b) => a == b
  }

  /** JavaScript's `>`, `<`, `>=`, `<=` on two numbers. */
  predicate NumRel(op: Op, x: real, y: real)
  {
    match op
    case Gt => x > y
    case Lt => x < y
    case Ge => x >= y
    case Le => x <= y
    case _ => false
  }

  /** The same operators on two strings: code-unit order, `a >= b` being `!(a < b)`. */
  predicate StrRel(op: Op, x: string, y: string)
  {
    match op
    case Gt => StrLess(y, x)
    case Lt => StrLess(x, y)
    case Ge => !StrLess(x, y)
    case Le => !StrLess(y, x)
    case _ => false
  }

  /**
   * `c[0] op c[1]` for a relational operator. A string compared with `null`
   * is converted to a number and compared with 0; NaN compares false.
   */
  predicate Ordered(op: Op, c: Coerced)
  {
    match c
    case Nothing => false
    case Numbers(x, y) => NumRel(op, x, y)
    case Dates(x, y) => NumRel(op, x as real, y as real)
    case Texts(a, b) =>
      if a.Str? && b.Str? then StrRel(op, a.s, b.s)
      else if a.Str? && b.Null? then
        match ParseNumber(a.s)
        case Some(v) => NumRel(op, v, 0.0)
        case None => false
      else false
  }

  /**
   * The `~` filter, `a && a.toString().toLowerCase().includes(arg.toLowerCase())`:
   * the field is truthy and its text contains the argument, letter case ignored.
   */
  function Includes(a: Value, arg: string): (r: bool)
    ensures r <==> Truthy(a) && exists i :: MatchesAt(ToStr(a), arg, i)
  {
    ContainsIgnoringCase(ToStr(a), arg);
    Truthy(a) && Contains(Lower(ToStr(a)), Lower(arg))
  }

  /**
   * The filter `field op arg` applied to the field's value `a`, as its
   * truthiness; `None` when `coerce` throws.
   */
  function Compare(op: Op, a: Value, arg: string, dateOf: DateParser): (r: Option<bool>)
    ensures r == Some(true) ==> Truthy(a) || (op == Eq && a.Null? && arg == "null")
    ensures r.None? ==> op != Has && Truthy(a) && !a.Str?
    ensures !Truthy(a) ==> r == Some(op == Eq && a.Null? && arg == "null")
    // `~` is a case-insensitive substring test on the field's text
    ensures op == Has ==> r == Some(Includes(a, arg))
    // a number against a numeric argument compares as numbers
    ensures Truthy(a) && ToNumber(a).Some? && ParseNumber(arg).Some? && op != Has ==>
              r == Some(if op == Eq then ToNumber(a).value == ParseNumber(arg).value
                        else if op == Ne then ToNumber(a).value != ParseNumber(arg).value
                        else NumRel(op, ToNumber(a).value, ParseNumber(arg).value))
    // a string against an argument that is neither a number nor `null` compares as lower-cased text
    ensures Truthy(a) && a.Str? && ParseNumber(arg).None? && arg != "null" && (op == Eq || op == Ne) ==>
              r == Some((Lower(a.s) == Lower(arg)) == (op == Eq))
    ensures Truthy(a) && a.Str? && ParseNumber(arg).None? && arg != "null" && op !in {Has, Eq, Ne}
              && (dateOf(a).None? || dateOf(Str(arg)).None?) ==>
              r == Some(StrRel(op, Lower(a.s), Lower(arg)))
  {
    match op
    case Has => Some(Includes(a, arg))
    case Eq =>
      (match Coerce(a, arg, false, dateOf)
       case None => None
       case Some(c) => Some((a.Null? && arg == "null") || (Truthy(a) && Same(c))))
    case Ne =>
      (match Coerce(a, arg, false, dateOf)
       case None => None
       case Some(c) => Some(Truthy(a) && !Same(c)))
    case _ =>
      (match Coerce(a, arg, true, dateOf)
       case None => None
       case Some(c) => Some(Truthy(a) && Ordered(op, c)))
  }

  /**
   * One filter applied to one record. An empty field selects the whole
   * filter table instead of a filter function, and calling it throws; so
   * does reading a field of `null` or `undefined`.
   */
  function ApplyFilter(f: Filter, result: Value, dateOf: DateParser): (r: Option<bool>)
    ensures r.Some? ==> f.field != [] && !result.Undef? && !result.Null?
    ensures f.op.None? && f.field != [] && Get(result, f.field).Some? ==> r == Some(Truthy(Field(result, f.field)))
  {
    if f.field == [] then None
    else
      match Get(result, f.field)
      case None => None
      case Some(a) =>
        match f.op
        case None => Some(Truthy(a))
        case Some(op) =>
          if f.arg.None? then (if Truthy(a) then None else Some(false))
          else Compare(op, a, f.arg.value, dateOf)
  }

  /** `some` over outcomes that may throw: the scan stops at the first `true` or the first throw. */
  function SomeOf(os: seq<Option<bool>>): (r: Option<bool>)
    ensures r == Some(true) ==> exists i :: 0 <= i < |os| && os[i] == Some(true)
    ensures r == Some(false) <==> forall i :: 0 <= i < |os| ==> os[i] == Some(false)
    ensures (forall i :: 0 <= i < |os| ==> os[i].Some?) ==> r.Some?
  {
    if os == [] then Some(false)
    else
      match os[0]
      case None => None
      case Some(true) => Some(true)
      case Some(false) =>
        var r := SomeOf(os[1..]);
        assert forall i :: 1 <= i < |os| ==> os[i] == os[1..][i - 1];
        r
  }

  /** `every` over outcomes that may throw: the scan stops at the first `false` or the first throw. */
  function EveryOf(os: seq<Option<bool>>): (r: Option<bool>)
    ensures r == Some(true) <==> forall i :: 0 <= i < |os| ==> os[i] == Some(true)
    ensures r == Some(false) ==> exists i :: 0 <= i < |os| && os[i] == Some(false)
    ensures (forall i :: 0 <= i < |os| ==> os[i].Some?) ==> r.Some?
  {
    if os == [] then Some(true)
    else
      match os[0]
      case None => None
      case Some(false) => Some(false)
      case Some(true) =>
        var r := EveryOf(os[1..]);
        assert forall i :: 1 <= i < |os| ==> os[i] == os[1..][i - 1];
        r
  }

  function Not(o: Option<bool>): Option<bool>
  {
    match o
    case None => None
    case Some(b) => Some(!b)
  }

  /**
   * A segment's quantifier applied to its child array: `some`,
   * `existentialEvery` (`every`, but false on an empty array) or `none`
   * (`!some`, so true on an empty array).
   */
  function Quantify(q: Quantifier, os: seq<Option<bool>>): (r: Option<bool>)
    ensures q == NoMatch ==> r == Not(SomeOf(os))
    ensures q == EveryMatch && r == Some(true) ==> SomeOf(os) == Some(true)
    ensures os == [] ==> r == Some(q == NoMatch)
  {
    match q
    case AnyMatch => SomeOf(os)
    case EveryMatch =>
      if os == [] then Some(false)
      else
        var r := EveryOf(os);
        assert r == Some(true) ==> os[0] == Some(true);
        r
    case NoMatch => Not(SomeOf(os))
  }

  /** A filter applied to a segment's data: an array passes when some element does. */
  function FilterOn(f: Filter, data: Value, dateOf: DateParser): Option<bool>
  {
    if f.field == [] then None
    else if data.Arr? then SomeOf(seq(|data.items|, i requires 0 <= i < |data.items| => ApplyFilter(f, data.items[i], dateOf)))
    else ApplyFilter(f, data, dateOf)
  }

  /** `typeof data !== "undefined" && filters.every(…)`. */
  function FiltersPass(fs: seq<Filter>, data: Value, dateOf: DateParser): Option<bool>
  {
    if data.Undef? then Some(false)
    else EveryOf(seq(|fs|, k requires 0 <= k < |fs| => FilterOn(fs[k], data, dateOf)))
  }

  /**
   * `_runQuery(data, segs, depth)`: the segment's filters must pass, and
   * the next segment's type names the child to descend into. An array
   * child is quantified by this segment's quantifier, a truthy child is
   * tested directly, and a missing or falsy child satisfies only `*`.
   * Both halves are evaluated before they are combined.
   */
  function RunQuery(data: Value, segs: seq<Segment>, depth: nat, dateOf: DateParser): (r: Option<bool>)
    requires depth < |segs|
    ensures r == Some(true) ==> !data.Undef?
    decreases |segs| - depth
  {
    var seg := segs[depth];
    var filters := FiltersPass(seg.filters, data, dateOf);
    var next :=
      if depth + 1 == |segs| then Some(!data.Undef?)
      else
        match Get(data, segs[depth + 1].typ)
        case None => None
        case Some(child) =>
          if child.Arr? then
            Quantify(seg.quant, seq(|child.items|, i requires 0 <= i < |child.items| => RunQuery(child.items[i], segs, depth + 1, dateOf)))
          else if Truthy(child) then RunQuery(child, segs, depth + 1, dateOf)
          else Some(seg.quant == NoMatch);
    match (filters, next)
    case (Some(a), Some(b)) => Some(a && b)
    case _ => None
  }

  /** A filter passes on a value when applying it returns `true`. */
  predicate FilterHolds(f: Filter, x: Value, dateOf: DateParser)
  {
    ApplyFilter(f, x, dateOf) == Some(true)
  }

  /** A filter is satisfied by a value, or by some element of an array. */
  predicate FilterSatisfied(f: Filter, data: Value, dateOf: DateParser)
  {
    if data.Arr? then exists i :: 0 <= i < |data.items| && FilterHolds(f, data.items[i], dateOf)
    else FilterHolds(f, data, dateOf)
  }

  /**
   * What a query line means, stated with quantifiers over the data: every
   * filter holds (on some element, for array data), and the child named by
   * the next segment matches as the quantifier demands.
   */
  predicate Matches(data: Value, segs: seq<Segment>, depth: nat, dateOf: DateParser)
    requires depth < |segs|
    decreases |segs| - depth
  {
    var seg := segs[depth];
    && !data.Undef?
    && (forall k :: 0 <= k < |seg.filters| ==> FilterSatisfied(seg.filters[k], data, dateOf))
    && (depth + 1 == |segs| ||
        var child := Field(data, segs[depth + 1].typ);
        if child.Arr? then
          match seg.quant
          case AnyMatch => exists i :: 0 <= i < |child.items| && Matches(child.items[i], segs, depth + 1, dateOf)
          case EveryMatch => |child.items| > 0 && forall i :: 0 <= i < |child.items| ==> Matches(child.items[i], segs, depth + 1, dateOf)
          case NoMatch => forall i :: 0 <= i < |child.items| ==> !Matches(child.items[i], segs, depth + 1, dateOf)
        else if Truthy(child) then Matches(child, segs, depth + 1, dateOf)
        else seg.quant == NoMatch)
  }

  lemma FilterOnSound(f: Filter, data: Value, dateOf: DateParser)
    ensures FilterOn(f, data, dateOf).Some? ==> FilterOn(f, data, dateOf).value == FilterSatisfied(f, data, dateOf)
  {
    if f.field != [] && data.Arr? {
      var os := seq(|data.items|, i requires 0 <= i < |data.items| => ApplyFilter(f, data.items[i], dateOf));
      assert forall i :: 0 <= i < |data.items| ==> os[i] == ApplyFilter(f, data.items[i], dateOf);
    }
  }

  lemma FiltersPassSound(fs: seq<Filter>, data: Value, dateOf: DateParser)
    ensures var o := FiltersPass(fs, data, dateOf);
      o.Some? ==> o.value == (!data.Undef? && forall k :: 0 <= k < |fs| ==> FilterSatisfied(fs[k], data, dateOf))
  {
    if !data.Undef? {
      var os := seq(|fs|, k requires 0 <= k < |fs| => FilterOn(fs[k], data, dateOf));
      forall k | 0 <= k < |fs|
        ensures os[k].Some? ==> os[k].value == FilterSatisfied(fs[k], data, dateOf)
      {
        FilterOnSound(fs[k], data, dateOf);
      }
      assert FiltersPass(fs, data, dateOf) == EveryOf(os);
    }
  }

  /**
   * Quantifying outcomes that agree with a predicate wherever they do not
   * throw agrees with the quantified predicate.
   */
  lemma QuantifySound(q: Quantifier, os: seq<Option<bool>>, holds: seq<bool>)
    requires |os| == |holds|
    requires forall i :: 0 <= i < |os| && os[i].Some? ==> os[i].value == holds[i]
    ensures var r := Quantify(q, os);
      r.Some? ==> r.value == match q
        case AnyMatch => exists i :: 0 <= i < |holds| && holds[i]
        case EveryMatch => |holds| > 0 && forall i :: 0 <= i < |holds| ==> holds[i]
        case NoMatch => forall i :: 0 <= i < |holds| ==> !holds[i]
  {
  }

  /** Whenever `_runQuery` returns without throwing, its answer is `Matches`. */
  lemma {:induction false} RunQuerySound(data: Value, segs: seq<Segment>, depth: nat, dateOf: DateParser)
    requires depth < |segs|
    ensures RunQuery(data, segs, depth, dateOf).Some? ==> RunQuery(data, segs, depth, dateOf).value == Matches(data, segs, depth, dateOf)
    decreases |segs| - depth
  {
    var seg := segs[depth];
    FiltersPassSound(seg.filters, data, dateOf);
    if depth + 1 < |segs| && Get(data, segs[depth + 1].typ).Some? {
      var child := Field(data, segs[depth + 1].typ);
      if child.Arr? {
        var items := child.items;
        var os := seq(|items|, i requires 0 <= i < |items| => RunQuery(items[i], segs, depth + 1, dateOf));
        var holds := seq(|items|, i requires 0 <= i < |items| => Matches(items[i], segs, depth + 1, dateOf));
        forall i | 0 <= i < |items|
          ensures os[i].Some? ==> os[i].value == holds[i]
          ensures holds[i] == Matches(items[i], segs, depth + 1, dateOf)
        {
          RunQuerySound(items[i], segs, depth + 1, dateOf);
        }
        QuantifySound(seg.quant, os, holds);
        var filters := FiltersPass(seg.filters, data, dateOf);
        assert RunQuery(data, segs, depth, dateOf) ==
          match (filters, Quantify(seg.quant, os))
          case (Some(a), Some(b)) => Some(a && b)
          case _ => None;
      } else if Truthy(child) {
        RunQuerySound(child, segs, depth + 1, dateOf);
      }
    }
  }

  /** On a truthy field, `!` is exactly the negation of `=`; both throw together. */
  lemma EqNeComplement(field: string, arg: string, result: Value, dateOf: DateParser)
    requires field != [] && !result.Undef? && !result.Null? && Truthy(Field(result, field))
    ensures ApplyFilter(Filter(field, Some(Ne), Some(arg)), result, dateOf)
         == Not(ApplyFilter(Filter(field, Some(Eq), Some(arg)), result, dateOf))
  {
  }

  /**
   * On a truthy field and an argument other than `null`, `>=` is exactly
   * the negation of `<`.
   */
  lemma GeIsNotLt(field: string, arg: string, result: Value, dateOf: DateParser)
    requires field != [] && !result.Undef? && !result.Null? && Truthy(Field(result, field))
    requires arg != "null"
    ensures ApplyFilter(Filter(field, Some(Ge), Some(arg)), result, dateOf)
         == Not(ApplyFilter(Filter(field, Some(Lt), Some(arg)), result, dateOf))
  {
  }

  /**
   * Against the argument `null`, text that is not a number is neither
   * smaller nor greater nor equal: every relational filter fails.
   */
  lemma TextAgainstNull(field: string, result: Value, dateOf: DateParser, op: Op)
    requires field != [] && !result.Undef? && !result.Null?
    requires op == Gt || op == Lt || op == Ge || op == Le
    requires var a := Field(result, field); a.Str? && a.s != [] && ParseNumber(a.s).None? && ParseNumber(Lower(a.s)).None?
    requires dateOf(Field(result, field)).None?
    ensures ApplyFilter(Filter(field, Some(op), Some("null")), result, dateOf) == Some(false)
  {
    var a := Field(result, field);
    assert Get(result, field) == Some(a);
    assert ToNumber(a).None?;
    var c := Coerce(a, "null", true, dateOf);
    assert c == Some(Texts(Str(Lower(a.s)), Null));
    assert !Ordered(op, c.value);
    assert Compare(op, a, "null", dateOf) == Some(false);
  }

  /**
   * `field=null` holds exactly when the field is `null` (the text
   * `"null"` does not match), and throws only on a truthy non-string.
   */
  lemma EqualsNullMeansNull(field: string, result: Value, dateOf: DateParser)
    requires field != [] && !result.Undef? && !result.Null?
    ensures var r := ApplyFilter(Filter(field, Some(Eq), Some("null")), result, dateOf);
      var a := Field(result, field);
      && (r.Some? ==> r.value == a.Null?)
      && (r.None? <==> Truthy(a) && !a.Str?)
  {
    var a := Field(result, field);
    assert ParseNumber("null").None? by {
      assert Trim("null") == "null";
    }
    if Get(result, field).Some? {
      assert Get(result, field) == Some(a);
      var c := Coerce(a, "null", false, dateOf);
      assert c.Some? && c.value.Texts? ==> c.value.b == Null;
    }
  }

  /** `~` ignores the case of its argument. */
  lemma HasIgnoresCase(field: string, arg: string, result: Value, dateOf: DateParser)
    ensures ApplyFilter(Filter(field, Some(Has), Some(arg)), result, dateOf)
         == ApplyFilter(Filter(field, Some(Has), Some(Lower(arg))), result, dateOf)
  {
    LowerIdempotent(arg);
  }
}

=== FILE: query_join.dfy ===
/**
 * `_join`: attaching the records of one data type to the records of
 * another that are stored separately (orders and their fulfillments, line
 * items and their products, …). Every child is grouped by the `String` of
 * its key, and every target reached from a parent along the path gets the
 * group whose key equals the `String` of its own key, or `undefined`.
 * Values are immutable here, so the joined parents are returned as new
 * values rather than updated in place. `None` is a throw, which the query
 * reports as "cannot connect".
 */
module Joins {
  import opened Wrappers
  import opened JsValues

  datatype Link = Link(parentKey: string, childKey: string)

  /**
   * `availableLinkages[parents][children]`; both a missing parent type and
   * a missing child type end in a throw.
   */
  function Linkage(parents: string, children: string): Option<Link>
  {
    if parents == "orders" && children == "fulfillments" then Some(Link("id", "order_id"))
    else if parents == "orders" && children == "customers" then Some(Link("customer", "id"))
    else if parents == "fulfillments" && children == "orders" then Some(Link("order_id", "id"))
    else if parents == "line_items" && children == "products" then Some(Link("product_id", "id"))
    else if parents == "customers" && children == "orders" then Some(Link("id", "customer"))
    else if parents == "variants" && children == "inventory" then Some(Link("inventory_item_id", "id"))
    else None
  }

  function Swap(l: Link): Link
  {
    Link(l.childKey, l.parentKey)
  }

  /** The property key a child is filed under: `String(child[key])`. */
  function KeyOf(v: Value, key: string): string
  {
    ToStr(Field(v, key))
  }

  /** The children filed under `k`, in input order: the reference grouping. */
  function WithKey(children: seq<Value>, key: string, k: string): (r: seq<Value>)
    ensures |r| <= |children|
    ensures forall i :: 0 <= i < |r| ==> r[i] in children && KeyOf(r[i], key) == k
    ensures forall i :: 0 <= i < |children| && KeyOf(children[i], key) == k ==> children[i] in r
  {
    if children == [] then []
    else
      var rest := WithKey(children[..|children| - 1], key, k);
      var last := children[|children| - 1];
      assert forall i :: 0 <= i < |children| - 1 ==> children[i] == children[..|children| - 1][i];
      if KeyOf(last, key) == k then rest + [last] else rest
  }

  /**
   * `children.reduce(…, {})` building the child map: each child is
   * appended to the list under its key. Reading the key of `null` or
   * `undefined` throws.
   */
  function ChildMap(children: seq<Value>, key: string): (r: Option<map<string, seq<Value>>>)
    ensures r.None? <==> exists i :: 0 <= i < |children| && (children[i].Undef? || children[i].Null?)
  {
    if children == [] then Some(map[])
    else
      var init := children[..|children| - 1];
      var last := children[|children| - 1];
      assert forall i :: 0 <= i < |init| ==> init[i] == children[i];
      match ChildMap(init, key)
      case None => None
      case Some(m) =>
        if last.Undef? || last.Null? then None
        else
          var k := KeyOf(last, key);
          Some(m[k := if k in m then m[k] + [last] else [last]])
  }

  /** The child map files every child under its key, in input order, and holds nothing else. */
  lemma {:induction false} ChildMapGroups(children: seq<Value>, key: string)
    requires ChildMap(children, key).Some?
    ensures var m := ChildMap(children, key).value;
      && (forall k :: k in m <==> WithKey(children, key, k) != [])
      && (forall k :: k in m ==> m[k] == WithKey(children, key, k))
    decreases |children|
  {
    if children != [] {
      var init := children[..|children| - 1];
      var last := children[|children| - 1];
      assert forall i :: 0 <= i < |init| ==> init[i] == children[i];
      ChildMapGroups(init, key);
      var m0 := ChildMap(init, key).value;
      var m := ChildMap(children, key).value;
      forall k
        ensures (k in m <==> WithKey(children, key, k) != []) && (k in m ==> m[k] == WithKey(children, key, k))
      {
        assert WithKey(children, key, k) == WithKey(init, key, k) + (if KeyOf(last, key) == k then [last] else []);
      }
    }
  }

  /** `childMap[k]`: the group, or `undefined` when there is none. */
  function Lookup(m: map<string, seq<Value>>, k: string): Value
  {
    if k in m then Arr(m[k]) else Undef
  }

  /**
   * `t[childType] = childMap[t[parentKey]]` on one target. Assigning to a
   * property of `null`, `undefined` or a primitive throws in strict mode;
   * an array accepts the property, which the value model cannot hold.
   */
  function Attach(t: Value, childType: string, link: Link, m: map<string, seq<Value>>): (r: Option<Value>)
    ensures t.Obj? ==> r == Some(Obj(t.fields[childType := Lookup(m, KeyOf(t, link.parentKey))]))
    ensures t.Arr? ==> r == Some(t)
    ensures r.None? <==> !t.Obj? && !t.Arr?
  {
    if t.Obj? then Some(Obj(t.fields[childType := Lookup(m, KeyOf(t, link.parentKey))]))
    else if t.Arr? then Some(t)
    else None
  }

  /** `forEach` over an array target: every element gets its children, the first throw wins. */
  function AttachEach(ts: seq<Value>, childType: string, link: Link, m: map<string, seq<Value>>): (r: Option<seq<Value>>)
    ensures r.Some? <==> forall i :: 0 <= i < |ts| ==> Attach(ts[i], childType, link, m).Some?
    ensures r.Some? ==> |r.value| == |ts| && forall i :: 0 <= i < |ts| ==> Some(r.value[i]) == Attach(ts[i], childType, link, m)
  {
    if ts == [] then Some([])
    else
      match (Attach(ts[0], childType, link, m), AttachEach(ts[1..], childType, link, m))
      case (Some(x), Some(xs)) => Some([x] + xs)
      case _ =>
        assert forall i :: 1 <= i < |ts| ==> ts[i] == ts[1..][i - 1];
        None
  }

  /** `v` with property `k` set to `x`, unchanged when it already holds `x`. */
  function SetField(v: Value, k: string, x: Value): (r: Value)
    ensures x == Field(v, k) ==> r == v
    ensures v.Obj? ==> r.Obj? && Field(r, k) == x
    ensures v.Obj? ==> forall f :: f != k ==> Field(r, f) == Field(v, f)
    ensures !v.Obj? ==> r == v
  {
    if x == Field(v, k) then v
    else if v.Obj? then Obj(v.fields[k := x])
    else v
  }

  /**
   * Follows `path` from a parent (`path.reduce((t, key) => t[key], parent)`,
   * throwing on `null` or `undefined` along the way), then attaches the
   * children to the target: to each element of an array, to a truthy
   * value, and to nothing otherwise.
   */
  function AttachAt(v: Value, path: seq<string>, childType: string, link: Link, m: map<string, seq<Value>>): (r: Option<Value>)
    ensures path == [] && v.Obj? ==> r == Attach(v, childType, link, m)
    ensures path == [] && !Truthy(v) ==> r == Some(v)
    ensures path == [] && v.Arr? ==> (r.Some? <==> forall i :: 0 <= i < |v.items| ==> Attach(v.items[i], childType, link, m).Some?)
    ensures path == [] && v.Arr? && r.Some? ==>
      r.value.Arr? && |r.value.items| == |v.items|
      && forall i :: 0 <= i < |v.items| ==> Some(r.value.items[i]) == Attach(v.items[i], childType, link, m)
    ensures path != [] && (v.Undef? || v.Null?) ==> r.None?
    ensures path != [] && r.Some? && v.Obj? ==> r.value.Obj? && forall f :: f != path[0] ==> Field(r.value, f) == Field(v, f)
    ensures path != [] && r.Some? && !v.Obj? ==> r.value == v
    decreases |path|
  {
    if path == [] then
      if v.Arr? then
        match AttachEach(v.items, childType, link, m)
        case None => None
        case Some(items) => Some(Arr(items))
      else if Truthy(v) then Attach(v, childType, link, m)
      else Some(v)
    else
      match Get(v, path[0])
      case None => None
      case Some(next) =>
        match AttachAt(next, path[1..], childType, link, m)
        case None => None
        case Some(x) => Some(SetField(v, path[0], x))
  }

  /**
   * One step along the path from an object: it keeps every other property,
   * and the property stepped into holds the joined value below it.
   */
  lemma AttachAtStep(v: Value, path: seq<string>, childType: string, link: Link, m: map<string, seq<Value>>)
    requires path != [] && v.Obj?
    ensures var r := AttachAt(v, path, childType, link, m);
      var below := AttachAt(Field(v, path[0]), path[1..], childType, link, m);
      && (r.Some? <==> below.Some?)
      && (r.Some? ==> Field(r.value, path[0]) == below.value)
  {
  }

  function AttachAll(parents: seq<Value>, path: seq<string>, childType: string, link: Link, m: map<string, seq<Value>>): (r: Option<seq<Value>>)
    ensures r.Some? <==> forall i :: 0 <= i < |parents| ==> AttachAt(parents[i], path, childType, link, m).Some?
    ensures r.Some? ==> |r.value| == |parents| && forall i :: 0 <= i < |parents| ==> Some(r.value[i]) == AttachAt(parents[i], path, childType, link, m)
  {
    if parents == [] then Some([])
    else
      match (AttachAt(parents[0], path, childType, link, m), AttachAll(parents[1..], path, childType, link, m))
      case (Some(x), Some(xs)) => Some([x] + xs)
      case _ =>
        assert forall i :: 1 <= i < |parents| ==> parents[i] == parents[1..][i - 1];
        None
  }

  /** `_join`: `None` when it throws. */
  function Join(parentsType: string, parents: seq<Value>, path: seq<string>, childType: string, children: seq<Value>): Option<seq<Value>>
  {
    match Linkage(parentsType, childType)
    case None => None
    case Some(link) =>
      match ChildMap(children, link.childKey)
      case None => None
      case Some(m) => AttachAll(parents, path, childType, link, m)
  }

  /** The linkages come in inverse pairs: orders and fulfillments, orders and customers. */
  lemma LinkagesInverse(a: string, b: string)
    requires (a == "orders" && (b == "fulfillments" || b == "customers")) || (b == "orders" && (a == "fulfillments" || a == "customers"))
    ensures Linkage(a, b).Some? && Linkage(b, a) == Some(Swap(Linkage(a, b).value))
  {
  }

  /**
   * Joining directly onto the parents (an empty path): every parent keeps
   * its place and its other properties, and object parents gain exactly
   * the children whose key renders like theirs, in input order.
   */
  lemma JoinOntoParents(parentsType: string, parents: seq<Value>, childType: string, children: seq<Value>, link: Link)
    requires Linkage(parentsType, childType) == Some(link)
    requires forall i :: 0 <= i < |parents| ==> parents[i].Obj?
    requires forall i :: 0 <= i < |children| ==> children[i].Obj?
    ensures var r := Join(parentsType, parents, [], childType, children);
      && r.Some? && |r.value| == |parents|
      && forall i :: 0 <= i < |parents| ==>
           var p := parents[i];
           var group := WithKey(children, link.childKey, KeyOf(p, link.parentKey));
           && r.value[i].Obj?
           && Field(r.value[i], childType) == (if group == [] then Undef else Arr(group))
           && forall f :: f != childType ==> Field(r.value[i], f) == Field(p, f)
  {
    var m := ChildMap(children, link.childKey).value;
    ChildMapGroups(children, link.childKey);
    var r := Join(parentsType, parents, [], childType, children);
    assert r == AttachAll(parents, [], childType, link, m);
    forall i | 0 <= i < |parents|
      ensures var p := parents[i];
        var group := WithKey(children, link.childKey, KeyOf(p, link.parentKey));
        && r.value[i].Obj?
        && Field(r.value[i], childType) == (if group == [] then Undef else Arr(group))
        && forall f :: f != childType ==> Field(r.value[i], f) == Field(p, f)
    {
      var p := parents[i];
      assert Some(r.value[i]) == Attach(p, childType, link, m);
      assert r.value[i] == Obj(p.fields[childType := Lookup(m, KeyOf(p, link.parentKey))]);
    }
  }

  /**
   * Element `y` is element `x` with the children whose key renders like
   * its own filed under `childType`, and every other property kept.
   */
  ghost predicate ItemJoined(x: Value, y: Value, childType: string, link: Link, children: seq<Value>)
  {
    var group := WithKey(children, link.childKey, KeyOf(x, link.parentKey));
    && Field(y, childType) == (if group == [] then Undef else Arr(group))
    && forall f :: f != childType ==> Field(y, f) == Field(x, f)
  }

  /**
   * Parent `q` is parent `p` with every element of its array property
   * `key` joined, in place, and every other property kept.
   */
  ghost predicate ArrayJoined(p: Value, q: Value, key: string, childType: string, link: Link, children: seq<Value>)
    requires Field(p, key).Arr?
  {
    var items := Field(p, key).items;
    && (forall f :: f != key ==> Field(q, f) == Field(p, f))
    && Field(q, key).Arr? && |Field(q, key).items| == |items|
    && forall j :: 0 <= j < |items| ==> ItemJoined(items[j], Field(q, key).items[j], childType, link, children)
  }

  /**
   * Joining through an array property of the parents (a one-key path such
   * as `line_items`): every parent keeps its place and its other
   * properties, the array keeps its length, and each object element gains
   * exactly the children whose key renders like its own, in input order,
   * keeping its other properties.
   */
  lemma JoinThroughArrayField(parentsType: string, parents: seq<Value>, key: string, childType: string, children: seq<Value>, link: Link)
    requires Linkage(parentsType, childType) == Some(link)
    requires forall i :: 0 <= i < |parents| ==> parents[i].Obj? && Field(parents[i], key).Arr?
    requires forall i, j :: 0 <= i < |parents| && 0 <= j < |Field(parents[i], key).items| ==> Field(parents[i], key).items[j].Obj?
    requires forall i :: 0 <= i < |children| ==> children[i].Obj?
    ensures var r := Join(parentsType, parents, [key], childType, children);
      && r.Some? && |r.value| == |parents|
      && forall i :: 0 <= i < |parents| ==> ArrayJoined(parents[i], r.value[i], key, childType, link, children)
  {
    var m := ChildMap(children, link.childKey).value;
    var r := Join(parentsType, parents, [key], childType, children);
    forall i | 0 <= i < |parents|
      ensures AttachAt(parents[i], [key], childType, link, m).Some?
      ensures ArrayJoined(parents[i], AttachAt(parents[i], [key], childType, link, m).value, key, childType, link, children)
    {
      ThroughArrayOne(parents[i], key, childType, link, children);
    }
    assert r == AttachAll(parents, [key], childType, link, m);
  }

  /** One parent joined through an array property of object elements. */
  lemma ThroughArrayOne(p: Value, key: string, childType: string, link: Link, children: seq<Value>)
    requires p.Obj? && Field(p, key).Arr?
    requires forall j :: 0 <= j < |Field(p, key).items| ==> Field(p, key).items[j].Obj?
    requires forall i :: 0 <= i < |children| ==> children[i].Obj?
    ensures var m := ChildMap(children, link.childKey).value;
      var r := AttachAt(p, [key], childType, link, m);
      && r.Some?
      && ArrayJoined(p, r.value, key, childType, link, children)
  {
    var m := ChildMap(children, link.childKey).value;
    ChildMapGroups(children, link.childKey);
    var items := Field(p, key).items;
    AttachAtStep(p, [key], childType, link, m);
    assert [key][1..] == [];
    var below := AttachAt(Field(p, key), [], childType, link, m);
    assert below.Some?;
    forall j | 0 <= j < |items|
      ensures ItemJoined(items[j], below.value.items[j], childType, link, children)
    {
      assert Some(below.value.items[j]) == Attach(items[j], childType, link, m);
    }
  }
}

=== FILE: query_parse.dfy ===
/**
 * The query language's parser (`_buildQuery`). A query is one line per
 * stage; a line is a chain of segments `type[filter][filter]…` joined by a
 * quantifier character (`:` some, `&` every-and-nonempty, `*` none), and
 * the quantifier following a segment says how that segment's children
 * must match. A filter is `field`, or `field op argument` with `op` one of
 * `>=`, `<=`, `!`, `~`, `=`, `<`, `>`.
 */
module QueryParse {
  import opened Wrappers
  import opened JsValues

  /** `:` is `some`, `&` is `existentialEvery`, `*` is `none`. */
  datatype Quantifier = AnyMatch | EveryMatch | NoMatch

  /** The filter operators: `!`, `~`, `=`, `>`, `<`, `>=`, `<=`. */
  datatype Op = Ne | Has | Eq | Gt | Lt | Ge | Le

  /**
   * A parsed filter; `op == None` is the existence test `!!result[field]`.
   * An empty field selects the whole filter table instead of a filter,
   * which throws once applied.
   */
  datatype Filter = Filter(field: string, op: Option<Op>, arg: Option<string>)

  datatype Segment = Segment(typ: string, quant: Quantifier, filters: seq<Filter>)

  predicate IsQuantChar(c: char)
  {
    c == ':' || c == '&' || c == '*'
  }

  predicate IsOpChar(c: char)
  {
    c == '!' || c == '~' || c == '=' || c == '<' || c == '>'
  }

  function QuantOf(c: char): Quantifier
  {
    if c == '&' then EveryMatch else if c == '*' then NoMatch else AnyMatch
  }

  function QuantChar(q: Quantifier): (c: char)
    ensures IsQuantChar(c) && QuantOf(c) == q
  {
    match q
    case AnyMatch => ':'
    case EveryMatch => '&'
    case NoMatch => '*'
  }

  function OpText(op: Op): (t: string)
    ensures 1 <= |t| <= 2 && IsOpChar(t[0])
  {
    match op
    case Ne => "!"
    case Has => "~"
    case Eq => "="
    case Gt => ">"
    case Lt => "<"
    case Ge => ">="
    case Le => "<="
  }

  /**
   * The operator at the front of `s` (`s[0]` an operator character): the
   * two-character `>=` and `<=` are tried before the single characters.
   */
  function OpAt(s: string): (r: (Op, nat))
    requires s != [] && IsOpChar(s[0])
    ensures 1 <= r.1 <= |s| && s[..r.1] == OpText(r.0)
  {
    if |s| >= 2 && s[0] == '>' && s[1] == '=' then (Ge, 2)
    else if |s| >= 2 && s[0] == '<' && s[1] == '=' then (Le, 2)
    else if s[0] == '!' then (Ne, 1)
    else if s[0] == '~' then (Has, 1)
    else if s[0] == '=' then (Eq, 1)
    else if s[0] == '>' then (Gt, 1)
    else (Lt, 1)
  }

  /**
   * `filter.split` on the global regular expression
   * `\s*(>=|<=|[!~=<>])\s*`, keeping components 0, 1 and 2: the field is
   * the text before the first operator, the argument the text after it up
   * to the next operator (surrounding whitespace dropped).
   */
  function ParseFilter(text: string): Filter
  {
    var q := FindFirst(text, IsOpChar);
    if q == |text| then Filter(text, None, None)
    else
      var (op, n) := OpAt(text[q..]);
      var rest := TrimStart(text[q + n..]);
      var e := FindFirst(rest, IsOpChar);
      var arg := if e == |rest| then rest else TrimEnd(rest[..e]);
      Filter(TrimEnd(text[..q]), Some(op), Some(arg))
  }

  /**
   * `line.split` on the global regular expression `\s*([:&*])\s*`: the
   * texts between quantifier characters and the quantifiers themselves.
   * Quantifier characters are separators wherever they stand, inside
   * brackets too.
   */
  function QuantSplit(line: string): (r: (seq<string>, seq<char>))
    ensures |r.0| == |r.1| + 1
    decreases |line|
  {
    var q := FindFirst(line, IsQuantChar);
    if q == |line| then ([line], [])
    else
      var rest := QuantSplit(TrimStart(line[q + 1..]));
      ([TrimEnd(line[..q])] + rest.0, [line[q]] + rest.1)
  }

  /**
   * The `reduce` that builds segment texts: every quantifier is glued in
   * front of the text before it, and the last text stands alone.
   */
  function SegmentTexts(texts: seq<string>, quants: seq<char>): (r: seq<string>)
    requires |texts| == |quants| + 1
    ensures |r| == |texts|
    ensures forall i :: 0 <= i < |quants| ==> r[i] == [quants[i]] + texts[i]
    ensures r[|r| - 1] == texts[|texts| - 1]
  {
    seq(|texts|, i requires 0 <= i < |texts| => if i < |quants| then [quants[i]] + texts[i] else texts[i])
  }

  /**
   * `segment.split` on the global regular expression
   * `\s*\[\s*(.*?)\s*\]\s*`: the text before the first bracket pair, the
   * pair's trimmed contents, then the same for the rest.
   */
  /**
   * The first `[` and the first `]` after it, as the text before, between
   * and after them; `None` when there is no such pair.
   */
  function NextBracket(s: string): (r: Option<(string, string, string)>)
    ensures r.Some? ==> |r.value.0| + |r.value.1| + |r.value.2| + 2 == |s|
    ensures r.Some? ==> s == r.value.0 + ("[" + (r.value.1 + ("]" + r.value.2)))
    ensures r.Some? ==> '[' !in r.value.0 && ']' !in r.value.1
    ensures r.None? ==> forall i, j :: 0 <= i < j < |s| ==> !(s[i] == '[' && s[j] == ']')
  {
    var o := IndexOf(s, '[');
    if o == |s| then None
    else
      var c := IndexOf(s[o + 1..], ']');
      if o + 1 + c == |s| then
        assert forall j :: o < j < |s| ==> s[j] == s[o + 1..][j - o - 1];
        None
      else
        assert s == s[..o] + ("[" + (s[o + 1..o + 1 + c] + ("]" + s[o + 2 + c..])));
        Some((s[..o], s[o + 1..o + 1 + c], s[o + 2 + c..]))
  }

  function BracketSplit(s: string): (r: seq<string>)
    ensures |r| >= 1
    decreases |s|
  {
    match NextBracket(s)
    case None => [s]
    case Some((pre, inner, post)) => [TrimEnd(pre), Trim(inner)] + BracketSplit(TrimStart(post))
  }

  function NonEmpty(pieces: seq<string>): (r: seq<string>)
    ensures forall i :: 0 <= i < |r| ==> r[i] != [] && r[i] in pieces
  {
    if pieces == [] then []
    else if pieces[0] == [] then NonEmpty(pieces[1..])
    else [pieces[0]] + NonEmpty(pieces[1..])
  }

  /** `replace(/[:&*]/g, '')`. */
  function DropQuantChars(s: string): (r: string)
    ensures forall i :: 0 <= i < |r| ==> !IsQuantChar(r[i])
  {
    if s == [] then []
    else if IsQuantChar(s[0]) then DropQuantChars(s[1..])
    else [s[0]] + DropQuantChars(s[1..])
  }

  /**
   * `_availableQueryQuantifiers(segment)`: the segment's first quantifier
   * character, `:` when it has none.
   */
  function SegmentQuantifier(text: string): Quantifier
  {
    var i := FindFirst(text, IsQuantChar);
    if i < |text| then QuantOf(text[i]) else AnyMatch
  }

  /**
   * One segment: the first non-empty piece, stripped of quantifier
   * characters, is the type and the other pieces are filters. A segment
   * with no non-empty piece throws (`filters.shift()` is `undefined`).
   */
  function ParseSegment(text: string): (r: Option<Segment>)
    ensures r.None? <==> NonEmpty(BracketSplit(text)) == []
  {
    var pieces := NonEmpty(BracketSplit(text));
    if pieces == [] then None
    else Some(Segment(DropQuantChars(pieces[0]), SegmentQuantifier(text), ParsedFilters(pieces)))
  }

  /** The filters of a segment: every piece after the head, parsed. */
  function ParsedFilters(pieces: seq<string>): seq<Filter>
    requires pieces != []
  {
    seq(|pieces| - 1, i requires 0 <= i < |pieces| - 1 => ParseFilter(pieces[i + 1]))
  }

  function ParseSegments(texts: seq<string>): (r: Option<seq<Segment>>)
    ensures r.Some? ==> |r.value| == |texts|
    ensures r.Some? <==> forall i :: 0 <= i < |texts| ==> ParseSegment(texts[i]).Some?
    ensures r.Some? ==> forall i :: 0 <= i < |texts| ==> r.value[i] == ParseSegment(texts[i]).value
  {
    MapAll(texts, ParseSegment)
  }

  function ParseLine(line: string): Option<seq<Segment>>
  {
    var (texts, quants) := QuantSplit(line);
    ParseSegments(SegmentTexts(texts, quants))
  }

  /** `_buildQuery`: `None` when some line throws. */
  function ParseQuery(q: string): (r: Option<seq<seq<Segment>>>)
    ensures r.Some? ==> |r.value| == |SplitOn(q, '\n')|
  {
    ParseLines(SplitOn(q, '\n'))
  }

  function ParseLines(lines: seq<string>): (r: Option<seq<seq<Segment>>>)
    ensures r.Some? ==> |r.value| == |lines|
  {
    MapAll(lines, ParseLine)
  }
}

=== FILE: query_render.dfy ===
/**
 * Writing queries down: the text a user types for a given list of stages,
 * and the round trip "parsing the written query gives back the stages"
 * for queries whose names and arguments are plain words.
 */
module QueryRender {
  import opened Wrappers
  import opened JsValues
  import opened QueryParse

  /** A character with no role in the query syntax. */
  predicate Plain(c: char)
  {
    !IsSpace(c) && !IsQuantChar(c) && !IsOpChar(c) && c != '[' && c != ']'
  }

  predicate Word(s: string)
  {
    s != [] && forall i :: 0 <= i < |s| ==> Plain(s[i])
  }

  /** A filter that can be written down and read back. */
  predicate WellFormedFilter(f: Filter)
  {
    Word(f.field) && (f.op.None? <==> f.arg.None?) && (f.arg.Some? ==> Word(f.arg.value))
  }

  predicate WellFormedSegment(s: Segment)
  {
    Word(s.typ) && forall i :: 0 <= i < |s.filters| ==> WellFormedFilter(s.filters[i])
  }

  /** The last segment's quantifier is never written, so it must be the default `:`. */
  predicate WellFormedLine(segs: seq<Segment>)
  {
    |segs| >= 1 && segs[|segs| - 1].quant == AnyMatch &&
    forall i :: 0 <= i < |segs| ==> WellFormedSegment(segs[i])
  }

  function RenderFilter(f: Filter): string
    requires WellFormedFilter(f)
  {
    if f.op.Some? then f.field + OpText(f.op.value) + f.arg.value else f.field
  }

  function Brackets(rs: seq<string>): string
  {
    if rs == [] then "" else "[" + (rs[0] + ("]" + Brackets(rs[1..])))
  }

  function RenderedFilters(fs: seq<Filter>): (r: seq<string>)
    requires forall i :: 0 <= i < |fs| ==> WellFormedFilter(fs[i])
    ensures |r| == |fs| && forall i :: 0 <= i < |fs| ==> r[i] == RenderFilter(fs[i])
  {
    seq(|fs|, i requires 0 <= i < |fs| => RenderFilter(fs[i]))
  }

  /** `type[filter][filter]…` */
  function RenderBody(s: Segment): string
    requires WellFormedSegment(s)
  {
    s.typ + Brackets(RenderedFilters(s.filters))
  }

  /** The bodies of a line's segments, each but the last followed by its quantifier. */
  function RenderLine(segs: seq<Segment>): string
    requires forall i :: 0 <= i < |segs| ==> WellFormedSegment(segs[i])
  {
    if segs == [] then ""
    else if |segs| == 1 then RenderBody(segs[0])
    else RenderBody(segs[0]) + ([QuantChar(segs[0].quant)] + RenderLine(segs[1..]))
  }

  lemma FindFirstAfter(a: string, b: string, p: char -> bool)
    requires forall i :: 0 <= i < |a| ==> !p(a[i])
    requires b != [] && p(b[0])
    ensures FindFirst(a + b, p) == |a|
  {
    var s := a + b;
    assert forall i :: 0 <= i < |a| ==> s[i] == a[i];
    assert s[|a|] == b[0];
  }

  lemma FindFirstNone(s: string, p: char -> bool)
    requires forall i :: 0 <= i < |s| ==> !p(s[i])
    ensures FindFirst(s, p) == |s|
  {
  }

  /** Plain words and rendered filters contain no operator after the field. */
  lemma ParseRenderFilter(f: Filter)
    requires WellFormedFilter(f)
    ensures ParseFilter(RenderFilter(f)) == f
  {
    if f.op.Some? {
      ParseRenderComparison(f);
    } else {
      FindFirstNone(RenderFilter(f), IsOpChar);
    }
  }

  lemma ParseRenderComparison(f: Filter)
    requires WellFormedFilter(f) && f.op.Some?
    ensures ParseFilter(RenderFilter(f)) == f
  {
    var text := RenderFilter(f);
    var t := OpText(f.op.value);
    var arg := f.arg.value;
    var q := |f.field|;
    assert text == f.field + (t + arg);
    FindFirstAfter(f.field, t + arg, IsOpChar);
    assert text[q..] == t + arg;
    assert text[..q] == f.field;
    RenderedOpAt(f);
    var n := |t|;
    assert text[q + n..] == arg;
    assert TrimStart(arg) == arg;
    FindFirstNone(arg, IsOpChar);
    assert TrimEnd(f.field) == f.field;
  }

  lemma RenderedOpAt(f: Filter)
    requires WellFormedFilter(f) && f.op.Some?
    ensures var t := OpText(f.op.value); OpAt(t + f.arg.value) == (f.op.value, |t|)
  {
    assert f.arg.value[0] != '=';
  }

  /** Characters a rendered query is made of. */
  predicate SyntaxChar(c: char)
  {
    Plain(c) || IsOpChar(c) || IsQuantChar(c) || c == '[' || c == ']'
  }

  predicate Syntactic(s: string)
  {
    forall i :: 0 <= i < |s| ==> SyntaxChar(s[i])
  }

  lemma SyntacticSingleLine(s: string)
    requires Syntactic(s)
    ensures '\n' !in s
  {
    forall i | 0 <= i < |s|
      ensures s[i] != '\n'
    {
      assert SyntaxChar(s[i]);
    }
  }

  predicate NoQuant(s: string)
  {
    forall i :: 0 <= i < |s| ==> !IsQuantChar(s[i])
  }

  /** What a bracket pair may hold and still be read back unchanged. */
  predicate Piece(r: string)
  {
    r != [] && !IsSpace(r[0]) && !IsSpace(r[|r| - 1]) && '[' !in r && ']' !in r && NoQuant(r) && Syntactic(r)
  }

  lemma RenderFilterPiece(f: Filter)
    requires WellFormedFilter(f)
    ensures Piece(RenderFilter(f))
  {
    var r := RenderFilter(f);
    if f.op.Some? {
      var t := OpText(f.op.value);
      var a := f.arg.value;
      assert r == f.field + t + a;
      assert r[|r| - 1] == a[|a| - 1];
      assert forall i :: 0 <= i < |r| ==> Plain(r[i]) || IsOpChar(r[i]) by {
        forall i | 0 <= i < |r|
          ensures Plain(r[i]) || IsOpChar(r[i])
        {
          if i < |f.field| {
            assert r[i] == f.field[i];
          } else if i < |f.field| + |t| {
            assert r[i] == t[i - |f.field|];
            assert t == "!" || t == "~" || t == "=" || t == ">" || t == "<" || t == ">=" || t == "<=";
          } else {
            assert r[i] == a[i - |f.field| - |t|];
          }
        }
      }
    }
  }

  /** The pieces `BracketSplit` yields for `pre[r1][r2]…`. */
  function Alt(rs: seq<string>): seq<string>
  {
    if rs == [] then [] else [rs[0], ""] + Alt(rs[1..])
  }

  lemma Slices(pre: string, r: string, tail: string)
    ensures var s := pre + ("[" + (r + ("]" + tail)));
      && s[..|pre|] == pre
      && s[|pre| + 1..] == r + ("]" + tail)
      && s[|pre| + 1..|pre| + 1 + |r|] == r
      && s[|pre| + 1 + |r| + 1..] == tail
  {
    var s := pre + ("[" + (r + ("]" + tail)));
    assert s[|pre| + 1..] == r + ("]" + tail);
    assert s[|pre| + 1 + |r| + 1..] == tail;
  }

  /** The first bracket pair of `pre[r]tail` encloses `r`. */
  lemma NextBracketOf(pre: string, r: string, tail: string)
    requires '[' !in pre && ']' !in r
    ensures NextBracket(pre + ("[" + (r + ("]" + tail)))) == Some((pre, r, tail))
  {
    Slices(pre, r, tail);
    FindFirstLike(pre, "[" + (r + ("]" + tail)), '[');
    FindFirstLike(r, "]" + tail, ']');
  }

  /** One bracket pair: `pre[r]tail` splits into `pre`, `r` and the pieces of `tail`. */
  lemma BracketStep(pre: string, r: string, tail: string)
    requires '[' !in pre && (pre == [] || !IsSpace(pre[|pre| - 1]))
    requires Piece(r) && (tail == [] || tail[0] == '[')
    ensures BracketSplit(pre + ("[" + (r + ("]" + tail)))) == [pre, r] + BracketSplit(tail)
  {
    var s := pre + ("[" + (r + ("]" + tail)));
    NextBracketOf(pre, r, tail);
    assert BracketSplit(s) == [TrimEnd(pre), Trim(r)] + BracketSplit(TrimStart(tail));
    TrimKeeps(r);
    TrimEndKeeps(pre);
    TrimStartKeeps(tail);
  }

  /** Text without an opening bracket is a single piece. */
  lemma BracketSplitPlain(pre: string)
    requires '[' !in pre
    ensures BracketSplit(pre) == [pre]
  {
    assert IndexOf(pre, '[') == |pre|;
  }

  lemma BracketsShape(rs: seq<string>)
    ensures rs == [] ==> Brackets(rs) == []
    ensures rs != [] ==> Brackets(rs) == "[" + (rs[0] + ("]" + Brackets(rs[1..])))
    ensures Brackets(rs) == [] || Brackets(rs)[0] == '['
  {
  }

  lemma AltCons(pre: string, rs: seq<string>)
    requires rs != []
    ensures [pre] + Alt(rs) == [pre, rs[0]] + ([""] + Alt(rs[1..]))
  {
    var a := Alt(rs[1..]);
    assert Alt(rs) == [rs[0], ""] + a;
    assert [pre] + ([rs[0], ""] + a) == [pre, rs[0]] + ([""] + a);
  }

  lemma {:induction false} BracketSplitRender(pre: string, rs: seq<string>)
    requires '[' !in pre && (pre == [] || !IsSpace(pre[|pre| - 1]))
    requires forall i :: 0 <= i < |rs| ==> Piece(rs[i])
    ensures BracketSplit(pre + Brackets(rs)) == [pre] + Alt(rs)
    decreases |rs|
  {
    if rs == [] {
      assert pre + Brackets(rs) == pre;
      BracketSplitPlain(pre);
    } else {
      var rest := rs[1..];
      assert forall i :: 0 <= i < |rest| ==> rest[i] == rs[i + 1];
      BracketSplitRender("", rest);
      assert "" + Brackets(rest) == Brackets(rest);
      BracketSplitStep(pre, rs);
    }
  }

  lemma BracketSplitStep(pre: string, rs: seq<string>)
    requires '[' !in pre && (pre == [] || !IsSpace(pre[|pre| - 1]))
    requires rs != [] && Piece(rs[0])
    requires BracketSplit(Brackets(rs[1..])) == [""] + Alt(rs[1..])
    ensures BracketSplit(pre + Brackets(rs)) == [pre] + Alt(rs)
  {
    var tail := Brackets(rs[1..]);
    BracketsShape(rs);
    BracketsShape(rs[1..]);
    BracketStep(pre, rs[0], tail);
    AltCons(pre, rs);
  }

  /** `IndexOf(a + b, c)` is `|a|` when `c` is absent from `a` and starts `b`. */
  lemma FindFirstLike(a: string, b: string, c: char)
    requires c !in a && b != [] && b[0] == c
    ensures IndexOf(a + b, c) == |a|
  {
    var s := a + b;
    assert forall i :: 0 <= i < |a| ==> s[i] == a[i];
    assert s[|a|] == b[0];
  }

  lemma {:induction false} NonEmptyAlt(rs: seq<string>)
    requires forall i :: 0 <= i < |rs| ==> rs[i] != []
    ensures NonEmpty(Alt(rs)) == rs
    decreases |rs|
  {
    if rs != [] {
      var a := Alt(rs);
      assert a[1..] == [""] + Alt(rs[1..]);
      assert a[1..][1..] == Alt(rs[1..]);
      NonEmptyAlt(rs[1..]);
      assert rs == [rs[0]] + rs[1..];
    }
  }

  lemma {:induction false} BracketsChars(rs: seq<string>)
    requires forall i :: 0 <= i < |rs| ==> Piece(rs[i])
    ensures NoQuant(Brackets(rs)) && Syntactic(Brackets(rs))
    ensures Brackets(rs) == [] || Brackets(rs)[|Brackets(rs)| - 1] == ']'
    decreases |rs|
  {
    if rs != [] {
      forall i | 0 <= i < |rs[1..]|
        ensures Piece(rs[1..][i])
      {
        assert rs[1..][i] == rs[i + 1];
      }
      BracketsChars(rs[1..]);
      var r := rs[0];
      var tail := Brackets(rs[1..]);
      var b := Brackets(rs);
      assert b == "[" + (r + ("]" + tail));
      forall i | 0 <= i < |b|
        ensures !IsQuantChar(b[i]) && SyntaxChar(b[i])
      {
        if 1 <= i < 1 + |r| {
          assert b[i] == r[i - 1];
        } else if i >= 2 + |r| {
          assert b[i] == tail[i - 2 - |r|];
        }
      }
    }
  }

  lemma RenderBodyFacts(s: Segment)
    requires WellFormedSegment(s)
    ensures var b := RenderBody(s);
      && b != [] && b[0] == s.typ[0] && !IsSpace(b[|b| - 1])
      && NoQuant(b) && Syntactic(b)
  {
    var rs := RenderedFilters(s.filters);
    forall i | 0 <= i < |rs|
      ensures Piece(rs[i])
    {
      RenderFilterPiece(s.filters[i]);
    }
    BracketsChars(rs);
    var b := RenderBody(s);
    var br := Brackets(rs);
    assert b == s.typ + br;
    forall i | 0 <= i < |b|
      ensures !IsQuantChar(b[i]) && SyntaxChar(b[i])
    {
      if i < |s.typ| {
        assert b[i] == s.typ[i];
      } else {
        assert b[i] == br[i - |s.typ|];
      }
    }
    if br == [] {
      assert b == s.typ;
    } else {
      assert b[|b| - 1] == br[|br| - 1];
    }
  }

  lemma DropQuantCharsKeeps(w: string)
    requires NoQuant(w)
    ensures DropQuantChars(w) == w
  {
    if w != [] {
      DropQuantCharsKeeps(w[1..]);
    }
  }

  /** A quantifier prefix. */
  predicate QuantPrefix(prefix: string)
  {
    prefix == [] || (|prefix| == 1 && IsQuantChar(prefix[0]))
  }

  function PrefixQuant(prefix: string): Quantifier
  {
    if prefix == [] then AnyMatch else QuantOf(prefix[0])
  }

  lemma FiltersArePieces(s: Segment)
    requires WellFormedSegment(s)
    ensures forall i :: 0 <= i < |RenderedFilters(s.filters)| ==> Piece(RenderedFilters(s.filters)[i])
  {
    var rs := RenderedFilters(s.filters);
    forall i | 0 <= i < |rs|
      ensures Piece(rs[i])
    {
      RenderFilterPiece(s.filters[i]);
    }
  }

  lemma NonEmptyCons(p: string, rest: seq<string>)
    requires p != []
    ensures NonEmpty([p] + rest) == [p] + NonEmpty(rest)
  {
    assert ([p] + rest)[1..] == rest;
  }

  lemma HeadOfSegment(s: Segment, prefix: string)
    requires WellFormedSegment(s) && QuantPrefix(prefix)
    ensures var pre := prefix + s.typ;
      '[' !in pre && !IsSpace(pre[|pre| - 1])
  {
    var pre := prefix + s.typ;
    assert pre[|pre| - 1] == s.typ[|s.typ| - 1];
    forall i | 0 <= i < |pre|
      ensures pre[i] != '['
    {
      if i >= |prefix| {
        assert pre[i] == s.typ[i - |prefix|];
      }
    }
  }

  /** The non-empty pieces of a written segment: its head, then its filters. */
  lemma SegmentPieces(s: Segment, prefix: string)
    requires WellFormedSegment(s) && QuantPrefix(prefix)
    ensures NonEmpty(BracketSplit(prefix + RenderBody(s))) == [prefix + s.typ] + RenderedFilters(s.filters)
  {
    var rs := RenderedFilters(s.filters);
    var pre := prefix + s.typ;
    BodyWithPrefix(s, prefix);
    FiltersArePieces(s);
    HeadOfSegment(s, prefix);
    PiecesOf(pre, rs);
  }

  lemma BodyWithPrefix(s: Segment, prefix: string)
    requires WellFormedSegment(s)
    ensures prefix + RenderBody(s) == (prefix + s.typ) + Brackets(RenderedFilters(s.filters))
  {
  }

  lemma PiecesOf(pre: string, rs: seq<string>)
    requires pre != [] && '[' !in pre && !IsSpace(pre[|pre| - 1])
    requires forall i :: 0 <= i < |rs| ==> Piece(rs[i])
    ensures NonEmpty(BracketSplit(pre + Brackets(rs))) == [pre] + rs
  {
    BracketSplitRender(pre, rs);
    NonEmptyCons(pre, Alt(rs));
    NonEmptyAlt(rs);
  }

  lemma SegmentQuantOf(s: Segment, prefix: string)
    requires WellFormedSegment(s) && QuantPrefix(prefix)
    ensures SegmentQuantifier(prefix + RenderBody(s)) == PrefixQuant(prefix)
  {
    var text := prefix + RenderBody(s);
    if prefix != [] {
      assert text[0] == prefix[0];
      assert FindFirst(text, IsQuantChar) == 0;
    } else {
      RenderBodyFacts(s);
      assert text == RenderBody(s);
      FindFirstNone(text, IsQuantChar);
    }
  }

  lemma SegmentType(s: Segment, prefix: string)
    requires WellFormedSegment(s) && QuantPrefix(prefix)
    ensures DropQuantChars(prefix + s.typ) == s.typ
  {
    assert NoQuant(s.typ);
    DropQuantCharsKeeps(s.typ);
    if prefix != [] {
      assert (prefix + s.typ)[1..] == s.typ;
    } else {
      assert prefix + s.typ == s.typ;
    }
  }

  lemma ParseSegmentUnfold(text: string, pieces: seq<string>)
    requires NonEmpty(BracketSplit(text)) == pieces && pieces != []
    ensures ParseSegment(text) == Some(Segment(DropQuantChars(pieces[0]), SegmentQuantifier(text), ParsedFilters(pieces)))
  {
  }

  lemma ParseRenderedFilters(head: string, s: Segment)
    requires WellFormedSegment(s)
    ensures ParsedFilters([head] + RenderedFilters(s.filters)) == s.filters
  {
    var rs := RenderedFilters(s.filters);
    forall i | 0 <= i < |rs|
      ensures ParseFilter(rs[i]) == s.filters[i]
    {
      ParseRenderFilter(s.filters[i]);
    }
    var pieces := [head] + rs;
    assert forall i :: 0 <= i < |rs| ==> pieces[i + 1] == rs[i];
  }

  /** A segment body, with or without a quantifier character in front, parses back. */
  lemma ParseRenderSegment(s: Segment, prefix: string)
    requires WellFormedSegment(s) && QuantPrefix(prefix)
    ensures ParseSegment(prefix + RenderBody(s)) == Some(Segment(s.typ, PrefixQuant(prefix), s.filters))
  {
    var text := prefix + RenderBody(s);
    var pieces := [prefix + s.typ] + RenderedFilters(s.filters);
    SegmentPieces(s, prefix);
    ParseSegmentUnfold(text, pieces);
    SegmentQuantOf(s, prefix);
    SegmentType(s, prefix);
    ParseRenderedFilters(prefix + s.typ, s);
  }

  function Bodies(segs: seq<Segment>): (r: seq<string>)
    requires forall i :: 0 <= i < |segs| ==> WellFormedSegment(segs[i])
    ensures |r| == |segs| && forall i :: 0 <= i < |segs| ==> r[i] == RenderBody(segs[i])
  {
    seq(|segs|, i requires 0 <= i < |segs| => RenderBody(segs[i]))
  }

  /** The quantifier characters written after every segment but the last. */
  function QuantChars(segs: seq<Segment>): (r: seq<char>)
    requires segs != []
    ensures |r| == |segs| - 1 && forall i :: 0 <= i < |r| ==> r[i] == QuantChar(segs[i].quant)
  {
    seq(|segs| - 1, i requires 0 <= i < |segs| - 1 => QuantChar(segs[i].quant))
  }

  lemma QuantSplitUnfold(line: string, q: nat)
    requires q == FindFirst(line, IsQuantChar) < |line|
    ensures QuantSplit(line) == ([TrimEnd(line[..q])] + QuantSplit(TrimStart(line[q + 1..])).0,
                                 [line[q]] + QuantSplit(TrimStart(line[q + 1..])).1)
  {
  }

  lemma RenderLineFacts(segs: seq<Segment>)
    requires segs != [] && forall i :: 0 <= i < |segs| ==> WellFormedSegment(segs[i])
    ensures var l := RenderLine(segs); l != [] && l[0] == segs[0].typ[0]
  {
    RenderBodyFacts(segs[0]);
  }

  /** The line splits at the quantifiers written between the segment bodies. */
  lemma LineSplitStep(segs: seq<Segment>)
    requires |segs| >= 2 && forall i :: 0 <= i < |segs| ==> WellFormedSegment(segs[i])
    ensures var line := RenderLine(segs);
      QuantSplit(line) == ([RenderBody(segs[0])] + QuantSplit(RenderLine(segs[1..])).0,
                           [QuantChar(segs[0].quant)] + QuantSplit(RenderLine(segs[1..])).1)
  {
    var b := RenderBody(segs[0]);
    var rest := RenderLine(segs[1..]);
    assert RenderLine(segs) == b + ([QuantChar(segs[0].quant)] + rest);
    RenderBodyFacts(segs[0]);
    RenderLineFacts(segs[1..]);
    SplitAtQuant(b, QuantChar(segs[0].quant), rest);
  }

  /** A body free of quantifiers and trailing space, then a quantifier, splits there. */
  lemma SplitAtQuant(b: string, c: char, rest: string)
    requires NoQuant(b) && (b == [] || !IsSpace(b[|b| - 1])) && IsQuantChar(c)
    requires rest == [] || !IsSpace(rest[0])
    ensures QuantSplit(b + ([c] + rest)) == ([b] + QuantSplit(rest).0, [c] + QuantSplit(rest).1)
  {
    var tail := [c] + rest;
    var line := b + tail;
    FindFirstAfter(b, tail, IsQuantChar);
    assert line[..|b|] == b;
    assert line[|b|] == c;
    assert line[|b| + 1..] == rest;
    QuantSplitUnfold(line, |b|);
    TrimEndKeeps(b);
    TrimStartKeeps(rest);
  }

  lemma QuantSplitSingle(seg: Segment)
    requires WellFormedSegment(seg)
    ensures QuantSplit(RenderLine([seg])) == ([RenderBody(seg)], [])
  {
    RenderBodyFacts(seg);
    assert RenderLine([seg]) == RenderBody(seg);
    FindFirstNone(RenderBody(seg), IsQuantChar);
  }

  lemma BodiesCons(segs: seq<Segment>)
    requires |segs| >= 2 && forall i :: 0 <= i < |segs| ==> WellFormedSegment(segs[i])
    ensures Bodies(segs) == [RenderBody(segs[0])] + Bodies(segs[1..])
    ensures QuantChars(segs) == [QuantChar(segs[0].quant)] + QuantChars(segs[1..])
  {
    var bs, bt := Bodies(segs), Bodies(segs[1..]);
    forall i | 1 <= i < |segs|
      ensures bs[i] == bt[i - 1]
    {
      assert segs[1..][i - 1] == segs[i];
    }
    assert bs == [RenderBody(segs[0])] + bt;
    QuantCharsCons(segs);
  }

  lemma QuantCharsCons(segs: seq<Segment>)
    requires |segs| >= 2
    ensures QuantChars(segs) == [QuantChar(segs[0].quant)] + QuantChars(segs[1..])
  {
    var qs, qt := QuantChars(segs), QuantChars(segs[1..]);
    forall i | 1 <= i < |qs|
      ensures qs[i] == qt[i - 1]
    {
      assert segs[1..][i - 1] == segs[i];
    }
    assert qs == [QuantChar(segs[0].quant)] + qt;
  }

  lemma {:induction false} QuantSplitRender(segs: seq<Segment>)
    requires segs != [] && forall i :: 0 <= i < |segs| ==> WellFormedSegment(segs[i])
    ensures QuantSplit(RenderLine(segs)) == (Bodies(segs), QuantChars(segs))
    decreases |segs|
  {
    if |segs| == 1 {
      QuantSplitSingle(segs[0]);
      assert segs == [segs[0]];
      assert Bodies(segs) == [RenderBody(segs[0])];
      assert QuantChars(segs) == [];
    } else {
      LineSplitStep(segs);
      QuantSplitRender(segs[1..]);
      BodiesCons(segs);
    }
  }

  /** Each segment text of a written line parses to its segment. */
  lemma SegmentTextsParse(segs: seq<Segment>)
    requires WellFormedLine(segs)
    ensures var texts := SegmentTexts(Bodies(segs), QuantChars(segs));
      forall i :: 0 <= i < |segs| ==> ParseSegment(texts[i]) == Some(segs[i])
  {
    var texts := SegmentTexts(Bodies(segs), QuantChars(segs));
    forall i | 0 <= i < |segs|
      ensures ParseSegment(texts[i]) == Some(segs[i])
    {
      if i < |segs| - 1 {
        var q := QuantChar(segs[i].quant);
        assert texts[i] == [q] + RenderBody(segs[i]);
        ParseRenderSegment(segs[i], [q]);
      } else {
        assert texts[i] == [] + RenderBody(segs[i]);
        ParseRenderSegment(segs[i], []);
      }
    }
  }

  /** A written line parses back into its segments. */
  lemma ParseRenderLine(segs: seq<Segment>)
    requires WellFormedLine(segs)
    ensures ParseLine(RenderLine(segs)) == Some(segs)
  {
    QuantSplitRender(segs);
    var texts := SegmentTexts(Bodies(segs), QuantChars(segs));
    assert ParseLine(RenderLine(segs)) == ParseSegments(texts);
    SegmentTextsParse(segs);
    ParseSegmentsEach(texts, segs);
  }

  lemma ParseSegmentsEach(texts: seq<string>, segs: seq<Segment>)
    requires |texts| == |segs|
    requires forall i :: 0 <= i < |texts| ==> ParseSegment(texts[i]) == Some(segs[i])
    ensures ParseSegments(texts) == Some(segs)
  {
    var r := ParseSegments(texts);
    assert r.Some?;
    assert r.value == segs;
  }

  lemma {:induction false} RenderLineSyntactic(segs: seq<Segment>)
    requires forall i :: 0 <= i < |segs| ==> WellFormedSegment(segs[i])
    ensures Syntactic(RenderLine(segs))
    decreases |segs|
  {
    if segs != [] {
      RenderBodyFacts(segs[0]);
      if |segs| > 1 {
        RenderLineSyntactic(segs[1..]);
        var b := RenderBody(segs[0]);
        var rest := RenderLine(segs[1..]);
        var l := RenderLine(segs);
        assert l == b + ([QuantChar(segs[0].quant)] + rest);
        forall i | 0 <= i < |l|
          ensures SyntaxChar(l[i])
        {
          if i < |b| {
            assert l[i] == b[i];
          } else if i > |b| {
            assert l[i] == rest[i - |b| - 1];
          }
        }
      }
    }
  }

  /** The text of every line. */
  function RenderedLines(lines: seq<seq<Segment>>): (r: seq<string>)
    requires forall i :: 0 <= i < |lines| ==> WellFormedLine(lines[i])
    ensures |r| == |lines|
  {
    seq(|lines|, i requires 0 <= i < |lines| => assert WellFormedLine(lines[i]); RenderLine(lines[i]))
  }

  /** A query: its lines joined by newlines. */
  function RenderQuery(lines: seq<seq<Segment>>): string
    requires forall i :: 0 <= i < |lines| ==> WellFormedLine(lines[i])
  {
    JoinOn(RenderedLines(lines), '\n')
  }

  lemma ParseLinesEach(texts: seq<string>, lines: seq<seq<Segment>>)
    requires |texts| == |lines|
    requires forall i :: 0 <= i < |texts| ==> ParseLine(texts[i]) == Some(lines[i])
    ensures ParseLines(texts) == Some(lines)
  {
    var r := MapAll(texts, ParseLine);
    assert r.Some?;
    assert r.value == lines;
  }

  /** A written query parses back into its lines. */
  lemma ParseRenderQuery(lines: seq<seq<Segment>>)
    requires lines != [] && forall i :: 0 <= i < |lines| ==> WellFormedLine(lines[i])
    ensures ParseQuery(RenderQuery(lines)) == Some(lines)
  {
    var texts := RenderedLines(lines);
    forall i | 0 <= i < |texts|
      ensures '\n' !in texts[i] && ParseLine(texts[i]) == Some(lines[i])
    {
      assert WellFormedLine(lines[i]);
      assert texts[i] == RenderLine(lines[i]);
      RenderLineSyntactic(lines[i]);
      SyntacticSingleLine(texts[i]);
      ParseRenderLine(lines[i]);
    }
    SplitJoin(texts, '\n');
    ParseLinesEach(texts, lines);
  }
}

=== FILE: read_tasks.dfy ===
/**
 * What a read cycle does with the records it fetches before storing them
 * (`generateOrderTasks`, `generateInventoryTasks`): orders get their
 * customer replaced by its id and their fulfillments by the fulfillment
 * ids, the fulfillments are stored on their own with their tracking
 * events attached, and inventory is read for the variants of the products
 * the previous cycle returned. A throw anywhere is `None`: the task's
 * promise rejects.
 */
module ReadTasks {
  import opened Wrappers
  import opened JsValues
  import opened Combinators
  import opened Time
  import opened Shopify

  const GidKey: string := "admin_graphql_api_id"

  /**
   * `events.filter(ev => ev.subject_type === typ).map(ev => ev.subject_id)`;
   * reading a property of a `null` event throws.
   */
  function SubjectIds(events: seq<Value>, typ: string): (r: Option<seq<Value>>)
    ensures r.Some? <==> forall i :: 0 <= i < |events| ==> !events[i].Undef? && !events[i].Null?
    ensures r.Some? ==> forall x :: x in r.value <==>
              exists i :: 0 <= i < |events| && Field(events[i], "subject_type") == Str(typ) && Field(events[i], "subject_id") == x
    // in event order, one id per matching event, repeats kept
    ensures r.Some? ==> r.value == Flatten(SubjectIdLists(events, typ))
  {
    if events == [] then Some([])
    else
      var ev := events[0];
      assert forall i :: 1 <= i < |events| ==> events[i] == events[1..][i - 1];
      match SubjectIds(events[1..], typ)
      case None => None
      case Some(rest) =>
        if ev.Undef? || ev.Null? then None
        else
          var ids := (if Field(ev, "subject_type") == Str(typ) then [Field(ev, "subject_id")] else []) + rest;
          SubjectIdListsCons(events, typ);
          SubjectIdsMembers(events, typ, ids);
          Some(ids)
  }

  /** The ids listed per event are exactly the `subject_id`s of the events of type `typ`. */
  lemma SubjectIdsMembers(events: seq<Value>, typ: string, ids: seq<Value>)
    requires ids == Flatten(SubjectIdLists(events, typ))
    ensures forall x :: x in ids <==>
              exists i :: 0 <= i < |events| && Field(events[i], "subject_type") == Str(typ) && Field(events[i], "subject_id") == x
  {
    forall x
      ensures x in ids <==>
        exists i :: 0 <= i < |events| && Field(events[i], "subject_type") == Str(typ) && Field(events[i], "subject_id") == x
    {
      InFlatten(SubjectIdLists(events, typ), x);
    }
  }

  lemma SubjectIdListsCons(events: seq<Value>, typ: string)
    requires events != []
    ensures Flatten(SubjectIdLists(events, typ)) == SubjectIdLists(events, typ)[0] + Flatten(SubjectIdLists(events[1..], typ))
  {
    assert SubjectIdLists(events, typ)[1..] == SubjectIdLists(events[1..], typ);
    FlattenCons(SubjectIdLists(events, typ));
  }

  /** Per event, its `subject_id` when its `subject_type` is `typ`, and nothing otherwise. */
  function SubjectIdLists(events: seq<Value>, typ: string): (r: seq<seq<Value>>)
    ensures |r| == |events|
    ensures forall i :: 0 <= i < |events| ==>
              r[i] == if Field(events[i], "subject_type") == Str(typ) then [Field(events[i], "subject_id")] else []
  {
    seq(|events|, i requires 0 <= i < |events| =>
      if Field(events[i], "subject_type") == Str(typ) then [Field(events[i], "subject_id")] else [])
  }

  /** `o.customer?.id || null`. */
  function CustomerRef(c: Value): (r: Value)
    ensures r == Null || (c.Obj? && Truthy(r) && r == Field(c, "id"))
    ensures c.Obj? && Truthy(Field(c, "id")) ==> r == Field(c, "id")
  {
    var id := if c.Undef? || c.Null? then Undef else Field(c, "id");
    if Truthy(id) then id else Null
  }

  /** `fulfillments.map(f => f.id)` on the copied list; a `null` entry throws. */
  function FulfillmentIds(fs: seq<Value>): (r: Option<seq<Value>>)
    ensures r.Some? <==> forall i :: 0 <= i < |fs| ==> !fs[i].Undef? && !fs[i].Null?
    ensures r.Some? ==> |r.value| == |fs| && forall i :: 0 <= i < |fs| ==> r.value[i] == Field(fs[i], "id")
  {
    if fs == [] then Some([])
    else
      assert forall i :: 1 <= i < |fs| ==> fs[i] == fs[1..][i - 1];
      match FulfillmentIds(fs[1..])
      case None => None
      case Some(rest) => if fs[0].Undef? || fs[0].Null? then None else Some([Field(fs[0], "id")] + rest)
  }

  /**
   * One order: its customer becomes the customer's id (or `null`), its
   * fulfillments become their ids, and the fulfillments themselves are
   * handed back. Setting a property of a primitive throws, and so does
   * mapping over anything but an array.
   */
  function NormaliseOrder(o: Value): (r: Option<(Value, seq<Value>)>)
    ensures r.Some? <==> o.Obj? && Field(o, "fulfillments").Arr? && FulfillmentIds(Field(o, "fulfillments").items).Some?
    ensures r.Some? ==> var (o', fs) := r.value;
      && o'.Obj?
      && fs == Field(o, "fulfillments").items
      && Field(o', "customer") == CustomerRef(Field(o, "customer"))
      && Field(o', "fulfillments") == Arr(FulfillmentIds(fs).value)
      && forall k :: k != "customer" && k != "fulfillments" ==> Field(o', k) == Field(o, k)
  {
    if !o.Obj? then None
    else
      var fs := Field(o, "fulfillments");
      if !fs.Arr? then None
      else
        match FulfillmentIds(fs.items)
        case None => None
        case Some(ids) =>
          Some((Obj(o.fields["customer" := CustomerRef(Field(o, "customer"))]["fulfillments" := Arr(ids)]), fs.items))
  }

  /** The fulfillments an order carries before normalisation. */
  function OwnFulfillments(o: Value): seq<Value>
  {
    var f := Field(o, "fulfillments");
    if f.Arr? then f.items else []
  }

  /** Each order's own fulfillments, order by order. */
  function FulfillmentLists(os: seq<Value>): (r: seq<seq<Value>>)
    ensures |r| == |os| && forall i :: 0 <= i < |os| ==> r[i] == OwnFulfillments(os[i])
  {
    seq(|os|, i requires 0 <= i < |os| => OwnFulfillments(os[i]))
  }

  /** Every order normalised, and all their fulfillments, order by order. */
  function NormaliseOrders(os: seq<Value>): (r: Option<(seq<Value>, seq<Value>)>)
    ensures r.Some? <==> forall i :: 0 <= i < |os| ==> NormaliseOrder(os[i]).Some?
    ensures r.Some? ==> |r.value.0| == |os| && forall i :: 0 <= i < |os| ==> r.value.0[i] == NormaliseOrder(os[i]).value.0
  {
    if os == [] then Some(([], []))
    else
      assert forall i :: 1 <= i < |os| ==> os[i] == os[1..][i - 1];
      match (NormaliseOrder(os[0]), NormaliseOrders(os[1..]))
      case (Some((o, fs)), Some((rest, restFs))) => Some(([o] + rest, fs + restFs))
      case _ => None
  }

  /** The fulfillments handed back are those of every order, order after order. */
  lemma {:induction false} NormaliseOrdersFulfillments(os: seq<Value>)
    requires NormaliseOrders(os).Some?
    ensures NormaliseOrders(os).value.1 == Flatten(FulfillmentLists(os))
    decreases |os|
  {
    if os != [] {
      var all, tail := FulfillmentLists(os), os[1..];
      NormaliseOrdersStep(os);
      NormaliseOrdersFulfillments(tail);
      assert all[1..] == FulfillmentLists(tail);
      FlattenCons(all);
    }
  }

  lemma NormaliseOrdersStep(os: seq<Value>)
    requires os != [] && NormaliseOrders(os).Some?
    ensures NormaliseOrders(os[1..]).Some?
    ensures NormaliseOrders(os).value.1 == OwnFulfillments(os[0]) + NormaliseOrders(os[1..]).value.1
  {
    assert NormaliseOrder(os[0]).Some?;
  }

  lemma FlattenCons<T>(ss: seq<seq<T>>)
    requires ss != []
    ensures Flatten(ss) == ss[0] + Flatten(ss[1..])
  {
    assert ss == [ss[0]] + ss[1..];
    FlattenAppend([ss[0]], ss[1..]);
    FlattenSingle(ss[0]);
  }

  /** The ids an order keeps in its `fulfillments` property. */
  function StoredIds(o: Value): seq<Value>
  {
    var f := Field(o, "fulfillments");
    if f.Arr? then f.items else []
  }

  /** `vs.map(v => v[key])`: one property read off each value, in order. */
  function Pluck(vs: seq<Value>, key: string): (r: seq<Value>)
    ensures |r| == |vs| && forall i :: 0 <= i < |vs| ==> r[i] == Field(vs[i], key)
  {
    seq(|vs|, i requires 0 <= i < |vs| => Field(vs[i], key))
  }

  /** `fs.map(f => f.id)`. */
  function Ids(fs: seq<Value>): seq<Value>
  {
    Pluck(fs, "id")
  }

  /**
   * Normalised orders point at the fulfillments stored beside them: the
   * ids the orders keep, order after order, are the ids of the
   * fulfillments handed back, in the same order.
   */
  lemma {:induction false} OrdersReferenceTheirFulfillments(os: seq<Value>)
    requires NormaliseOrders(os).Some?
    ensures var (os', fs) := NormaliseOrders(os).value;
      Flatten(seq(|os'|, i requires 0 <= i < |os'| => StoredIds(os'[i]))) == Ids(fs)
    decreases |os|
  {
    if os != [] {
      var (os', fs) := NormaliseOrders(os).value;
      var (o, f0) := NormaliseOrder(os[0]).value;
      var (rest, restFs) := NormaliseOrders(os[1..]).value;
      NormaliseOrdersCons(os);
      OrdersReferenceTheirFulfillments(os[1..]);
      StoredIdsOfOrder(os[0]);
      IdsAppend(f0, restFs);
      StoredIdsCons(o, rest);
    }
  }

  lemma NormaliseOrdersCons(os: seq<Value>)
    requires os != [] && NormaliseOrders(os).Some?
    ensures NormaliseOrder(os[0]).Some? && NormaliseOrders(os[1..]).Some?
    ensures NormaliseOrders(os).value.0 == [NormaliseOrder(os[0]).value.0] + NormaliseOrders(os[1..]).value.0
    ensures NormaliseOrders(os).value.1 == NormaliseOrder(os[0]).value.1 + NormaliseOrders(os[1..]).value.1
  {
  }

  lemma StoredIdsOfOrder(o: Value)
    requires NormaliseOrder(o).Some?
    ensures StoredIds(NormaliseOrder(o).value.0) == Ids(NormaliseOrder(o).value.1)
  {
  }

  lemma StoredIdsCons(o: Value, rest: seq<Value>)
    ensures var os := [o] + rest;
      Flatten(seq(|os|, i requires 0 <= i < |os| => StoredIds(os[i])))
        == StoredIds(o) + Flatten(seq(|rest|, i requires 0 <= i < |rest| => StoredIds(rest[i])))
  {
    var os := [o] + rest;
    var all := seq(|os|, i requires 0 <= i < |os| => StoredIds(os[i]));
    assert all[1..] == seq(|rest|, i requires 0 <= i < |rest| => StoredIds(rest[i]));
    FlattenCons(all);
  }

  lemma IdsAppend(a: seq<Value>, b: seq<Value>)
    ensures Ids(a + b) == Ids(a) + Ids(b)
  {
  }

  // ---------------------------------------------------------------------
  // Fulfillment events

  function Gid(f: Value): Value
  {
    Field(f, GidKey)
  }

  /** A fulfillment whose tracking events are asked for: it has a gid and a shipment status. */
  predicate Queried(f: Value)
  {
    Truthy(Gid(f)) && Truthy(Field(f, "shipment_status"))
  }

  /** The gids asked about, in order. */
  function QueriedGids(fs: seq<Value>): (r: seq<Value>)
    ensures forall i :: 0 <= i < |fs| && Queried(fs[i]) ==> Gid(fs[i]) in r
    ensures forall x :: x in r ==> exists i :: 0 <= i < |fs| && Queried(fs[i]) && Gid(fs[i]) == x
  {
    if fs == [] then []
    else
      assert forall i :: 1 <= i < |fs| ==> fs[i] == fs[1..][i - 1];
      (if Queried(fs[0]) then [Gid(fs[0])] else []) + QueriedGids(fs[1..])
  }

  /** `f.events = events`. */
  function WithEvents(f: Value, events: seq<Value>): (r: Value)
    requires f.Obj?
    ensures r.Obj? && Field(r, "events") == Arr(events)
    ensures forall k :: k != "events" ==> Field(r, k) == Field(f, k)
  {
    Obj(f.fields["events" := Arr(events)])
  }

  /** The first fulfillment carrying gid `g`; `|fs|` when none does. */
  function FirstWithGid(fs: seq<Value>, g: Value): (j: nat)
    ensures j <= |fs|
    ensures j < |fs| ==> Gid(fs[j]) == g
    ensures forall i :: 0 <= i < j ==> Gid(fs[i]) != g
  {
    if fs == [] then 0
    else if Gid(fs[0]) == g then 0
    else 1 + FirstWithGid(fs[1..], g)
  }

  /**
   * `fulfillmentData.find(…).events = f.events`: the first fulfillment
   * with the node's gid gets the node's events; when there is none (or
   * it is a primitive), the assignment throws.
   */
  function AttachNode(fs: seq<Value>, n: Node): (r: Option<seq<Value>>)
    ensures r.Some? <==> FirstWithGid(fs, n.gid) < |fs| && fs[FirstWithGid(fs, n.gid)].Obj?
    ensures r.Some? ==> Ids(r.value) == Ids(fs)
  {
    var j := FirstWithGid(fs, n.gid);
    if j == |fs| || !fs[j].Obj? then None
    else
      var r := fs[j := WithEvents(fs[j], n.events)];
      assert forall i :: 0 <= i < |fs| ==> Field(r[i], "id") == Field(fs[i], "id");
      Some(r)
  }

  function AttachNodes(fs: seq<Value>, ns: seq<Node>): (r: Option<seq<Value>>)
    ensures r.Some? ==> Ids(r.value) == Ids(fs)
    decreases |ns|
  {
    if ns == [] then Some(fs)
    else
      match AttachNode(fs, ns[0])
      case None => None
      case Some(fs1) => AttachNodes(fs1, ns[1..])
  }

  /** The batches of 250 gids, one query each, in order. */
  function AttachBatches(fs: seq<Value>, bs: seq<seq<Value>>, reply: seq<Value> -> EventsReply): (r: Option<seq<Value>>)
    ensures r.Some? ==> Ids(r.value) == Ids(fs)
    decreases |bs|
  {
    if bs == [] then Some(fs)
    else
      match FulfillmentEvents(bs[0], reply(bs[0]))
      case None => None
      case Some(ns) =>
        match AttachNodes(fs, ns)
        case None => None
        case Some(fs1) => AttachBatches(fs1, bs[1..], reply)
  }

  /** Tracking events for the cycle's own fulfillments; `reply(gids)` answers the query for a batch. */
  function AttachEvents(fs: seq<Value>, reply: seq<Value> -> EventsReply): (r: Option<seq<Value>>)
    ensures r.Some? ==> Ids(r.value) == Ids(fs)
  {
    AttachBatches(fs, Chunk(QueriedGids(fs), 250), reply)
  }

  /** Every node the replies give, batch after batch; `None` when some reply cannot be read. */
  function AllNodes(bs: seq<seq<Value>>, reply: seq<Value> -> EventsReply): (r: Option<seq<Node>>)
    ensures r.None? <==> exists k :: 0 <= k < |bs| && reply(bs[k]).EventsMalformed?
    decreases |bs|
  {
    if bs == [] then Some([])
    else
      assert forall k :: 1 <= k < |bs| ==> bs[k] == bs[1..][k - 1];
      match (FulfillmentEvents(bs[0], reply(bs[0])), AllNodes(bs[1..], reply))
      case (Some(ns), Some(rest)) => Some(ns + rest)
      case _ => None
  }

  /** The events of the last node with gid `g`: the one whose assignment stands. */
  function LastEvents(ns: seq<Node>, g: Value): (r: Option<seq<Value>>)
    ensures r.None? <==> forall k :: 0 <= k < |ns| ==> ns[k].gid != g
    ensures r.Some? ==> exists k :: 0 <= k < |ns| && ns[k].gid == g && ns[k].events == r.value
                          && forall m :: k < m < |ns| ==> ns[m].gid != g
    decreases |ns|
  {
    if ns == [] then None
    else
      var r := LastEvents(ns[1..], g);
      assert forall k :: 1 <= k < |ns| ==> ns[k] == ns[1..][k - 1];
      if r.Some? then
        var k :| 0 <= k < |ns[1..]| && ns[1..][k].gid == g && ns[1..][k].events == r.value
                 && forall m :: k < m < |ns[1..]| ==> ns[1..][m].gid != g;
        assert forall m :: k + 1 < m < |ns| ==> ns[m].gid != g;
        r
      else if ns[0].gid == g then Some(ns[0].events)
      else None
  }

  /** What a fulfillment looks like once the nodes have been attached. */
  function Delivered(f: Value, ns: seq<Node>): Value
    requires f.Obj?
  {
    match LastEvents(ns, Gid(f))
    case None => f
    case Some(e) => WithEvents(f, e)
  }

  /** Attaching events twice leaves the later ones. */
  lemma WithEventsTwice(f: Value, a: seq<Value>, b: seq<Value>)
    requires f.Obj?
    ensures WithEvents(WithEvents(f, a), b) == WithEvents(f, b)
  {
    assert f.fields["events" := Arr(a)]["events" := Arr(b)] == f.fields["events" := Arr(b)];
  }

  /** The first fulfillment with a gid depends on the gids alone. */
  lemma FirstWithGidSame(fs: seq<Value>, fs1: seq<Value>, g: Value)
    requires |fs1| == |fs|
    requires forall i :: 0 <= i < |fs| ==> Gid(fs1[i]) == Gid(fs[i])
    ensures FirstWithGid(fs1, g) == FirstWithGid(fs, g)
  {
    if fs != [] && Gid(fs[0]) != g {
      FirstWithGidSame(fs[1..], fs1[1..], g);
    }
  }

  /** With distinct gids, a fulfillment with a truthy gid is the first to carry it. */
  lemma DistinctFirst(fs: seq<Value>, i: int)
    requires DistinctGids(fs) && 0 <= i < |fs| && Truthy(Gid(fs[i]))
    ensures FirstWithGid(fs, Gid(fs[i])) == i
  {
  }

  /** One attached node keeps the fulfillments objects with the same gids and distinct gids. */
  lemma AttachNodeKeepsShape(fs: seq<Value>, n: Node)
    requires forall i :: 0 <= i < |fs| ==> fs[i].Obj?
    requires AttachNode(fs, n).Some?
    ensures var fs1 := AttachNode(fs, n).value;
      && |fs1| == |fs|
      && (forall i :: 0 <= i < |fs| ==> fs1[i].Obj? && Gid(fs1[i]) == Gid(fs[i]))
      && (DistinctGids(fs) ==> DistinctGids(fs1))
  {
    var fs1 := AttachNode(fs, n).value;
    assert forall i :: 0 <= i < |fs| ==> fs1[i].Obj? && Gid(fs1[i]) == Gid(fs[i]);
  }

  /** One node attached, then the rest: what the first node leaves for fulfillment `i`. */
  lemma DeliveredStep(fs: seq<Value>, ns: seq<Node>, i: int)
    requires forall k :: 0 <= k < |fs| ==> fs[k].Obj?
    requires ns != [] && AttachNode(fs, ns[0]).Some? && 0 <= i < |fs|
    ensures var fs1 := AttachNode(fs, ns[0]).value;
      fs1[i].Obj? && Gid(fs1[i]) == Gid(fs[i])
      && (if FirstWithGid(fs1, Gid(fs1[i])) == i then Delivered(fs1[i], ns[1..]) else fs1[i])
         == (if FirstWithGid(fs, Gid(fs[i])) == i then Delivered(fs[i], ns) else fs[i])
  {
    var n := ns[0];
    var fs1 := AttachNode(fs, n).value;
    var j := FirstWithGid(fs, n.gid);
    var g := Gid(fs[i]);
    AttachNodeKeepsShape(fs, n);
    FirstWithGidSame(fs, fs1, g);
    assert forall k :: 1 <= k < |ns| ==> ns[k] == ns[1..][k - 1];
    if FirstWithGid(fs, g) == i {
      match LastEvents(ns[1..], g)
      case Some(e) =>
        if i == j {
          WithEventsTwice(fs[i], n.events, e);
        }
      case None =>
    } else {
      assert i != j;
    }
  }

  /**
   * Attaching a sequence of nodes: the first fulfillment carrying a gid
   * ends up with the events of the last node with that gid, or untouched
   * when no node has it; `find` never reaches a later fulfillment with
   * the same gid, so those stay as they were.
   */
  lemma {:induction false} AttachNodesDelivers(fs: seq<Value>, ns: seq<Node>)
    requires forall i :: 0 <= i < |fs| ==> fs[i].Obj?
    requires AttachNodes(fs, ns).Some?
    ensures var r := AttachNodes(fs, ns).value;
      && |r| == |fs|
      && (forall i :: 0 <= i < |fs| ==> r[i] == if FirstWithGid(fs, Gid(fs[i])) == i then Delivered(fs[i], ns) else fs[i])
      && (DistinctGids(fs) ==> forall i :: 0 <= i < |fs| && Truthy(Gid(fs[i])) ==> r[i] == Delivered(fs[i], ns))
    decreases |ns|
  {
    var r := AttachNodes(fs, ns).value;
    if ns == [] {
      assert r == fs;
    } else {
      var n := ns[0];
      var fs1 := AttachNode(fs, n).value;
      var j := FirstWithGid(fs, n.gid);
      AttachNodeKeepsShape(fs, n);
      AttachNodesDelivers(fs1, ns[1..]);
      assert r == AttachNodes(fs1, ns[1..]).value;
      forall i | 0 <= i < |fs|
        ensures r[i] == if FirstWithGid(fs, Gid(fs[i])) == i then Delivered(fs[i], ns) else fs[i]
      {
        DeliveredStep(fs, ns, i);
      }
    }
    forall i | 0 <= i < |fs| && DistinctGids(fs) && Truthy(Gid(fs[i]))
      ensures FirstWithGid(fs, Gid(fs[i])) == i
    {
      DistinctFirst(fs, i);
    }
  }

  lemma {:induction false} AttachNodesAppend(fs: seq<Value>, a: seq<Node>, b: seq<Node>)
    ensures AttachNodes(fs, a + b) == (match AttachNodes(fs, a) case None => None case Some(fs1) => AttachNodes(fs1, b))
    decreases |a|
  {
    if a == [] {
      assert a + b == b;
    } else {
      assert (a + b)[0] == a[0] && (a + b)[1..] == a[1..] + b;
      match AttachNode(fs, a[0])
      case None =>
      case Some(fs1) => AttachNodesAppend(fs1, a[1..], b);
    }
  }

  /**
   * Querying batch after batch attaches the nodes of all replies in order,
   * and rejects when some reply cannot be read.
   */
  lemma {:induction false} AttachBatchesIsNodes(fs: seq<Value>, bs: seq<seq<Value>>, reply: seq<Value> -> EventsReply)
    ensures AttachBatches(fs, bs, reply) == (match AllNodes(bs, reply) case None => None case Some(ns) => AttachNodes(fs, ns))
    decreases |bs|
  {
    if bs != [] {
      match FulfillmentEvents(bs[0], reply(bs[0]))
      case None =>
      case Some(ns0) =>
        if later :| AllNodes(bs[1..], reply) == Some(later) {
          AttachNodesAppend(fs, ns0, later);
        }
        match AttachNodes(fs, ns0)
        case None =>
        case Some(fs1) => AttachBatchesIsNodes(fs1, bs[1..], reply);
    }
  }

  /** A reply the client cannot read rejects the whole order task. */
  lemma AttachEventsMalformed(fs: seq<Value>, reply: seq<Value> -> EventsReply, k: int)
    requires 0 <= k < |Chunk(QueriedGids(fs), 250)|
    requires reply(Chunk(QueriedGids(fs), 250)[k]).EventsMalformed?
    ensures AttachEvents(fs, reply).None?
  {
    AttachBatchesIsNodes(fs, Chunk(QueriedGids(fs), 250), reply);
  }

  /**
   * When the events reads succeed, the first fulfillment carrying each
   * gid receives the events of the last node any reply gives for that
   * gid, and every other fulfillment is left as it was.
   */
  lemma AttachEventsDelivers(fs: seq<Value>, reply: seq<Value> -> EventsReply)
    requires forall i :: 0 <= i < |fs| ==> fs[i].Obj?
    ensures AttachEvents(fs, reply).Some? ==> AllNodes(Chunk(QueriedGids(fs), 250), reply).Some?
    ensures AttachEvents(fs, reply).Some? ==>
      var r := AttachEvents(fs, reply).value;
      var ns := AllNodes(Chunk(QueriedGids(fs), 250), reply).value;
      && |r| == |fs|
      && (forall i :: 0 <= i < |fs| ==> r[i] == if FirstWithGid(fs, Gid(fs[i])) == i then Delivered(fs[i], ns) else fs[i])
      && (DistinctGids(fs) ==> forall i :: 0 <= i < |fs| && Truthy(Gid(fs[i])) ==> r[i] == Delivered(fs[i], ns))
  {
    var bs := Chunk(QueriedGids(fs), 250);
    AttachBatchesIsNodes(fs, bs, reply);
    if AttachEvents(fs, reply).Some? {
      AttachNodesDelivers(fs, AllNodes(bs, reply).value);
    }
  }

  /**
   * `generateOrderTasks` once the reads are done: the backfill day's
   * orders then the updated orders, normalised, and their fulfillments
   * with events attached.
   */
  function OrderTasks(stepOrders: seq<Value>, updates: seq<Value>, reply: seq<Value> -> EventsReply): (r: Option<(seq<Value>, seq<Value>)>)
    // the task rejects exactly when an order cannot be normalised or the events cannot be attached
    ensures var n := NormaliseOrders(stepOrders + updates);
      r.Some? <==> n.Some? && AttachEvents(n.value.1, reply).Some?
    ensures r.Some? ==> |r.value.0| == |stepOrders| + |updates|
    // the backfill day's orders then the updated ones, each normalised
    ensures r.Some? ==> forall i :: 0 <= i < |stepOrders| + |updates| ==>
              r.value.0[i] == NormaliseOrder((stepOrders + updates)[i]).value.0
    // the fulfillments stored are all the orders' own, with their events attached
    ensures r.Some? ==> Some(r.value.1) == AttachEvents(Flatten(FulfillmentLists(stepOrders + updates)), reply)
    ensures r.Some? ==> var (os, fs) := r.value;
      Flatten(seq(|os|, i requires 0 <= i < |os| => StoredIds(os[i]))) == Ids(fs)
  {
    match NormaliseOrders(stepOrders + updates)
    case None => None
    case Some((os, fs)) =>
      NormaliseOrdersFulfillments(stepOrders + updates);
      OrdersReferenceTheirFulfillments(stepOrders + updates);
      match AttachEvents(fs, reply)
      case None => None
      case Some(fs') => Some((os, fs'))
  }

  /**
   * The reads behind the order task: the backfill day's orders by
   * creation date (window padded) when the cycle has a backfill day, and
   * the orders named by the recent events, by id.
   */
  function OrderReads(events: seq<Value>, backfill: Option<Range>, byDate: Range -> seq<Value>,
                      byId: seq<Value> -> seq<Value>): (r: Option<(seq<Value>, seq<Value>)>)
    ensures r.Some? <==> SubjectIds(events, "Order").Some?
    ensures r.Some? && backfill.None? ==> r.value.0 == []
    ensures r.Some? && SubjectIds(events, "Order").value == [] ==> r.value.1 == []
    ensures r.Some? ==> r.value.1 == ById(SubjectIds(events, "Order").value, byId)
    ensures r.Some? && backfill.Some? ==> r.value.0 == byDate(ByDateWindow(backfill.value))
  {
    match SubjectIds(events, "Order")
    case None => None
    case Some(ids) =>
      var stepOrders := if backfill.Some? then byDate(ByDateWindow(backfill.value)) else [];
      Some((stepOrders, ById(ids, byId)))
  }

  /**
   * Fulfillments where the first one carrying each gid in `marked` has
   * an empty event list.
   */
  function Mark(fs: seq<Value>, marked: seq<Value>): (r: seq<Value>)
    requires forall i :: 0 <= i < |fs| ==> fs[i].Obj?
    ensures |r| == |fs|
  {
    seq(|fs|, i requires 0 <= i < |fs| => if FirstWithGid(fs, Gid(fs[i])) == i && Gid(fs[i]) in marked then WithEvents(fs[i], []) else fs[i])
  }

  /** Gids identify fulfillments: no gid is carried twice. */
  predicate DistinctGids(fs: seq<Value>)
  {
    forall i, j :: 0 <= i < j < |fs| && Truthy(Gid(fs[i])) ==> Gid(fs[i]) != Gid(fs[j])
  }

  /** The gid of some fulfillment that is asked about. */
  predicate QueriedGid(fs: seq<Value>, g: Value)
  {
    exists i :: 0 <= i < |fs| && Queried(fs[i]) && Gid(fs[i]) == g
  }

  /** A fallback node for a queried gid marks the first fulfillment carrying it. */
  lemma MarkOne(fs: seq<Value>, marked: seq<Value>, g: Value)
    requires forall i :: 0 <= i < |fs| ==> fs[i].Obj?
    requires QueriedGid(fs, g)
    ensures AttachNode(Mark(fs, marked), Node(g, [])) == Some(Mark(fs, marked + [g]))
  {
    var j0 :| 0 <= j0 < |fs| && Queried(fs[j0]) && Gid(fs[j0]) == g;
    var m := Mark(fs, marked);
    assert forall i :: 0 <= i < |fs| ==> Gid(m[i]) == Gid(fs[i]) && m[i].Obj?;
    FirstWithGidSame(fs, m, g);
    var j := FirstWithGid(fs, g);
    assert j < |fs|;
    var m' := Mark(fs, marked + [g]);
    forall i | 0 <= i < |fs|
      ensures m[j := WithEvents(m[j], [])][i] == m'[i]
    {
      MarkOneAt(fs, marked, g, i);
    }
    assert m[j := WithEvents(m[j], [])] == m';
  }

  /** Marking one more gid changes only the first fulfillment carrying it. */
  lemma MarkOneAt(fs: seq<Value>, marked: seq<Value>, g: Value, i: int)
    requires forall k :: 0 <= k < |fs| ==> fs[k].Obj?
    requires 0 <= i < |fs|
    ensures Mark(fs, marked + [g])[i]
         == if i == FirstWithGid(fs, g) then WithEvents(Mark(fs, marked)[i], []) else Mark(fs, marked)[i]
  {
    if i == FirstWithGid(fs, g) {
      WithEventsTwice(fs[i], [], []);
    } else if Gid(fs[i]) == g {
      assert FirstWithGid(fs, Gid(fs[i])) != i;
    }
  }

  /** Fallback nodes for queried gids mark the first fulfillment carrying each. */
  lemma {:induction false} MarkMany(fs: seq<Value>, marked: seq<Value>, gs: seq<Value>)
    requires forall i :: 0 <= i < |fs| ==> fs[i].Obj?
    requires forall k :: 0 <= k < |gs| ==> QueriedGid(fs, gs[k])
    ensures AttachNodes(Mark(fs, marked), FulfillmentEvents(gs, EventsFailed).value) == Some(Mark(fs, marked + gs))
    decreases |gs|
  {
    var ns := FulfillmentEvents(gs, EventsFailed).value;
    if gs == [] {
      assert marked + gs == marked;
    } else {
      var rest := gs[1..];
      var m1 := Mark(fs, marked + [gs[0]]);
      FailedNodesCons(gs);
      MarkOne(fs, marked, gs[0]);
      assert AttachNodes(Mark(fs, marked), ns) == AttachNodes(m1, ns[1..]);
      assert forall k :: 0 <= k < |rest| ==> rest[k] == gs[k + 1];
      MarkMany(fs, marked + [gs[0]], rest);
      ConsAppend(marked, gs);
    }
  }

  /** The fallback nodes of a failed query, one gid at a time. */
  lemma FailedNodesCons(gs: seq<Value>)
    requires gs != []
    ensures var ns := FulfillmentEvents(gs, EventsFailed).value;
      ns != [] && ns[0] == Node(gs[0], []) && ns[1..] == FulfillmentEvents(gs[1..], EventsFailed).value
  {
  }

  lemma ConsAppend<T>(a: seq<T>, b: seq<T>)
    requires b != []
    ensures a + [b[0]] + b[1..] == a + b
  {
  }

  /** Batch after batch of failed queries marks every gid of every batch. */
  lemma {:induction false} MarkBatches(fs: seq<Value>, marked: seq<Value>, bs: seq<seq<Value>>, reply: seq<Value> -> EventsReply)
    requires forall i :: 0 <= i < |fs| ==> fs[i].Obj?
    requires forall b :: reply(b) == EventsFailed
    requires forall x :: x in Flatten(bs) ==> QueriedGid(fs, x)
    ensures AttachBatches(Mark(fs, marked), bs, reply) == Some(Mark(fs, marked + Flatten(bs)))
    decreases |bs|
  {
    if bs == [] {
      assert marked + Flatten(bs) == marked;
    } else {
      var b := bs[0];
      FlattenCons(bs);
      MarkMany(fs, marked, b);
      MarkBatches(fs, marked + b, bs[1..], reply);
      assert marked + b + Flatten(bs[1..]) == marked + Flatten(bs);
    }
  }

  /**
   * When every events query fails, the cycle still stores its
   * fulfillments: the first one carrying each gid asked about has an
   * empty event list, and the others are untouched. With distinct gids
   * that is exactly the fulfillments asked about.
   */
  lemma FailedQueriesGiveEmptyEvents(fs: seq<Value>, reply: seq<Value> -> EventsReply)
    requires forall i :: 0 <= i < |fs| ==> fs[i].Obj?
    requires forall b :: reply(b) == EventsFailed
    ensures AttachEvents(fs, reply) == Some(seq(|fs|, i requires 0 <= i < |fs| =>
      if FirstWithGid(fs, Gid(fs[i])) == i && QueriedGid(fs, Gid(fs[i])) then WithEvents(fs[i], []) else fs[i]))
    ensures DistinctGids(fs) ==>
      AttachEvents(fs, reply) == Some(seq(|fs|, i requires 0 <= i < |fs| => if Queried(fs[i]) then WithEvents(fs[i], []) else fs[i]))
  {
    FailedQueriesMark(fs, reply);
    MarkQueried(fs);
    if DistinctGids(fs) {
      DistinctMarksQueried(fs);
    }
  }

  /** Failed queries mark every gid asked about. */
  lemma FailedQueriesMark(fs: seq<Value>, reply: seq<Value> -> EventsReply)
    requires forall i :: 0 <= i < |fs| ==> fs[i].Obj?
    requires forall b :: reply(b) == EventsFailed
    ensures AttachEvents(fs, reply) == Some(Mark(fs, QueriedGids(fs)))
  {
    var gids := QueriedGids(fs);
    var bs := Chunk(gids, 250);
    assert AttachEvents(fs, reply) == AttachBatches(fs, bs, reply);
    QueriedBatches(fs);
    MarkNothing(fs);
    MarkBatches(fs, [], bs, reply);
    assert [] + Flatten(bs) == gids;
  }

  /** Marking no gid changes nothing. */
  lemma MarkNothing(fs: seq<Value>)
    requires forall i :: 0 <= i < |fs| ==> fs[i].Obj?
    ensures Mark(fs, []) == fs
  {
  }

  /** The batches of gids asked about hold exactly those gids, in order. */
  lemma QueriedBatches(fs: seq<Value>)
    ensures Flatten(Chunk(QueriedGids(fs), 250)) == QueriedGids(fs)
    ensures forall x :: x in QueriedGids(fs) ==> QueriedGid(fs, x)
  {
    forall x | x in QueriedGids(fs)
      ensures QueriedGid(fs, x)
    {
      var i :| 0 <= i < |fs| && Queried(fs[i]) && Gid(fs[i]) == x;
    }
  }

  /** Marking every gid asked about marks the first fulfillment carrying each. */
  lemma MarkQueried(fs: seq<Value>)
    requires forall i :: 0 <= i < |fs| ==> fs[i].Obj?
    ensures Mark(fs, QueriedGids(fs)) == seq(|fs|, i requires 0 <= i < |fs| =>
      if FirstWithGid(fs, Gid(fs[i])) == i && QueriedGid(fs, Gid(fs[i])) then WithEvents(fs[i], []) else fs[i])
  {
    var gids := QueriedGids(fs);
    forall i | 0 <= i < |fs|
      ensures (Gid(fs[i]) in gids) == QueriedGid(fs, Gid(fs[i]))
    {
      if QueriedGid(fs, Gid(fs[i])) {
        var k :| 0 <= k < |fs| && Queried(fs[k]) && Gid(fs[k]) == Gid(fs[i]);
        assert Gid(fs[k]) in gids;
      }
    }
  }

  /** With distinct gids, the first fulfillment carrying a queried gid is the one queried. */
  lemma DistinctMarksQueried(fs: seq<Value>)
    requires forall i :: 0 <= i < |fs| ==> fs[i].Obj?
    requires DistinctGids(fs)
    ensures seq(|fs|, i requires 0 <= i < |fs| =>
              if FirstWithGid(fs, Gid(fs[i])) == i && QueriedGid(fs, Gid(fs[i])) then WithEvents(fs[i], []) else fs[i])
         == seq(|fs|, i requires 0 <= i < |fs| => if Queried(fs[i]) then WithEvents(fs[i], []) else fs[i])
  {
    forall i | 0 <= i < |fs|
      ensures (FirstWithGid(fs, Gid(fs[i])) == i && QueriedGid(fs, Gid(fs[i]))) == Queried(fs[i])
    {
      if Queried(fs[i]) {
        DistinctFirst(fs, i);
      }
    }
  }

  // ---------------------------------------------------------------------
  // Inventory

  /**
   * `queueResult.find(r => r?.products) || {products: []}`: the products
   * the previous cycle's product task returned.
   */
  function PreviousProducts(results: seq<Value>): (r: Value)
    ensures r == Arr([]) || exists i :: 0 <= i < |results| && Truthy(Field(results[i], "products")) && r == Field(results[i], "products")
    ensures (forall i :: 0 <= i < |results| ==> !Truthy(Field(results[i], "products"))) ==> r == Arr([])
    ensures forall i :: (0 <= i < |results| && Truthy(Field(results[i], "products"))
                         && forall k :: 0 <= k < i ==> !Truthy(Field(results[k], "products")))
                        ==> r == Field(results[i], "products")
  {
    if results == [] then Arr([])
    else if Truthy(Field(results[0], "products")) then Field(results[0], "products")
    else
      var r := PreviousProducts(results[1..]);
      assert forall i :: 1 <= i < |results| ==> results[i] == results[1..][i - 1];
      r
  }

  /** `products.flatMap(p => p.variants)`: an array of variants is spread, anything else kept as one entry. */
  function Variants(products: seq<Value>): (r: Option<seq<Value>>)
    ensures r.Some? <==> forall i :: 0 <= i < |products| ==> !products[i].Undef? && !products[i].Null?
  {
    if products == [] then Some([])
    else
      assert forall i :: 1 <= i < |products| ==> products[i] == products[1..][i - 1];
      match Variants(products[1..])
      case None => None
      case Some(rest) =>
        if products[0].Undef? || products[0].Null? then None
        else
          var v := Field(products[0], "variants");
          Some((if v.Arr? then v.items else [v]) + rest)
  }

  /** `variants.map(v => v.inventory_item_id)`. */
  function ItemIds(vs: seq<Value>): seq<Value>
  {
    Pluck(vs, "inventory_item_id")
  }

  /**
   * `generateInventoryTasks(products)`: the inventory item ids of the
   * variants, requested 100 at a time. A `null` variant throws.
   */
  function InventoryRequests(products: Value): (r: Option<seq<seq<Value>>>)
    ensures products.Arr? && Variants(products.items) == Some([]) ==> r == Some([])
    ensures r.Some? <==> products.Arr? && Variants(products.items).Some?
                         && forall v :: v in Variants(products.items).value ==> !v.Undef? && !v.Null?
    ensures r.Some? ==> var vs := Variants(products.items).value;
      && (forall i :: 0 <= i < |vs| ==> !vs[i].Undef? && !vs[i].Null?)
      && Flatten(r.value) == ItemIds(vs)
      && forall k :: 0 <= k < |r.value| ==> 1 <= |r.value[k]| <= 100
  {
    if !products.Arr? then None
    else
      match Variants(products.items)
      case None => None
      case Some(vs) =>
        if forall i :: 0 <= i < |vs| ==> !vs[i].Undef? && !vs[i].Null? then Some(Chunk(ItemIds(vs), 100))
        else None
  }
}

=== FILE: reading.dfy ===
/**
 * `read(type)`: load every chunk the index names, once each, in the order
 * their first id appears among the index keys. Outside query mode the
 * files are returned one by one; in query mode they are concatenated and
 * deduplicated, so every id is represented by its latest write.
 */
module Reading {
  import opened Wrappers
  import opened Combinators
  import opened Dedup
  import opened Storage

  /**
   * `dataUrls`: the distinct chunks the keys name, each once, in the order
   * of the first key that names it (see `ReferencedChunks`).
   */
  function ChunksToRead(s: Shelf, keys: seq<Id>): seq<ChunkId>
  {
    ReferencedChunks(s.index, keys)
  }

  /** `_read` of one chunk file: its records, or `None` when the file is missing (`{}`). */
  function ReadChunk(s: Shelf, c: ChunkId): (r: Option<seq<Record>>)
    ensures r.Some? <==> c in s.chunks
    ensures r.Some? ==> r.value == s.chunks[c]
  {
    if c in s.chunks then Some(s.chunks[c]) else None
  }

  /**
   * `read(type)` outside query mode: the `_read` of each chunk `dataUrls`
   * lists, in that order. An index that cannot be read is `{}`, which
   * names no chunk, so nothing is read.
   */
  function ReadFiles(s: Shelf, keys: seq<Id>, indexReadable: bool): (r: seq<Option<seq<Record>>>)
    ensures !indexReadable ==> r == []
    ensures indexReadable ==> |r| == |ChunksToRead(s, keys)|
    ensures indexReadable ==> forall i :: 0 <= i < |r| ==> r[i] == ReadChunk(s, ChunksToRead(s, keys)[i])
  {
    var cs := if indexReadable then ChunksToRead(s, keys) else [];
    seq(|cs|, i requires 0 <= i < |cs| => ReadChunk(s, cs[i]))
  }

  /**
   * `read(type)` in query mode: the chunks' records concatenated, then
   * deduplicated; nothing when the index cannot be read.
   */
  function ReadMerged(s: Shelf, keys: seq<Id>, indexReadable: bool): (r: seq<Record>)
    ensures !indexReadable ==> r == []
    ensures indexReadable ==> r == Deduplicate(LoadChunks(s.chunks, ChunksToRead(s, keys)))
  {
    if indexReadable then Deduplicate(LoadChunks(s.chunks, ChunksToRead(s, keys))) else []
  }

  /**
   * The files read are exactly the existing chunks the index names: each
   * existing chunk an index entry names is returned once, and nothing the
   * index does not name is read.
   */
  lemma ReadFilesCoversIndex(s: Shelf, keys: seq<Id>)
    requires forall i :: 0 <= i < |keys| ==> keys[i] in s.index
    requires forall id :: id in s.index ==> id in keys
    ensures var cs := ChunksToRead(s, keys);
      && (forall id :: id in s.index && s.index[id] in s.chunks ==>
            exists i :: 0 <= i < |cs| && ReadFiles(s, keys, true)[i] == Some(s.chunks[s.index[id]]))
      && (forall i :: 0 <= i < |cs| ==> cs[i] in s.index.Values)
      && (forall a, b :: 0 <= a < b < |cs| ==> cs[a] != cs[b])
  {
    var cs := ChunksToRead(s, keys);
    forall id | id in s.index && s.index[id] in s.chunks
      ensures exists i :: 0 <= i < |cs| && ReadFiles(s, keys, true)[i] == Some(s.chunks[s.index[id]])
    {
      ReadFilesHas(s, keys, id);
    }
    forall i | 0 <= i < |cs|
      ensures cs[i] in s.index.Values
    {
      ChunkToReadIndexed(s, keys, i);
    }
  }

  lemma ReadFilesHas(s: Shelf, keys: seq<Id>, id: Id)
    requires id in keys && id in s.index && s.index[id] in s.chunks
    ensures var cs := ChunksToRead(s, keys);
      exists i :: 0 <= i < |cs| && ReadFiles(s, keys, true)[i] == Some(s.chunks[s.index[id]])
  {
    var cs := ChunksToRead(s, keys);
    var k :| 0 <= k < |keys| && keys[k] == id;
    var i :| 0 <= i < |cs| && cs[i] == s.index[id];
    assert ReadFiles(s, keys, true)[i] == ReadChunk(s, cs[i]);
  }

  /** Every chunk `dataUrls` names is an indexed chunk, and with every record backed it exists. */
  lemma ChunksToReadPresent(s: Shelf, keys: seq<Id>)
    requires RecordsBacked(s)
    requires forall i :: 0 <= i < |keys| ==> keys[i] in s.index
    ensures var cs := ChunksToRead(s, keys);
      forall i :: 0 <= i < |cs| ==> cs[i] in s.index.Values && cs[i] in s.chunks
  {
    var cs := ChunksToRead(s, keys);
    forall i | 0 <= i < |cs|
      ensures cs[i] in s.index.Values && cs[i] in s.chunks
    {
      ChunkToReadIndexed(s, keys, i);
    }
  }

  /** Each chunk `dataUrls` names is the chunk of some indexed id. */
  lemma ChunkToReadIndexed(s: Shelf, keys: seq<Id>, i: int)
    requires forall k :: 0 <= k < |keys| ==> keys[k] in s.index
    requires 0 <= i < |ChunksToRead(s, keys)|
    ensures ChunksToRead(s, keys)[i] in s.index.Values
  {
    var cs := ChunksToRead(s, keys);
    var k :| 0 <= k < |keys| && cs[i] == ChunkOf(s.index)(keys[k]);
    assert keys[k] in s.index;
  }

  lemma IndexedLoaded(s: Shelf, keys: seq<Id>)
    requires RecordsBacked(s)
    requires forall id :: id in s.index ==> id in keys
    ensures s.index.Keys <= IdSet(LoadChunks(s.chunks, ChunksToRead(s, keys)))
  {
    forall id | id in s.index
      ensures id in IdSet(LoadChunks(s.chunks, ChunksToRead(s, keys)))
    {
      IndexedIdLoaded(s, keys, id);
    }
  }

  lemma IndexedIdLoaded(s: Shelf, keys: seq<Id>, id: Id)
    requires RecordsBacked(s) && id in s.index && id in keys
    ensures id in IdSet(LoadChunks(s.chunks, ChunksToRead(s, keys)))
  {
    var c := s.index[id];
    assert c in s.chunks && HasId(s.chunks[c], id);
    var q :| 0 <= q < |s.chunks[c]| && s.chunks[c][q].id == id;
    var x := s.chunks[c][q];
    IndexedRecordLoaded(s, keys, id, x);
    InIdSet(LoadChunks(s.chunks, ChunksToRead(s, keys)), x);
  }

  lemma InIdSet(data: seq<Record>, x: Record)
    requires x in data
    ensures x.id in IdSet(data)
  {
    var m :| 0 <= m < |data| && data[m] == x;
  }

  lemma IndexedRecordLoaded(s: Shelf, keys: seq<Id>, id: Id, x: Record)
    requires id in s.index && id in keys && s.index[id] in s.chunks && x in s.chunks[s.index[id]]
    ensures x in LoadChunks(s.chunks, ChunksToRead(s, keys))
  {
    var cs := ChunksToRead(s, keys);
    var c := s.index[id];
    var k :| 0 <= k < |keys| && keys[k] == id;
    var i :| 0 <= i < |cs| && cs[i] == c;
    assert x in s.chunks[cs[i]];
  }

  /**
   * Latest write wins in query mode: when every indexed id's chunk holds
   * that id, the merged read holds every indexed id exactly once, each
   * record comes from a chunk the index names, and it carries the greatest
   * write time any loaded chunk has for its id.
   */
  lemma ReadMergedLatestWins(s: Shelf, keys: seq<Id>)
    requires RecordsBacked(s) && Stamped(s)
    requires forall i :: 0 <= i < |keys| ==> keys[i] in s.index
    requires forall id :: id in s.index ==> id in keys
    ensures var r := ReadMerged(s, keys, true);
      var loaded := LoadChunks(s.chunks, ChunksToRead(s, keys));
      && s.index.Keys <= IdSet(r)
      && DistinctIds(r)
      && (forall x :: x in r ==> exists c :: c in s.index.Values && c in s.chunks && x in s.chunks[c])
      && (forall i :: 0 <= i < |r| ==> r[i].writeTime == MaxTime(loaded, r[i].id))
  {
    var loaded := LoadChunks(s.chunks, ChunksToRead(s, keys));
    LoadedPositive(s, keys);
    IndexedLoaded(s, keys);
    DeduplicateKeepsLatestPerId(loaded);
    MergedFromIndexed(s, keys);
  }

  lemma LoadedPositive(s: Shelf, keys: seq<Id>)
    requires RecordsBacked(s) && Stamped(s)
    requires forall i :: 0 <= i < |keys| ==> keys[i] in s.index
    ensures PositiveTimes(LoadChunks(s.chunks, ChunksToRead(s, keys)))
  {
    ChunksToReadPresent(s, keys);
    LoadChunksStamped(s, ChunksToRead(s, keys));
  }

  lemma MergedFromIndexed(s: Shelf, keys: seq<Id>)
    requires RecordsBacked(s)
    requires forall i :: 0 <= i < |keys| ==> keys[i] in s.index
    ensures forall x :: x in ReadMerged(s, keys, true) ==> exists c :: c in s.index.Values && c in s.chunks && x in s.chunks[c]
  {
    var cs := ChunksToRead(s, keys);
    var loaded := LoadChunks(s.chunks, cs);
    ChunksToReadPresent(s, keys);
    forall x | x in ReadMerged(s, keys, true)
      ensures exists c :: c in s.index.Values && c in s.chunks && x in s.chunks[c]
    {
      DeduplicateDropsOnly(loaded);
      assert x in loaded;
      var n :| 0 <= n < |cs| && cs[n] in s.chunks && x in s.chunks[cs[n]];
    }
  }

  /**
   * A chunk the index names but that cannot be read becomes one `{}` in
   * the query-mode read: all of them are concatenated, and deduplication
   * keeps the first, since their missing ids and write times compare equal.
   * So the merged read holds exactly one `{}` when some named chunk is
   * missing, and none otherwise.
   */
  lemma ReadMergedKeepsOneBlank(s: Shelf, keys: seq<Id>)
    requires forall c, x :: c in s.chunks && x in s.chunks[c] ==> x.id != ""
    ensures var cs := ChunksToRead(s, keys);
      WithId(ReadMerged(s, keys, true), "") == (if exists i :: 0 <= i < |cs| && cs[i] !in s.chunks then [Blank] else [])
  {
    var cs := ChunksToRead(s, keys);
    var loaded := LoadChunks(s.chunks, cs);
    forall i | 0 <= i < |loaded| && loaded[i].id == ""
      ensures loaded[i] == Blank
    {
      assert loaded[i] in loaded;
    }
    DeduplicateKeepsOneOf(loaded, Blank);
    if Blank in loaded {
      var i :| 0 <= i < |cs| && cs[i] !in s.chunks;
    }
  }
}

=== FILE: shopify.dfy ===
/**
 * The arithmetic and string handling of the Shopify client: the token
 * monitor that paces requests, the delay between sequential requests,
 * header-based pagination, batching of id lookups, the date padding of
 * the by-date reads and the fallback of the fulfillment-events query.
 * HTTP itself is a parameter: a request's outcome is a `Page` (or an
 * `EventsReply`), and a failed request is the empty page the client
 * substitutes for it.
 */
module Shopify {
  import opened Wrappers
  import opened JsValues
  import opened Combinators
  import opened Time

  // ---------------------------------------------------------------------
  // Token monitor

  /** `token_monitoring`: the store's plan, the current pace and the call times. */
  datatype Monitor = Monitor(plus: bool, pace: int, calls: seq<int>)

  /** `calls_max`: the calls a minute the plan allows. */
  function CallsMax(plus: bool): (n: int)
    ensures n > 0
  {
    if plus then 240 else 120
  }

  /** The paces a plan moves between, fastest first. */
  function FastPace(plus: bool): int { if plus then 750 else 1500 }
  function MidPace(plus: bool): int { if plus then 1100 else 2400 }
  function SlowPace(plus: bool): int { if plus then 1500 else 3000 }

  function NewMonitor(plus: bool): Monitor
  {
    Monitor(plus, FastPace(plus), [])
  }

  /**
   * The pace for `recent` calls in the last minute: slow above 85% of the
   * allowance, medium above 65%, fast otherwise. The ratio
   * `recent / calls_max` is compared by cross-multiplication.
   */
  function Pace(plus: bool, recent: nat): (p: int)
    ensures 100 * recent > 85 * CallsMax(plus) <==> p == SlowPace(plus)
    ensures p == FastPace(plus) <==> 100 * recent <= 65 * CallsMax(plus)
    ensures p == FastPace(plus) || p == MidPace(plus) || p == SlowPace(plus)
  {
    if 100 * recent > 85 * CallsMax(plus) then SlowPace(plus)
    else if 100 * recent > 65 * CallsMax(plus) then MidPace(plus)
    else FastPace(plus)
  }

  /** More calls in the last minute never make the pace faster. */
  lemma PaceMonotone(plus: bool, a: nat, b: nat)
    requires a <= b
    ensures Pace(plus, a) <= Pace(plus, b)
  {
  }

  /** The calls made strictly after `t`, in order. */
  function After(calls: seq<int>, t: int): (r: seq<int>)
    ensures |r| <= |calls|
    ensures forall i :: 0 <= i < |r| ==> r[i] > t && r[i] in calls
    ensures forall i :: 0 <= i < |calls| && calls[i] > t ==> calls[i] in r
  {
    if calls == [] then []
    else if calls[0] > t then [calls[0]] + After(calls[1..], t)
    else After(calls[1..], t)
  }

  /** The calls made at or after `t`, in order. */
  function AtOrAfter(calls: seq<int>, t: int): (r: seq<int>)
    ensures |r| <= |calls|
    ensures forall i :: 0 <= i < |r| ==> r[i] >= t && r[i] in calls
    ensures forall i :: 0 <= i < |calls| && calls[i] >= t ==> calls[i] in r
  {
    if calls == [] then []
    else if calls[0] >= t then [calls[0]] + AtOrAfter(calls[1..], t)
    else AtOrAfter(calls[1..], t)
  }

  /** The strict window never counts more calls than the inclusive one. */
  lemma {:induction false} AfterWithinAtOrAfter(calls: seq<int>, t: int)
    ensures |After(calls, t)| <= |AtOrAfter(calls, t)|
  {
    if calls != [] {
      AfterWithinAtOrAfter(calls[1..], t);
    }
  }

  /**
   * `registerCall` at instant `now`: the call is recorded, calls older
   * than five minutes are dropped, and the pace follows the calls of the
   * last minute.
   */
  function RegisterCall(m: Monitor, now: int): (r: Monitor)
    ensures r.plus == m.plus
    ensures now in r.calls
    ensures forall i :: 0 <= i < |r.calls| ==> now - 5 * Minute < r.calls[i] && (r.calls[i] in m.calls || r.calls[i] == now)
    ensures forall i :: 0 <= i < |m.calls| && m.calls[i] > now - 5 * Minute ==> m.calls[i] in r.calls
    ensures r.pace == Pace(m.plus, |After(r.calls, now - Minute)|)
  {
    var calls := After(m.calls + [now], now - 5 * Minute);
    assert (m.calls + [now])[|m.calls|] == now;
    assert forall i :: 0 <= i < |m.calls| ==> (m.calls + [now])[i] == m.calls[i];
    Monitor(m.plus, Pace(m.plus, |After(calls, now - Minute)|), calls)
  }

  /**
   * `quantify_usage`: the percentage of the allowance used in the last
   * minute, rounded up. Unlike `registerCall` it counts a call made
   * exactly one minute ago.
   */
  function QuantifyUsage(m: Monitor, now: int): (u: int)
    ensures (u - 1) * CallsMax(m.plus) < 100 * |AtOrAfter(m.calls, now - Minute)| <= u * CallsMax(m.plus)
  {
    CeilDiv(100 * |AtOrAfter(m.calls, now - Minute)|, CallsMax(m.plus))
  }

  /** A monitor that has just slowed to its slowest pace reports more than 85% usage. */
  lemma SlowPaceReportsHighUsage(m: Monitor, now: int)
    requires RegisterCall(m, now).pace == SlowPace(m.plus)
    ensures QuantifyUsage(RegisterCall(m, now), now) > 85
  {
    var r := RegisterCall(m, now);
    var max := CallsMax(m.plus);
    AfterWithinAtOrAfter(r.calls, now - Minute);
    var n := |AtOrAfter(r.calls, now - Minute)|;
    var u := QuantifyUsage(r, now);
    assert 85 * max < u * max;
  }

  /**
   * `_throttle`: the wait before the next request, the pace less the
   * duration of the request just made, but never under 50 ms.
   */
  function Throttle(pace: int, duration: int): (d: int)
    ensures d >= 50
    ensures d + duration >= pace
    ensures d == 50 || d + duration == pace
  {
    if pace - duration > 50 then pace - duration else 50
  }

  /** A failed request (duration 0) waits out the full pace of any monitor state. */
  lemma FailedRequestWaitsFullPace(m: Monitor, now: int)
    ensures Throttle(RegisterCall(m, now).pace, 0) == RegisterCall(m, now).pace
  {
  }

  // ---------------------------------------------------------------------
  // Header-based pagination

  /** The first occurrence of a non-empty `sep` in `s` at or after `k`; `|s|` when none. */
  function FindFrom(s: string, sep: string, k: nat): (i: nat)
    requires sep != [] && k <= |s|
    ensures k <= i <= |s|
    ensures i < |s| ==> OccursAt(s, sep, i)
    ensures forall j :: k <= j < i ==> !OccursAt(s, sep, j)
    decreases |s| - k
  {
    if k == |s| then |s|
    else if OccursAt(s, sep, k) then k
    else FindFrom(s, sep, k + 1)
  }

  /** `s.split(sep)[0]`. */
  function BeforeFirst(s: string, sep: string): (r: string)
    requires sep != []
    ensures |r| <= |s| && r == s[..|r|]
  {
    s[..FindFrom(s, sep, 0)]
  }

  /** `s.split(sep)` keeps its last piece: the text after the last match of a left-to-right scan. */
  function LastPiece(s: string, sep: string): (r: string)
    requires sep != []
    decreases |s|
  {
    var i := FindFrom(s, sep, 0);
    if i == |s| then s else LastPiece(s[i + |sep|..], sep)
  }

  /** No proper prefix of `t` is also a suffix of it, so two matches of `t` never overlap. */
  predicate Borderless(t: string)
  {
    forall k :: 0 < k < |t| ==> !IsBorder(t, k)
  }

  /** The last `|t| - k` characters of `t` repeat its first ones. */
  predicate IsBorder(t: string, k: nat)
    requires k <= |t|
  {
    t[k..] == t[..|t| - k]
  }

  /** `head.split(path)`, last piece, `.split(">;")[0]`: the query string of the last link. */
  function NextParams(link: string, path: string): string
    requires path != []
  {
    BeforeFirst(LastPiece(link, path), ">;")
  }

  /** A page: the values of the JSON body, in key order, and the `link` header. */
  datatype Page = Page(values: seq<Value>, link: Option<string>)

  /** What a failed request turns into: no data, no headers. */
  const FailedPage: Page := Page([], None)

  /** `results[0]`, when it is an array. */
  function PageItems(p: Page): seq<Value>
  {
    if p.values != [] && p.values[0].Arr? then p.values[0].items else []
  }

  /** `!!link && link.includes('rel="next"')`. */
  predicate HasNext(p: Page)
  {
    p.link.Some? && p.link.value != "" && Contains(p.link.value, "rel=\"next\"")
  }

  /**
   * `_recursiveRead(path, params)` answered by `pages`, the responses in
   * the order the requests are made. The result is every item read and the
   * query string of every request; `None` when the responses run out
   * before one without a next link.
   */
  function ReadPages(pages: seq<Page>, path: string, params: string): Option<(seq<Value>, seq<string>)>
    requires path != []
    decreases |pages|
  {
    if pages == [] then None
    else
      var p := pages[0];
      if !HasNext(p) then Some((PageItems(p), [params]))
      else Prepend(p, params, ReadPages(pages[1..], path, NextParams(p.link.value, path)))
  }

  /** One request's items and query string in front of what the following requests read. */
  function Prepend(p: Page, params: string, rest: Option<(seq<Value>, seq<string>)>): Option<(seq<Value>, seq<string>)>
  {
    match rest
    case None => None
    case Some((items, requests)) => Some((PageItems(p) + items, [params] + requests))
  }

  /**
   * What a finished read made of `pages`: `n` requests, the first with
   * `params`, each later one with the query string of the previous
   * response's next link, the last response without one, and the items
   * of those `n` responses in order.
   */
  ghost predicate ReadOf(pages: seq<Page>, path: string, params: string, items: seq<Value>, requests: seq<string>)
    requires path != []
  {
    var n := |requests|;
    && 1 <= n <= |pages|
    && requests[0] == params
    && !HasNext(pages[n - 1])
    && LinksFollowed(pages, path, requests)
    && items == Flatten(ItemsOfPages(pages, n))
  }

  /** Each request after the first uses the next link of the response before it. */
  ghost predicate LinksFollowed(pages: seq<Page>, path: string, requests: seq<string>)
    requires path != [] && |requests| <= |pages|
  {
    forall k :: 0 <= k < |requests| - 1 ==> HasNext(pages[k]) && requests[k + 1] == NextParams(pages[k].link.value, path)
  }

  lemma LinksFollowedCons(pages: seq<Page>, path: string, params: string, requests: seq<string>)
    requires path != [] && pages != [] && HasNext(pages[0]) && |requests| + 1 <= |pages|
    requires requests != [] && requests[0] == NextParams(pages[0].link.value, path)
    requires LinksFollowed(pages[1..], path, requests)
    ensures LinksFollowed(pages, path, [params] + requests)
  {
    var rs := [params] + requests;
    forall k | 0 <= k < |rs| - 1
      ensures HasNext(pages[k]) && rs[k + 1] == NextParams(pages[k].link.value, path)
    {
      if k > 0 {
        assert pages[k] == pages[1..][k - 1];
        assert rs[k + 1] == requests[k];
      }
    }
  }

  /** Every response has a next link: the read runs out of responses. */
  ghost predicate AllHaveNext(pages: seq<Page>)
  {
    forall k :: 0 <= k < |pages| ==> HasNext(pages[k])
  }

  /**
   * `_recursiveRead` follows next links until a response has none: the
   * read finishes exactly when some response lacks a next link, and then
   * reads as `ReadOf` says.
   */
  lemma {:induction false} ReadPagesFollowsLinks(pages: seq<Page>, path: string, params: string)
    requires path != []
    ensures var r := ReadPages(pages, path, params);
      && (r.Some? ==> ReadOf(pages, path, params, r.value.0, r.value.1))
      && (r.None? <==> AllHaveNext(pages))
    decreases |pages|
  {
    if pages == [] {
    } else if !HasNext(pages[0]) {
      FlattenSingle(PageItems(pages[0]));
      assert ItemsOfPages(pages, 1) == [PageItems(pages[0])];
    } else {
      var next := NextParams(pages[0].link.value, path);
      ReadPagesFollowsLinks(pages[1..], path, next);
      match ReadPages(pages[1..], path, next)
      case None =>
        AllHaveNextCons(pages);
      case Some((items, requests)) =>
        ReadOfCons(pages, path, params, items, requests);
        AllHaveNextCons(pages);
    }
  }

  lemma AllHaveNextCons(pages: seq<Page>)
    requires pages != [] && HasNext(pages[0])
    ensures AllHaveNext(pages) <==> AllHaveNext(pages[1..])
  {
    if AllHaveNext(pages[1..]) {
      forall k | 0 <= k < |pages|
        ensures HasNext(pages[k])
      {
        if k > 0 {
          assert pages[k] == pages[1..][k - 1];
        }
      }
    }
  }

  /** A read of the later responses, behind a first response with a next link. */
  lemma ReadOfCons(pages: seq<Page>, path: string, params: string, items: seq<Value>, requests: seq<string>)
    requires path != [] && pages != [] && HasNext(pages[0])
    requires ReadOf(pages[1..], path, NextParams(pages[0].link.value, path), items, requests)
    ensures ReadOf(pages, path, params, PageItems(pages[0]) + items, [params] + requests)
  {
    var rs := [params] + requests;
    var n := |rs|;
    assert pages[n - 1] == pages[1..][n - 2];
    LinksFollowedCons(pages, path, params, requests);
    ItemsOfPagesCons(pages, n);
  }

  /** The item lists of the first `n` responses. */
  function ItemsOfPages(pages: seq<Page>, n: nat): (r: seq<seq<Value>>)
    requires n <= |pages|
    ensures |r| == n && forall k :: 0 <= k < n ==> r[k] == PageItems(pages[k])
  {
    seq(n, k requires 0 <= k < n => PageItems(pages[k]))
  }

  /** The first response's items come first, then those of the rest. */
  lemma ItemsOfPagesCons(pages: seq<Page>, n: nat)
    requires 1 <= n <= |pages|
    ensures Flatten(ItemsOfPages(pages, n)) == PageItems(pages[0]) + Flatten(ItemsOfPages(pages[1..], n - 1))
  {
    var tail := ItemsOfPages(pages[1..], n - 1);
    assert ItemsOfPages(pages, n) == [PageItems(pages[0])] + tail;
    FlattenAppend([PageItems(pages[0])], tail);
    FlattenSingle(PageItems(pages[0]));
  }

  /** Responses after the one that ends the read are never looked at. */
  lemma {:induction false} ReadPagesIgnoresLater(pages: seq<Page>, more: seq<Page>, path: string, params: string)
    requires path != [] && ReadPages(pages, path, params).Some?
    ensures ReadPages(pages + more, path, params) == ReadPages(pages, path, params)
    decreases |pages|
  {
    assert (pages + more)[0] == pages[0];
    if HasNext(pages[0]) {
      var next := NextParams(pages[0].link.value, path);
      assert (pages + more)[1..] == pages[1..] + more;
      assert ReadPages(pages[1..], path, next).Some?;
      ReadPagesIgnoresLater(pages[1..], more, path, next);
    }
  }

  /** A failed first request ends the read with nothing and without error. */
  lemma FailedRequestEndsRead(more: seq<Page>, path: string, params: string)
    requires path != []
    ensures ReadPages([FailedPage] + more, path, params) == Some(([], [params]))
  {
  }

  /** Two matches of a borderless `t` at distinct places are at least `|t|` apart. */
  lemma NoOverlap(s: string, t: string, i: nat, j: nat)
    requires Borderless(t) && t != [] && OccursAt(s, t, i) && OccursAt(s, t, j) && i < j
    ensures i + |t| <= j
  {
    if j < i + |t| {
      OverlapIsBorder(s, t, i, j);
    }
  }

  /** Overlapping matches of `t` make the overlap a border of `t`. */
  lemma OverlapIsBorder(s: string, t: string, i: nat, j: nat)
    requires OccursAt(s, t, i) && OccursAt(s, t, j) && i < j < i + |t|
    ensures IsBorder(t, j - i)
  {
    var d := j - i;
    forall k | 0 <= k < |t| - d
      ensures t[d..][k] == t[..|t| - d][k]
    {
      assert t[d + k] == s[i + d + k] == s[j + k] == t[k];
    }
  }

  /** Splitting text with no match of `t` yields the text itself. */
  lemma LastPieceOfUnmatched(y: string, t: string)
    requires t != [] && !Contains(y, t)
    ensures LastPiece(y, t) == y
  {
  }

  lemma SuffixOfConcat(x: string, z: string, k: nat)
    requires k <= |x|
    ensures (x + z)[k..] == x[k..] + z
  {
  }

  /** The text after the first match is what the split goes on with. */
  lemma LastPieceStep(s: string, t: string)
    requires t != [] && FindFrom(s, t, 0) < |s|
    ensures LastPiece(s, t) == LastPiece(s[FindFrom(s, t, 0) + |t|..], t)
  {
  }

  lemma LastPieceStepAt(s: string, t: string, i: nat)
    requires t != [] && FindFrom(s, t, 0) == i < |s|
    ensures i + |t| <= |s| && LastPiece(s, t) == LastPiece(s[i + |t|..], t)
  {
    LastPieceStep(s, t);
  }

  /** `t` occurs in `x + t + y` where it was put. */
  lemma MatchAtJoin(x: string, t: string, y: string)
    ensures OccursAt(x + (t + y), t, |x|)
  {
    assert (x + (t + y))[|x|..|x| + |t|] == t;
  }

  lemma AfterJoin(x: string, t: string, y: string)
    ensures (x + (t + y))[|x| + |t|..] == y
  {
  }

  /** When the first match ends where unmatched text `y` begins, the split ends with `y`. */
  lemma LastPieceAtJoin(s: string, t: string, y: string, i: nat)
    requires t != [] && !Contains(y, t) && FindFrom(s, t, 0) == i < |s|
    requires i + |t| <= |s| && s[i + |t|..] == y
    ensures LastPiece(s, t) == y
  {
    LastPieceStepAt(s, t, i);
    LastPieceOfUnmatched(y, t);
  }

  /** A match wholly inside `x` hands the rest of `x`, then `t + y`, on to the split. */
  lemma LastPieceBeforeJoin(x: string, t: string, y: string)
    requires t != [] && FindFrom(x + (t + y), t, 0) + |t| <= |x|
    ensures var i := FindFrom(x + (t + y), t, 0);
      LastPiece(x + (t + y), t) == LastPiece(x[i + |t|..] + (t + y), t)
  {
    var s := x + (t + y);
    var i := FindFrom(s, t, 0);
    LastPieceStepAt(s, t, i);
    SuffixOfConcat(x, t + y, i + |t|);
    assert s[i + |t|..] == x[i + |t|..] + (t + y);
  }

  /** The last piece of `x + t + y` is `y` when `t` is borderless and does not occur in `y`. */
  lemma {:induction false} LastPieceAfterMatch(x: string, t: string, y: string)
    requires t != [] && Borderless(t) && !Contains(y, t)
    ensures LastPiece(x + (t + y), t) == y
    decreases |x|
  {
    if FindFrom(x + (t + y), t, 0) == |x| {
      LastPieceFirstAtJoin(x, t, y);
    } else {
      var i := LastPieceEarlierMatch(x, t, y);
      LastPieceAfterMatch(x[i + |t|..], t, y);
    }
  }

  lemma LastPieceFirstAtJoin(x: string, t: string, y: string)
    requires t != [] && !Contains(y, t) && FindFrom(x + (t + y), t, 0) == |x|
    ensures LastPiece(x + (t + y), t) == y
  {
    AfterJoin(x, t, y);
    LastPieceAtJoin(x + (t + y), t, y, |x|);
  }

  /** A first match other than the joined one ends inside `x`, and the split resumes after it. */
  lemma LastPieceEarlierMatch(x: string, t: string, y: string) returns (i: nat)
    requires t != [] && Borderless(t) && FindFrom(x + (t + y), t, 0) != |x|
    ensures i + |t| <= |x|
    ensures LastPiece(x + (t + y), t) == LastPiece(x[i + |t|..] + (t + y), t)
  {
    var s := x + (t + y);
    MatchAtJoin(x, t, y);
    i := FindFrom(s, t, 0);
    NoOverlap(s, t, i, |x|);
    LastPieceBeforeJoin(x, t, y);
  }

  /**
   * A `link` header whose last link is `<…path?params>; rel="next"` hands
   * back exactly `params`, whatever comes before it (a previous-page link
   * included).
   */
  lemma NextParamsOfLink(x: string, path: string, params: string, tail: string)
    requires path != [] && Borderless(path)
    requires !Contains(params + (">;" + tail), path)
    requires !Contains(params, ">;")
    ensures NextParams(x + (path + (params + (">;" + tail))), path) == params
  {
    var y := params + (">;" + tail);
    LastPieceAfterMatch(x, path, y);
    assert OccursAt(y, ">;", |params|) by {
      assert y[|params|..|params| + 2] == ">;";
    }
    forall j | 0 <= j < |params|
      ensures !OccursAt(y, ">;", j)
    {
      NoEndBefore(params, tail, j);
    }
    assert y[..|params|] == params;
  }

  /** Before `params` ends, `params + ">;" + tail` has no `>;` when `params` has none. */
  lemma NoEndBefore(params: string, tail: string, j: nat)
    requires !Contains(params, ">;") && j < |params|
    ensures !OccursAt(params + (">;" + tail), ">;", j)
  {
    var y := params + (">;" + tail);
    if j + 2 <= |params| {
      assert y[j..j + 2] == params[j..j + 2];
      assert !OccursAt(params, ">;", j);
    } else {
      assert y[j + 1] == '>';
    }
  }

  // ---------------------------------------------------------------------
  // Id batching

  /**
   * `getOrdersById` / `getProductsById`: no request for no ids, otherwise
   * one paginated read per batch of 250 ids, concatenated in batch order.
   * `fetch(batch)` is what the read of that batch returns.
   */
  function ById(ids: seq<Value>, fetch: seq<Value> -> seq<Value>): (r: seq<Value>)
    ensures ids == [] ==> r == []
  {
    if ids == [] then []
    else
      var batches := Chunk(ids, 250);
      Flatten(seq(|batches|, i requires 0 <= i < |batches| => fetch(batches[i])))
  }

  /** Reading batch by batch, in order, is reading them all at once. */
  lemma {:induction false} FetchFlatten(bs: seq<seq<Value>>, fetch: seq<Value> -> seq<Value>)
    requires fetch([]) == []
    requires forall a, b :: fetch(a + b) == fetch(a) + fetch(b)
    ensures Flatten(seq(|bs|, i requires 0 <= i < |bs| => fetch(bs[i]))) == fetch(Flatten(bs))
    decreases |bs|
  {
    if bs != [] {
      var init := bs[..|bs| - 1];
      var last := bs[|bs| - 1];
      FetchFlatten(init, fetch);
      assert bs == init + [last];
      FlattenAppend(init, [last]);
      FlattenSingle(last);
      var all := seq(|bs|, i requires 0 <= i < |bs| => fetch(bs[i]));
      var front := seq(|init|, i requires 0 <= i < |init| => fetch(init[i]));
      assert all == front + [fetch(last)];
      FlattenAppend(front, [fetch(last)]);
      FlattenSingle(fetch(last));
      assert fetch(Flatten(init) + last) == fetch(Flatten(init)) + fetch(last);
    }
  }

  /**
   * Batching is invisible to a store that answers id by id: when a read of
   * ids returns the records of its ids in order, reading by batches of 250
   * returns what one read of all the ids would.
   */
  lemma BatchingTransparent(ids: seq<Value>, fetch: seq<Value> -> seq<Value>)
    requires fetch([]) == []
    requires forall a, b :: fetch(a + b) == fetch(a) + fetch(b)
    ensures ById(ids, fetch) == fetch(ids)
  {
    if ids != [] {
      FetchFlatten(Chunk(ids, 250), fetch);
    }
  }

  // ---------------------------------------------------------------------
  // Date padding

  /** The by-date reads widen the window by 180 minutes on each side. */
  function ByDateWindow(r: Range): (w: Range)
    ensures w.from == r.from - 180 * Minute && w.to == r.to + 180 * Minute
  {
    Widen(r, 180)
  }

  /** `getRecentEvents` widens the window by 60 minutes on each side. */
  function EventsWindow(r: Range): (w: Range)
    ensures w.from == r.from - 60 * Minute && w.to == r.to + 60 * Minute
  {
    Widen(r, 60)
  }

  // ---------------------------------------------------------------------
  // Fulfillment events

  /** `{gid, events}` for one fulfillment. */
  datatype Node = Node(gid: Value, events: seq<Value>)

  /**
   * The answer to the fulfillment-events query: a failure, a success
   * whose nodes cannot be read (`data.data` null, or a node that is null
   * or has no `events.edges`), or the nodes.
   */
  datatype EventsReply = EventsFailed | EventsMalformed | EventsNodes(nodes: seq<Node>)

  /**
   * `getFulfillmentEvents(gids)`: the nodes of the answer; a failed query
   * stands in one node with no events for every gid asked about, and an
   * answer that cannot be read makes `g.id` or `g.events` throw, so the
   * promise rejects (`None`).
   */
  function FulfillmentEvents(gids: seq<Value>, reply: EventsReply): (r: Option<seq<Node>>)
    ensures r.None? <==> reply.EventsMalformed?
    ensures reply.EventsFailed? ==> r.Some? && |r.value| == |gids| && forall i :: 0 <= i < |r.value| ==> r.value[i] == Node(gids[i], [])
    ensures reply.EventsNodes? ==> r == Some(reply.nodes)
  {
    match reply
    case EventsFailed => Some(seq(|gids|, i requires 0 <= i < |gids| => Node(gids[i], [])))
    case EventsMalformed => None
    case EventsNodes(nodes) => Some(nodes)
  }
}

=== FILE: storage.dfy ===
/**
 * The chunked storage engine (`Database`), one data type at a time: an
 * index from record id to chunk id, and the chunk files of that type.
 * Chunk contents are abstract record lists (compression and JSON are not
 * modelled); uuid generation is a newChunk-id parameter.
 */
module Storage {
  import opened Wrappers
  import opened Combinators
  import opened Dedup

  /** The six data types, in the order `datatypes` lists them. */
  datatype DataType = Orders | Fulfillments | Customers | Products | Discounts | Inventory

  const AllTypes: seq<DataType> := [Orders, Fulfillments, Customers, Products, Discounts, Inventory]

  type ChunkId = string

  /** Record id to the chunk currently holding its latest version. */
  type Index = map<Id, ChunkId>

  /** One type's index file and its chunk files (`<type>-<chunk id>`) in the data directory. */
  datatype Shelf = Shelf(index: Index, chunks: map<ChunkId, seq<Record>>)

  /** Every index entry names a chunk file that exists. */
  ghost predicate IndexBacked(s: Shelf)
  {
    forall id :: id in s.index ==> s.index[id] in s.chunks
  }

  /** Every chunk file is named by some index entry. */
  ghost predicate FilesIndexed(s: Shelf)
  {
    forall c :: c in s.chunks ==> exists id :: id in s.index && s.index[id] == c
  }

  /** Both directions of the startup invariant. */
  ghost predicate Consistent(s: Shelf)
  {
    IndexBacked(s) && FilesIndexed(s)
  }

  /** Every index entry's chunk holds a record with that id. */
  ghost predicate RecordsBacked(s: Shelf)
  {
    forall id :: id in s.index ==> s.index[id] in s.chunks && HasId(s.chunks[s.index[id]], id)
  }

  /** Every chunk record carries a positive write time (a clock reading). */
  ghost predicate Stamped(s: Shelf)
  {
    forall c :: c in s.chunks ==> PositiveTimes(s.chunks[c])
  }

  /** A record id's chunk, as the index says (`indexFile[id]`). */
  function ChunkOf(index: Index): Id -> ChunkId
  {
    id => if id in index then index[id] else ""
  }

  /** `ids.map(id => indexFile[id])`: the chunk each id is indexed to. */
  function ChunksOf(index: Index, pile: seq<Id>): (r: seq<ChunkId>)
    ensures |r| == |pile| && forall i :: 0 <= i < |pile| ==> r[i] == ChunkOf(index)(pile[i])
  {
    seq(|pile|, i requires 0 <= i < |pile| => ChunkOf(index)(pile[i]))
  }

  /**
   * `Array.from(new Set(ids.map(id => indexFile[id])))`: the chunks `ids`
   * are indexed to, each once, in the order of the first id that names it.
   */
  function ReferencedChunks(index: Index, pile: seq<Id>): (r: seq<ChunkId>)
    ensures forall i :: 0 <= i < |pile| && pile[i] in index ==> index[pile[i]] in r
    ensures forall k :: 0 <= k < |r| ==> exists i :: 0 <= i < |pile| && r[k] == ChunkOf(index)(pile[i])
    ensures forall k :: 0 <= k < |r| ==> r[k] in ChunksOf(index, pile)
    ensures forall a, b :: 0 <= a < b < |r| ==> r[a] != r[b]
    ensures forall a, b :: 0 <= a < b < |r| ==> FirstIndex(ChunksOf(index, pile), r[a]) < FirstIndex(ChunksOf(index, pile), r[b])
  {
    var cs := ChunksOf(index, pile);
    assert forall i :: 0 <= i < |pile| ==> cs[i] == ChunkOf(index)(pile[i]);
    Distinct(cs)
  }

  /**
   * The `{}` that `_read` returns for a file it cannot read. It has no id
   * (modelled as the falsy `""`, which no stored record carries) and no
   * write time (modelled as -1, which no clock reading gives and which
   * differs from the 0 that `deduplicate` puts in front of a kept time).
   */
  const Blank: Record := Record("", -1, "{}")

  /**
   * Reading and concatenating chunk files (`flatMap`): a file that cannot
   * be read contributes the one `{}` that `_read` gives for it.
   */
  function LoadChunks(chunks: map<ChunkId, seq<Record>>, cs: seq<ChunkId>): (r: seq<Record>)
    ensures forall i, x :: 0 <= i < |cs| && cs[i] in chunks && x in chunks[cs[i]] ==> x in r
    ensures forall i :: 0 <= i < |cs| && cs[i] !in chunks ==> Blank in r
    ensures forall x :: x in r ==>
              (exists i :: 0 <= i < |cs| && cs[i] in chunks && x in chunks[cs[i]])
              || (x == Blank && exists i :: 0 <= i < |cs| && cs[i] !in chunks)
    decreases |cs|
  {
    if cs == [] then []
    else
      var head := if cs[0] in chunks then chunks[cs[0]] else [Blank];
      var rest := LoadChunks(chunks, cs[1..]);
      assert forall i :: 1 <= i < |cs| ==> cs[i] == cs[1..][i - 1];
      head + rest
  }

  /**
   * Loading stamped chunks yields stamped records, apart from the `{}` of
   * a missing file; when every file exists there is none of those.
   */
  lemma LoadChunksStamped(s: Shelf, cs: seq<ChunkId>)
    requires Stamped(s)
    ensures var loaded := LoadChunks(s.chunks, cs);
      forall m :: 0 <= m < |loaded| ==> loaded[m] == Blank || loaded[m].writeTime > 0
    ensures (forall i :: 0 <= i < |cs| ==> cs[i] in s.chunks) ==> PositiveTimes(LoadChunks(s.chunks, cs))
  {
    var loaded := LoadChunks(s.chunks, cs);
    forall m | 0 <= m < |loaded| && loaded[m] != Blank
      ensures loaded[m].writeTime > 0
    {
      assert loaded[m] in loaded;
      var n :| 0 <= n < |cs| && cs[n] in s.chunks && loaded[m] in s.chunks[cs[n]];
      var q :| 0 <= q < |s.chunks[cs[n]]| && s.chunks[cs[n]][q] == loaded[m];
    }
    if forall i :: 0 <= i < |cs| ==> cs[i] in s.chunks {
      forall m | 0 <= m < |loaded|
        ensures loaded[m].writeTime > 0
      {
        assert loaded[m] in loaded;
        var n :| 0 <= n < |cs| && cs[n] in s.chunks && loaded[m] in s.chunks[cs[n]];
        var q :| 0 <= q < |s.chunks[cs[n]]| && s.chunks[cs[n]][q] == loaded[m];
      }
    }
  }

  /** `_read` of an index file: its entries, or `{}` when it cannot be read or parsed. */
  function IndexAsRead(index: Index, readable: bool): Index
  {
    if readable then index else map[]
  }

  /**
   * `_mergeIndexChanges`: the index as read, overridden pointwise by
   * `changes`. When the index cannot be read (`readable` is false) only the
   * changes survive.
   */
  function MergeIndexChanges(index: Index, readable: bool, changes: Index): (r: Index)
    ensures readable ==> r.Keys == index.Keys + changes.Keys
    ensures !readable ==> r == changes
    ensures forall id :: id in changes ==> r[id] == changes[id]
    ensures readable ==> forall id :: id in index && id !in changes ==> r[id] == index[id]
  {
    IndexAsRead(index, readable) + changes
  }

  /** The `forEach` of `_maintainIndex`: every id of the batch is pointed at `chunk`. */
  function PointAt(index: Index, batch: seq<Record>, chunk: ChunkId): (r: Index)
    ensures r.Keys == index.Keys + IdSet(batch)
    ensures forall id :: id in IdSet(batch) ==> r[id] == chunk
    ensures forall id :: id in index && id !in IdSet(batch) ==> r[id] == index[id]
    decreases |batch|
  {
    if batch == [] then index
    else
      var rest := PointAt(index[batch[0].id := chunk], batch[1..], chunk);
      assert IdSet(batch) == {batch[0].id} + IdSet(batch[1..]) by {
        forall id | id in IdSet(batch)
          ensures id in {batch[0].id} + IdSet(batch[1..])
        {
          var i :| 0 <= i < |batch| && batch[i].id == id;
          if i > 0 {
            assert batch[1..][i - 1] == batch[i];
          }
        }
      }
      rest
  }

  /**
   * `_maintainIndex`: the index as read, with every id of the batch
   * pointed at `chunk`. When the index cannot be read only the batch's
   * entries survive.
   */
  function MaintainIndex(index: Index, readable: bool, batch: seq<Record>, chunk: ChunkId): (r: Index)
    ensures readable ==> r.Keys == index.Keys + IdSet(batch)
    ensures !readable ==> r.Keys == IdSet(batch)
    ensures forall id :: id in IdSet(batch) ==> r[id] == chunk
    ensures readable ==> forall id :: id in index && id !in IdSet(batch) ==> r[id] == index[id]
  {
    PointAt(IndexAsRead(index, readable), batch, chunk)
  }

  /** Appending is a merge of the map "every batch id -> the new chunk", readable index or not. */
  lemma MaintainIndexIsMerge(index: Index, readable: bool, batch: seq<Record>, chunk: ChunkId)
    ensures MaintainIndex(index, readable, batch, chunk)
         == MergeIndexChanges(index, readable, map id | id in IdSet(batch) :: chunk)
  {
  }

  /**
   * Every record of the batch gets `_metadata_write_time` from its own
   * reading of the clock: `clock[i]` is the reading taken for record `i`,
   * so the readings of one batch are taken in order.
   */
  function Stamp(batch: seq<Record>, clock: seq<int>): (r: seq<Record>)
    requires |clock| == |batch|
    ensures |r| == |batch|
    ensures forall i :: 0 <= i < |r| ==> r[i].id == batch[i].id && r[i].body == batch[i].body
    ensures forall i :: 0 <= i < |r| ==> r[i].writeTime == clock[i]
  {
    if batch == [] then [] else [batch[0].(writeTime := clock[0])] + Stamp(batch[1..], clock[1..])
  }

  lemma StampIds(batch: seq<Record>, clock: seq<int>)
    requires |clock| == |batch|
    ensures IdSet(Stamp(batch, clock)) == IdSet(batch)
  {
    var r := Stamp(batch, clock);
    forall id | id in IdSet(batch)
      ensures id in IdSet(r)
    {
      var i :| 0 <= i < |batch| && batch[i].id == id;
      assert r[i].id == id;
    }
  }

  /**
   * `recordFreshDataChunk`: nothing happens for an empty batch; otherwise
   * the stamped batch is written as the new chunk `newChunk` and every id of
   * the batch is indexed to it. With a readable index every other entry
   * keeps its chunk; with an unreadable one (`indexReadable` is the outcome
   * of `_maintainIndex`'s read) the rewritten index holds the batch alone.
   */
  function RecordFreshDataChunk(s: Shelf, batch: seq<Record>, clock: seq<int>, newChunk: ChunkId, indexReadable: bool): (r: Shelf)
    requires |clock| == |batch|
    ensures batch == [] ==> r == s
    ensures batch != [] ==> r.chunks == s.chunks[newChunk := Stamp(batch, clock)]
    ensures batch != [] && indexReadable ==> r.index.Keys == s.index.Keys + IdSet(batch)
    ensures batch != [] && !indexReadable ==> r.index.Keys == IdSet(batch)
    ensures batch != [] ==> forall id :: id in IdSet(batch) ==> r.index[id] == newChunk
    ensures indexReadable ==> forall id :: id in s.index && id !in IdSet(batch) ==> r.index[id] == s.index[id]
  {
    if batch == [] then s
    else Shelf(MaintainIndex(s.index, indexReadable, batch, newChunk), s.chunks[newChunk := Stamp(batch, clock)])
  }

  /**
   * With a new chunk id, appending keeps every index entry backed by its
   * record, whether or not the index could be read.
   */
  lemma AppendKeepsRecordsBacked(s: Shelf, batch: seq<Record>, clock: seq<int>, newChunk: ChunkId, indexReadable: bool)
    requires |clock| == |batch|
    requires RecordsBacked(s) && newChunk !in s.chunks
    ensures RecordsBacked(RecordFreshDataChunk(s, batch, clock, newChunk, indexReadable))
  {
    var r := RecordFreshDataChunk(s, batch, clock, newChunk, indexReadable);
    if batch != [] {
      StampIds(batch, clock);
      forall id | id in r.index
        ensures r.index[id] in r.chunks && HasId(r.chunks[r.index[id]], id)
      {
        if id in IdSet(batch) {
          assert id in IdSet(Stamp(batch, clock));
        } else {
          assert s.index[id] != newChunk;
        }
      }
    }
  }

  /** Clock readings are positive, so appending keeps every stored record stamped. */
  lemma AppendKeepsStamped(s: Shelf, batch: seq<Record>, clock: seq<int>, newChunk: ChunkId, indexReadable: bool)
    requires |clock| == |batch|
    requires Stamped(s) && forall i :: 0 <= i < |clock| ==> clock[i] > 0
    ensures Stamped(RecordFreshDataChunk(s, batch, clock, newChunk, indexReadable))
  {
    if batch != [] {
      var st := Stamp(batch, clock);
      assert forall i :: 0 <= i < |st| ==> st[i].writeTime > 0;
    }
  }

  /**
   * `_validateIndexContents`: delete chunk files no entry of the index as
   * read names, and drop entries whose chunk file does not exist. The index
   * is read through `_read`, so when it cannot be read (`readable` is
   * false) it counts as `{}`: every chunk file of the type is deleted and
   * the empty index is written back.
   */
  function ValidateIndexContents(s: Shelf, readable: bool): (r: Shelf)
    ensures Consistent(r)
    ensures readable ==> forall id :: id in s.index && s.index[id] in s.chunks ==> id in r.index && r.index[id] == s.index[id]
    ensures !readable ==> r == Shelf(map[], map[])
    ensures forall id :: id in r.index ==> id in s.index
    ensures forall c :: c in r.chunks ==> c in s.chunks && r.chunks[c] == s.chunks[c]
  {
    var read := IndexAsRead(s.index, readable);
    var expected := read.Values;
    var chunks := map c | c in s.chunks && c in expected :: s.chunks[c];
    var index := map id | id in read && read[id] in s.chunks :: read[id];
    var r := Shelf(index, chunks);
    assert FilesIndexed(r) by {
      forall c | c in chunks
        ensures exists id :: id in index && index[id] == c
      {
        var id :| id in read && read[id] == c;
        assert id in index;
      }
    }
    r
  }

  /**
   * Repair is a no-op on a consistent shelf whose index can be read, and
   * repairing again with a readable index changes nothing, so repair is
   * idempotent.
   */
  lemma ValidateIndexContentsFixesConsistent(s: Shelf, readable: bool)
    ensures Consistent(s) && readable ==> ValidateIndexContents(s, readable) == s
    ensures ValidateIndexContents(ValidateIndexContents(s, readable), true) == ValidateIndexContents(s, readable)
  {
    var r := ValidateIndexContents(s, readable);
    if Consistent(s) && readable {
      assert r.index == s.index;
      forall c | c in s.chunks
        ensures c in r.chunks
      {
        var id :| id in s.index && s.index[id] == c;
      }
      assert r.chunks == s.chunks;
    }
    var r2 := ValidateIndexContents(r, true);
    assert r2.index == r.index;
    forall c | c in r.chunks
      ensures c in r2.chunks
    {
      var id :| id in r.index && r.index[id] == c;
    }
    assert r2.chunks == r.chunks;
  }

  /** The retry policy of `_validateIndexHealth`: replaced iff the first three attempts fail. */
  predicate FirstThreeFail(attempts: seq<bool>)
    requires |attempts| >= 3
  {
    !attempts[0] && !attempts[1] && !attempts[2]
  }

  /**
   * One type of `_validateIndexHealth`: up to four read-and-parse attempts,
   * stopping at the first success; the index is replaced by `{}` when the
   * failure count reaches three. `attempts[k]` is the outcome of attempt k.
   */
  method IndexHealthOfType(attempts: seq<bool>) returns (replaced: bool, tried: nat)
    requires |attempts| >= 4
    ensures replaced <==> FirstThreeFail(attempts)
    ensures 1 <= tried <= 4
    ensures forall k :: 0 <= k < tried - 1 ==> !attempts[k]
    ensures tried < 4 ==> attempts[tried - 1]
  {
    var failures := 0;
    replaced := false;
    var k := 0;
    while k < 4
      invariant 0 <= k <= 4 && failures == k
      invariant forall j :: 0 <= j < k ==> !attempts[j]
      invariant replaced <==> failures >= 3
    {
      if attempts[k] {
        return replaced, k + 1;
      }
      failures := failures + 1;
      if failures == 3 {
        replaced := true;
      }
      k := k + 1;
    }
    tried := 4;
  }

  /** All six types are present. */
  ghost predicate Complete<V>(m: map<DataType, V>)
  {
    forall t: DataType :: t in m
  }

  /** Position of a type in `AllTypes`. */
  function TypeIndex(t: DataType): (k: nat)
    ensures k < |AllTypes| && AllTypes[k] == t
  {
    match t
    case Orders => 0
    case Fulfillments => 1
    case Customers => 2
    case Products => 3
    case Discounts => 4
    case Inventory => 5
  }

  lemma AllTypesDistinct()
    ensures forall i, j :: 0 <= i < j < |AllTypes| ==> AllTypes[i] != AllTypes[j]
  {
  }

  /** The index a type ends up with after the health check. */
  function CheckedIndex(s: Shelf, attempts: seq<bool>): Index
    requires |attempts| >= 3
  {
    if FirstThreeFail(attempts) then map[] else s.index
  }

  /**
   * `_validateIndexHealth` over every type: a type whose first three
   * attempts fail gets an empty index (its chunk files stay); the result
   * says whether any index was purged.
   */
  method ValidateIndexHealth(store: map<DataType, Shelf>, attempts: map<DataType, seq<bool>>)
    returns (store': map<DataType, Shelf>, purged: bool)
    requires Complete(store) && Complete(attempts)
    requires forall t :: t in attempts ==> |attempts[t]| >= 4
    ensures Complete(store')
    ensures forall t :: store'[t].chunks == store[t].chunks
    ensures forall t :: store'[t].index == CheckedIndex(store[t], attempts[t])
    ensures purged <==> exists t :: FirstThreeFail(attempts[t])
  {
    store' := store;
    purged := false;
    var k := 0;
    while k < |AllTypes|
      invariant 0 <= k <= |AllTypes|
      invariant Complete(store')
      invariant forall t :: store'[t].chunks == store[t].chunks
      invariant forall j :: 0 <= j < k ==> store'[AllTypes[j]].index == CheckedIndex(store[AllTypes[j]], attempts[AllTypes[j]])
      invariant forall j :: k <= j < |AllTypes| ==> store'[AllTypes[j]] == store[AllTypes[j]]
      invariant purged == PurgedAmong(attempts, k)
    {
      var t := AllTypes[k];
      var replaced, _ := IndexHealthOfType(attempts[t]);
      if replaced {
        AllTypesDistinct();
        store' := Purge(store', t);
        purged := true;
      }
      k := k + 1;
    }
    forall t
      ensures store'[t].index == CheckedIndex(store[t], attempts[t])
    {
      var j := TypeIndex(t);
    }
    PurgedAmongAll(attempts);
  }

  /** The store with type `t`'s index replaced by an empty one. */
  function Purge(store: map<DataType, Shelf>, t: DataType): (r: map<DataType, Shelf>)
    requires Complete(store)
    ensures Complete(r)
    ensures r[t] == Shelf(map[], store[t].chunks)
    ensures forall u :: u != t ==> r[u] == store[u]
    ensures forall u :: r[u].chunks == store[u].chunks
  {
    store[t := Shelf(map[], store[t].chunks)]
  }

  /** Some type among the first `k` of `AllTypes` has its index replaced. */
  function PurgedAmong(attempts: map<DataType, seq<bool>>, k: nat): bool
    requires k <= |AllTypes|
    requires Complete(attempts) && forall t :: t in attempts ==> |attempts[t]| >= 4
  {
    if k == 0 then false
    else PurgedAmong(attempts, k - 1) || FirstThreeFail(attempts[AllTypes[k - 1]])
  }

  lemma PurgedAmongAll(attempts: map<DataType, seq<bool>>)
    requires Complete(attempts) && forall t :: t in attempts ==> |attempts[t]| >= 4
    ensures PurgedAmong(attempts, |AllTypes|) <==> exists t :: FirstThreeFail(attempts[t])
  {
    if PurgedAmong(attempts, |AllTypes|) {
      var j := PurgedAmongWitness(attempts, |AllTypes|);
    }
    forall t | FirstThreeFail(attempts[t])
      ensures PurgedAmong(attempts, |AllTypes|)
    {
      PurgedAmongHas(attempts, |AllTypes|, TypeIndex(t));
    }
  }

  lemma {:induction false} PurgedAmongWitness(attempts: map<DataType, seq<bool>>, k: nat) returns (j: nat)
    requires k <= |AllTypes|
    requires Complete(attempts) && forall t :: t in attempts ==> |attempts[t]| >= 4
    requires PurgedAmong(attempts, k)
    ensures j < k && FirstThreeFail(attempts[AllTypes[j]])
  {
    if FirstThreeFail(attempts[AllTypes[k - 1]]) {
      j := k - 1;
    } else {
      j := PurgedAmongWitness(attempts, k - 1);
    }
  }

  lemma {:induction false} PurgedAmongHas(attempts: map<DataType, seq<bool>>, k: nat, j: nat)
    requires j < k <= |AllTypes|
    requires Complete(attempts) && forall t :: t in attempts ==> |attempts[t]| >= 4
    requires FirstThreeFail(attempts[AllTypes[j]])
    ensures PurgedAmong(attempts, k)
    decreases k
  {
    if j < k - 1 {
      PurgedAmongHas(attempts, k - 1, j);
    }
  }
}

=== FILE: sync.dfy ===
/**
 * The data task manager's loop (`DataTaskManager.run`) as a transition on
 * its metadata. One call of `Run` is one iteration: the clock, the
 * connectivity, the database's state and the outcome of the previous
 * queue are inputs; the action the iteration takes and the metadata it
 * leaves are the output. The reads a cycle schedules are described by
 * their date windows; what they fetch is modelled in `ReadTasks` and
 * `Shopify`.
 */
module Sync {
  import opened Wrappers
  import opened Time

  /** The longest no-data sleep: ten minutes. */
  const MaxNoDataSleep: int := 600000

  /**
   * The task metadata an iteration reads and writes. `maxSteps == None`
   * is the `null` of a shop whose information was never read;
   * `fragmented` stands for `f_factor > 1.1`; `noDataSleep == 0` is an
   * unset `last_nodata_sleep` and `lastStatusTime == 0` an unset
   * `lastStatusTime`. `advancePending` records that the previous read
   * cycle's queue still has its step increment (`.then(step++)`) to run.
   */
  datatype Meta = Meta(
    step: int,
    maxSteps: Option<int>,
    lastSync: int,
    forceGc: bool,
    fragmented: bool,
    cursor: int,
    noDataSleep: nat,
    lastStatusTime: int,
    advancePending: bool)

  /** The `general` settings the loop uses. */
  datatype Config = Config(syncFrequency: int, noDataThreshold: int, noDataDefaultSleep: nat)

  /**
   * What the iteration finds: a pending disconnect, `navigator.onLine`,
   * the database's state, the clock, the shop's creation date as
   * `getShop` reports it (`None` when the read fails), and whether the
   * file and record counts give `f_factor > 1.1` should they be taken.
   * `orderEventsEmpty` and `productEventsEmpty` say that the recent
   * events name no order, respectively no product.
   */
  datatype World = World(
    disconnect: bool,
    online: bool,
    initialized: bool,
    indexFailure: bool,
    now: int,
    shopCreated: Option<int>,
    fragmented: bool,
    orderEventsEmpty: bool,
    productEventsEmpty: bool)

  /**
   * The previous queue's outcome: whether one of its tasks rejected, how
   * many tasks it held and how many records they returned.
   */
  datatype LastQueue = LastQueue(failed: bool, results: nat, records: nat)

  /**
   * The action of one iteration. A read cycle first sleeps `pause` ms (0
   * when it does not back off) and reads the events of the `recent`
   * window. Customers and discounts updated within `updates` are read by
   * their `updated_at` date. Each task also reads its backfill day when
   * it has one: `backfill` for orders, `productDay` for products and
   * `updatedDay` for customers and discounts. The days can differ,
   * because each task reads the step at its own point in time.
   */
  datatype Action =
    | Halt
    | Disconnect
    | Retry
    | Initialize
    | CollectGarbage
    | ReadCycle(recent: Range, updates: Range, backfill: Option<Range>, productDay: Option<Range>,
                updatedDay: Option<Range>, pause: nat)

  /** The metadata of a store seen for the first time. */
  function InitialMeta(now: int): Meta
  {
    Meta(1, None, 0, false, false, now, 0, 0, false)
  }

  /** `max_steps` in a comparison: `null` counts as 0. */
  function Steps(m: Meta): int
  {
    m.maxSteps.GetOr(0)
  }

  // ---------------------------------------------------------------------
  // The recent window

  /**
   * `_getRecentDateRange`: one day from the cursor when the cursor is more
   * than a day old, otherwise from a minute before the cursor up to now.
   */
  function RecentRange(cursor: int, now: int): (r: Range)
    ensures r.from <= cursor
    ensures cursor <= now ==> cursor <= r.to <= now
    ensures r.to - r.from <= Day + Minute
    ensures now - cursor > Day ==> r.to - r.from == Day
    ensures r.from == cursor <==> now - cursor > Day
    ensures now - cursor > Day ==> r.to == cursor + Day
    ensures now - cursor <= Day ==> r.to == now
  {
    if now - cursor > Day then Range(cursor, cursor + Day)
    else Range(cursor - Minute, now)
  }

  /** The recent windows of successive read cycles at the clock readings `nows`. */
  function Windows(cursor: int, nows: seq<int>): (ws: seq<Range>)
    ensures |ws| == |nows|
    decreases |nows|
  {
    if nows == [] then []
    else
      var w := RecentRange(cursor, nows[0]);
      [w] + Windows(w.to, nows[1..])
  }

  /** Where the cursor stands after those read cycles. */
  function FinalCursor(cursor: int, nows: seq<int>): int
    decreases |nows|
  {
    if nows == [] then cursor else FinalCursor(RecentRange(cursor, nows[0]).to, nows[1..])
  }

  /** Some window of `ws` holds `t`. */
  predicate Covered(ws: seq<Range>, t: int)
  {
    exists k :: 0 <= k < |ws| && Within(ws[k], t)
  }

  predicate NonDecreasing(nows: seq<int>)
  {
    forall i, j :: 0 <= i < j < |nows| ==> nows[i] <= nows[j]
  }

  /**
   * With a clock that never goes back, the cursor never moves backwards
   * and never passes the clock, and the recent windows of successive
   * cycles leave no instant between the first cursor and the last one
   * unread.
   */
  lemma {:induction false} WindowsCover(cursor: int, nows: seq<int>)
    requires nows != [] && cursor <= nows[0] && NonDecreasing(nows)
    ensures cursor <= FinalCursor(cursor, nows) <= nows[|nows| - 1]
    ensures forall t :: cursor <= t <= FinalCursor(cursor, nows) ==> Covered(Windows(cursor, nows), t)
    decreases |nows|
  {
    var w := RecentRange(cursor, nows[0]);
    var ws := Windows(cursor, nows);
    assert ws[0] == w;
    if |nows| == 1 {
      assert nows[1..] == [];
      assert FinalCursor(cursor, nows) == w.to;
      forall t | cursor <= t <= FinalCursor(cursor, nows)
        ensures Covered(ws, t)
      {
        assert Within(ws[0], t);
      }
    } else {
      var rest := nows[1..];
      assert NonDecreasing(rest) by {
        assert forall i :: 0 <= i < |rest| ==> rest[i] == nows[i + 1];
      }
      assert w.to <= rest[0];
      WindowsCover(w.to, rest);
      assert rest[|rest| - 1] == nows[|nows| - 1];
      forall t | cursor <= t <= FinalCursor(cursor, nows)
        ensures Covered(ws, t)
      {
        if t <= w.to {
          assert Within(ws[0], t);
        } else {
          assert FinalCursor(cursor, nows) == FinalCursor(w.to, rest);
          assert Covered(Windows(w.to, rest), t);
          var k :| 0 <= k < |rest| && Within(Windows(w.to, rest)[k], t);
          assert ws[k + 1] == Windows(w.to, rest)[k];
        }
      }
    }
  }

  /**
   * A cursor that has fallen behind catches up a day per cycle: with the
   * clock standing at `t`, enough cycles bring the cursor to `t` exactly.
   */
  lemma {:induction false} CursorCatchesUp(cursor: int, nows: seq<int>, t: int)
    requires cursor <= t && forall k :: 0 <= k < |nows| ==> nows[k] == t
    requires |nows| * Day >= t - cursor
    ensures FinalCursor(cursor, nows) == t
    decreases |nows|
  {
    if nows != [] {
      var c := RecentRange(cursor, t).to;
      assert c <= t && (t - cursor > Day ==> c == cursor + Day);
      CursorCatchesUp(c, nows[1..], t);
    } else {
      assert t - cursor <= 0;
    }
  }

  /**
   * The window the customer and discount reads use, as written: it is
   * taken again after the cursor has already moved to the end of this
   * cycle's recent window.
   */
  function CustomerWindowAsWritten(cursor: int, now: int): Range
  {
    RecentRange(RecentRange(cursor, now).to, now)
  }

  /** The updated-since window of customers and discounts: the cycle's recent window. */
  function CustomerWindow(cursor: int, now: int): (r: Range)
    ensures r.from <= cursor
    ensures cursor <= now ==> cursor <= r.to <= now
  {
    RecentRange(cursor, now)
  }

  /**
   * As written, two cycles ten minutes apart read updated customers for
   * a minute each, and a customer updated in between is never read,
   * though the recent windows cover the whole span.
   */
  lemma CustomerWindowsAsWrittenLeaveGap()
    ensures var c1 := RecentRange(0, 600000).to;
      && c1 == 600000
      && Within(RecentRange(c1, 1200000), 900000)
      && !Within(CustomerWindowAsWritten(0, 600000), 900000)
      && !Within(CustomerWindowAsWritten(c1, 1200000), 900000)
  {
  }

  /** The corrected customer windows of successive cycles leave no gap. */
  lemma CustomerWindowsCover(cursor: int, nows: seq<int>)
    requires nows != [] && cursor <= nows[0] && NonDecreasing(nows)
    ensures forall t :: cursor <= t <= FinalCursor(cursor, nows) ==> Covered(Windows(cursor, nows), t)
    ensures forall k :: 0 <= k < |nows| ==> Windows(cursor, nows)[k] == CustomerWindow(CursorBefore(cursor, nows, k), nows[k])
  {
    WindowsCover(cursor, nows);
    WindowsAreCycleWindows(cursor, nows);
  }

  /** The cursor at the start of cycle `k`. */
  function CursorBefore(cursor: int, nows: seq<int>, k: nat): int
    requires k <= |nows|
    decreases k
  {
    if k == 0 then cursor else CursorBefore(RecentRange(cursor, nows[0]).to, nows[1..], k - 1)
  }

  lemma {:induction false} WindowsAreCycleWindows(cursor: int, nows: seq<int>)
    ensures forall k :: 0 <= k < |nows| ==> Windows(cursor, nows)[k] == RecentRange(CursorBefore(cursor, nows, k), nows[k])
    decreases |nows|
  {
    if nows != [] {
      var c := RecentRange(cursor, nows[0]).to;
      WindowsAreCycleWindows(c, nows[1..]);
      forall k | 0 <= k < |nows|
        ensures Windows(cursor, nows)[k] == RecentRange(CursorBefore(cursor, nows, k), nows[k])
      {
        if k > 0 {
          assert Windows(cursor, nows)[k] == Windows(c, nows[1..])[k - 1];
          assert nows[k] == nows[1..][k - 1];
        }
      }
    }
  }

  // ---------------------------------------------------------------------
  // No-data backoff

  /**
   * The backoff condition: the backfill is done, the previous queue held
   * tasks and they returned fewer records than the threshold.
   */
  predicate Idle(m: Meta, cfg: Config, q: LastQueue)
  {
    Steps(m) <= m.step && q.results > 0 && q.records < cfg.noDataThreshold
  }

  /** `Math.min(Math.floor(1.1 * prev), 6e5)`, for a set previous sleep. */
  function GrowSleep(prev: nat): (r: nat)
    ensures r <= MaxNoDataSleep
    ensures 10 * r <= 11 * prev
    ensures prev <= MaxNoDataSleep ==> prev <= r
    ensures 10 <= prev < MaxNoDataSleep ==> prev < r
    ensures r == MaxNoDataSleep <==> 11 * prev >= 10 * MaxNoDataSleep
    ensures r < MaxNoDataSleep ==> 10 * r <= 11 * prev < 10 * r + 10
  {
    var grown := prev * 11 / 10;
    if grown < MaxNoDataSleep then grown else MaxNoDataSleep
  }

  /** The `last_nodata_sleep` a read cycle sets. */
  function NextNoDataSleep(m: Meta, cfg: Config, q: LastQueue): (r: nat)
    ensures !Idle(m, cfg, q) ==> r == cfg.noDataDefaultSleep
    ensures Idle(m, cfg, q) && m.noDataSleep == 0 ==> r == cfg.noDataDefaultSleep
    ensures Idle(m, cfg, q) && m.noDataSleep != 0 ==>
              && (r == MaxNoDataSleep <==> 11 * m.noDataSleep >= 10 * MaxNoDataSleep)
              && (r < MaxNoDataSleep ==> 10 * r <= 11 * m.noDataSleep < 10 * r + 10)
  {
    if Idle(m, cfg, q) then
      if m.noDataSleep != 0 then GrowSleep(m.noDataSleep) else cfg.noDataDefaultSleep
    else cfg.noDataDefaultSleep
  }

  /** `k` idle cycles in a row. */
  function Backoff(prev: nat, k: nat): nat
    decreases k
  {
    if k == 0 then prev else Backoff(GrowSleep(prev), k - 1)
  }

  /**
   * A run of idle cycles starting from a sleep of at least 10 ms grows it
   * by at least a millisecond a cycle until it reaches the ten-minute
   * cap, where it stays.
   */
  lemma {:induction false} BackoffReachesCap(prev: nat, k: nat)
    requires 10 <= prev <= MaxNoDataSleep
    ensures 10 <= Backoff(prev, k) <= MaxNoDataSleep
    ensures Backoff(prev, k) >= prev + k || Backoff(prev, k) == MaxNoDataSleep
    decreases k
  {
    if k > 0 {
      var next := GrowSleep(prev);
      BackoffReachesCap(next, k - 1);
    }
  }

  // ---------------------------------------------------------------------
  // Backfill

  /** The day `step` days back: from `now - step` days to `now - (step - 1)` days. */
  function DayWindow(step: int, now: int): (r: Range)
    ensures r.to - r.from == Day
  {
    Range(now - step * Day, now - (step - 1) * Day)
  }

  /**
   * The by-date read of a cycle: the day `step` days back, unless
   * `max_steps` is set (non-zero) and the step has gone past it.
   */
  function Backfill(m: Meta, now: int): (r: Option<Range>)
    ensures r.None? <==> m.maxSteps.Some? && m.maxSteps.value != 0 && m.step > m.maxSteps.value
    ensures r.Some? ==> r.value == DayWindow(m.step, now)
  {
    if m.maxSteps.None? || m.maxSteps.value == 0 || m.step <= m.maxSteps.value then Some(DayWindow(m.step, now))
    else None
  }

  /** Steps 1 to `n` together read the last `n` days, each instant in some step's day. */
  lemma BackfillCovers(n: int, now: int, t: int)
    requires n >= 1 && now - n * Day <= t <= now
    ensures exists s :: 1 <= s <= n && Within(DayWindow(s, now), t)
  {
    var d := now - t;
    var k := d / Day;
    assert k * Day <= d < (k + 1) * Day;
    if k < n {
      assert Within(DayWindow(k + 1, now), t);
    } else {
      assert k * Day <= n * Day;
      assert Within(DayWindow(n, now), t);
    }
  }

  /** `updateShopInfo`: `max_steps` becomes the shop's age in days, rounded up; no shop changes nothing. */
  function UpdateShopInfo(m: Meta, createdAt: Option<int>, now: int): (r: Meta)
    ensures createdAt.None? ==> r == m
    ensures createdAt.Some? ==> r == m.(maxSteps := r.maxSteps) && r.maxSteps.Some?
    ensures createdAt.Some? ==> (r.maxSteps.value - 1) * Day < now - createdAt.value <= r.maxSteps.value * Day
  {
    match createdAt
    case None => m
    case Some(created) => m.(maxSteps := Some(CeilDiv(now - created, Day)))
  }

  /**
   * Once the shop's age is known, the backfill days of steps 1 to
   * `max_steps` reach back to the shop's creation.
   */
  lemma BackfillReachesCreation(m: Meta, created: int, now: int, t: int)
    requires created < now && created <= t <= now
    ensures var n := UpdateShopInfo(m, Some(created), now).maxSteps.value;
      exists s :: 1 <= s <= n && Backfill(m.(step := s, maxSteps := Some(n)), now) == Some(DayWindow(s, now)) && Within(DayWindow(s, now), t)
  {
    var n := UpdateShopInfo(m, Some(created), now).maxSteps.value;
    assert n >= 1 by {
      assert 0 < now - created <= n * Day;
    }
    BackfillCovers(n, now, t);
    var s :| 1 <= s <= n && Within(DayWindow(s, now), t);
    assert Backfill(m.(step := s, maxSteps := Some(n)), now) == Some(DayWindow(s, now));
  }

  // ---------------------------------------------------------------------
  // One iteration

  /**
   * The previous read cycle's `.then`: once its queue has resolved, the
   * step advances unless it has passed `max_steps`. It runs before the
   * next iteration gets past its first `await`, so after the previous
   * iteration's re-sync.
   */
  function Settle(m: Meta): (r: Meta)
    ensures !r.advancePending
    ensures r.step == m.step || (m.advancePending && Steps(m) >= m.step && r.step == m.step + 1)
    ensures m.advancePending && Steps(m) >= m.step ==> r.step == m.step + 1
    ensures r.(step := m.step, advancePending := m.advancePending) == m
  {
    var step := if m.advancePending && Steps(m) >= m.step then m.step + 1 else m.step;
    m.(step := step, advancePending := false)
  }

  /**
   * `_sendLogs`'s condition for recounting: never counted, last counted
   * ten minutes ago or more, or the backfill not finished.
   */
  predicate StatusDue(m: Meta, now: int)
  {
    m.lastStatusTime == 0 || m.lastStatusTime <= now - 10 * Minute || Steps(m) >= m.step
  }

  /**
   * `_sendLogs` on an initialised database: the shop is read again, which
   * resets `max_steps`, and when a recount is due `_calculateResourceUsage`
   * stamps the time and recomputes `f_factor`.
   */
  function SendLogs(m: Meta, w: World): (r: Meta)
    ensures r.maxSteps == UpdateShopInfo(m, w.shopCreated, w.now).maxSteps
    ensures StatusDue(UpdateShopInfo(m, w.shopCreated, w.now), w.now) ==> r.fragmented == w.fragmented && r.lastStatusTime == w.now
    ensures !StatusDue(UpdateShopInfo(m, w.shopCreated, w.now), w.now) ==> r.fragmented == m.fragmented && r.lastStatusTime == m.lastStatusTime
    ensures r.(maxSteps := m.maxSteps, fragmented := m.fragmented, lastStatusTime := m.lastStatusTime) == m
  {
    var m1 := UpdateShopInfo(m, w.shopCreated, w.now);
    if StatusDue(m1, w.now) then m1.(lastStatusTime := w.now, fragmented := w.fragmented) else m1
  }

  /** The metadata once the previous queue has settled and, on an initialised database, the logs are sent. */
  function Logged(m: Meta, w: World): Meta
  {
    var s := Settle(m);
    if w.initialized then SendLogs(s, w) else s
  }

  /**
   * The iteration's own step, on the logged metadata, before the re-sync
   * check. The backfill days of a read cycle are left to `Proceed`,
   * which knows whether each task reads the step before or after the
   * re-sync.
   */
  function Act(m: Meta, w: World, cfg: Config, q: LastQueue): (Action, Meta)
    requires !w.disconnect && w.online
  {
    if !w.initialized then
      (Initialize, if w.indexFailure then m.(step := 0) else m)
    else if m.fragmented || m.forceGc then
      (CollectGarbage, m.(fragmented := false, forceGc := false))
    else
      var sleep := NextNoDataSleep(m, cfg, q);
      var recent := RecentRange(m.cursor, w.now);
      var m1 := m.(noDataSleep := sleep, cursor := recent.to);
      var m2 := if m.maxSteps == Some(m.step + 1) then m1.(lastSync := w.now, forceGc := true) else m1;
      (ReadCycle(recent, CustomerWindowAsWritten(m.cursor, w.now), None, None, None,
                 if Idle(m, cfg, q) then sleep else 0), m2)
  }

  /** The last backfill step of a read cycle records the sync itself. */
  predicate LastStep(m: Meta)
  {
    m.maxSteps == Some(m.step + 1)
  }

  /**
   * `run()`: a rejected task of the previous queue ends the loop; then the
   * previous read cycle's step increment runs and a pending disconnect
   * wins (the store's data and metadata are deleted and nothing more is
   * scheduled). On an initialised database the logs are sent, re-reading
   * the shop. Offline, the iteration retries with that metadata;
   * otherwise it initialises the database, collects garbage or schedules
   * a read cycle, in that order of priority, then re-syncs when
   * `sync_frequency` has passed since the last sync.
   */
  function Run(m: Meta, w: World, cfg: Config, q: LastQueue): (r: (Action, Meta))
    ensures r.0.Halt? <==> q.failed
    ensures r.0.Halt? ==> r.1 == m
    ensures r.0.Disconnect? <==> !q.failed && w.disconnect
    ensures r.0.Disconnect? ==> r.1 == Settle(m)
    ensures r.0.Retry? <==> !q.failed && !w.disconnect && !w.online
    ensures r.0.Retry? ==> r.1 == Logged(m, w)
    ensures r.0.Initialize? <==> !q.failed && !w.disconnect && w.online && !w.initialized
    ensures r.0.CollectGarbage? <==> !q.failed && !w.disconnect && w.online && w.initialized
                                     && (Logged(m, w).fragmented || m.forceGc)
    ensures r.0.ReadCycle? <==> !q.failed && !w.disconnect && w.online && w.initialized
                                && !Logged(m, w).fragmented && !m.forceGc
    // the step advances only when a read cycle's queue has resolved
    ensures !r.0.Halt? ==> (r.1.advancePending <==> r.0.ReadCycle?)
    ensures !r.0.Halt? ==> r.1.step == Settle(m).step || r.1.step == 0
    // every initialised iteration re-reads the shop
    ensures !q.failed && !w.disconnect ==>
              r.1.maxSteps == (if w.initialized then UpdateShopInfo(m, w.shopCreated, w.now).maxSteps else m.maxSteps)
    ensures r.0.CollectGarbage? ==> !r.1.fragmented && !r.1.forceGc && r.1.cursor == m.cursor
    ensures r.0.Initialize? ==> r.1.fragmented == m.fragmented && r.1.forceGc == m.forceGc && r.1.cursor == m.cursor
    ensures r.0.ReadCycle? ==> r.0.recent == RecentRange(m.cursor, w.now) && r.1.cursor == r.0.recent.to
    ensures r.0.ReadCycle? ==> r.0.updates == CustomerWindowAsWritten(m.cursor, w.now) && r.0.updates == RecentRange(r.1.cursor, w.now)
    ensures r.0.ReadCycle? ==> r.0.backfill == Backfill(if w.orderEventsEmpty then Logged(m, w) else r.1, w.now)
    ensures r.0.ReadCycle? ==> r.0.productDay == Backfill(if w.productEventsEmpty then Logged(m, w) else r.1, w.now)
    ensures r.0.ReadCycle? ==> r.0.updatedDay == Backfill(r.1, w.now)
    ensures r.0.ReadCycle? ==> r.1.noDataSleep == NextNoDataSleep(Logged(m, w), cfg, q)
    ensures r.0.ReadCycle? && LastStep(Logged(m, w)) ==> r.1.forceGc && r.1.lastSync == w.now
    ensures !q.failed && !w.disconnect && w.online && m.lastSync + cfg.syncFrequency <= w.now
              && !(r.0.ReadCycle? && LastStep(Logged(m, w))) ==>
              r.1.lastSync == w.now && r.1.step == 0
    ensures 0 <= m.step <= Steps(m) + 1 && Steps(m) <= Steps(r.1) ==> 0 <= r.1.step <= Steps(r.1) + 1
  {
    if q.failed then (Halt, m)
    else
      var settled := Settle(m);
      if w.disconnect then (Disconnect, settled)
      else
        var logged := Logged(m, w);
        if !w.online then (Retry, logged)
        else Proceed(logged, w, cfg, q)
  }

  /**
   * An online iteration once the logs are sent: initialise, collect
   * garbage or schedule a read cycle, then re-sync when `sync_frequency`
   * has passed. A read cycle's step increment is left pending. The
   * customer and discount tasks read the step after a request, so their
   * backfill day is that of the step left after the re-sync, and their
   * updated-since window is taken from the cursor this cycle has already
   * moved. The order and product tasks read the step after their by-id
   * read, which resolves without a request when the recent events name
   * no such subject: the task then reads the step before the iteration
   * reaches the re-sync.
   */
  function Proceed(m: Meta, w: World, cfg: Config, q: LastQueue): (r: (Action, Meta))
    requires !w.disconnect && w.online
    ensures r.0.Initialize? <==> !w.initialized
    ensures r.0.CollectGarbage? <==> w.initialized && (m.fragmented || m.forceGc)
    ensures r.0.ReadCycle? <==> w.initialized && !m.fragmented && !m.forceGc
    ensures r.0.ReadCycle? ==> r.1.advancePending
    ensures !r.0.ReadCycle? ==> r.1.advancePending == m.advancePending
    ensures r.1.step == m.step || r.1.step == 0
    ensures r.1.maxSteps == m.maxSteps
    ensures r.0.CollectGarbage? ==> !r.1.fragmented && !r.1.forceGc && r.1.cursor == m.cursor
    ensures r.0.Initialize? ==> r.1.fragmented == m.fragmented && r.1.forceGc == m.forceGc && r.1.cursor == m.cursor
    ensures r.0.ReadCycle? ==> r.0.recent == RecentRange(m.cursor, w.now) && r.1.cursor == r.0.recent.to
    ensures r.0.ReadCycle? ==> r.0.updates == CustomerWindowAsWritten(m.cursor, w.now) && r.0.updates == RecentRange(r.1.cursor, w.now)
    ensures r.0.ReadCycle? ==> r.0.backfill == Backfill(if w.orderEventsEmpty then m else r.1, w.now)
    ensures r.0.ReadCycle? ==> r.0.productDay == Backfill(if w.productEventsEmpty then m else r.1, w.now)
    ensures r.0.ReadCycle? ==> r.0.updatedDay == Backfill(r.1, w.now)
    ensures r.0.ReadCycle? ==> r.1.noDataSleep == NextNoDataSleep(m, cfg, q)
    ensures r.0.ReadCycle? && LastStep(m) ==> r.1.forceGc && r.1.lastSync == w.now
    ensures m.lastSync + cfg.syncFrequency <= w.now && !(r.0.ReadCycle? && LastStep(m)) ==>
              r.1.lastSync == w.now && r.1.step == 0
  {
    var (a, m1) := Act(m, w, cfg, q);
    var m2 := if m1.lastSync + cfg.syncFrequency <= w.now then m1.(lastSync := w.now, step := 0) else m1;
    match a
    case ReadCycle(recent, updates, _, _, _, pause) =>
      var before, after := Backfill(m1, w.now), Backfill(m2, w.now);
      (ReadCycle(recent, updates, if w.orderEventsEmpty then before else after,
                 if w.productEventsEmpty then before else after, after, pause),
       m2.(advancePending := true))
    case _ => (a, m2)
  }

  /** `forceSync`: the last sync is forgotten. */
  function ForceSync(m: Meta): (r: Meta)
    ensures r.lastSync == 0 && r == m.(lastSync := 0)
  {
    m.(lastSync := 0)
  }

  /**
   * After `forceSync`, the next iteration that is neither a disconnect nor
   * a retry re-syncs: the step goes back to 0 and the backfill starts
   * over from today. The one exception is the read cycle of the last
   * backfill day, which records the sync itself and keeps stepping.
   */
  lemma ForceSyncRestartsBackfill(m: Meta, w: World, cfg: Config, q: LastQueue)
    requires cfg.syncFrequency <= w.now && !w.disconnect && w.online && !q.failed
    ensures var r := Run(ForceSync(m), w, cfg, q);
      r.1.lastSync == w.now && (r.1.step == 0 || (r.0.ReadCycle? && LastStep(Logged(ForceSync(m), w))))
  {
  }

  /**
   * `return this.run()`: iterations in a row, each with its own world and
   * previous queue, until one halts on a rejected task or disconnects
   * (`return this._doDisconnect()` schedules nothing further).
   */
  function RunAll(m: Meta, ws: seq<World>, cfg: Config, qs: seq<LastQueue>): (r: Meta)
    requires |qs| == |ws|
    ensures ws == [] ==> r == m
    ensures ws != [] && qs[0].failed ==> r == m
    ensures ws != [] && !qs[0].failed && ws[0].disconnect ==> r == Settle(m)
    decreases |ws|
  {
    if ws == [] then m
    else
      var (a, m1) := Run(m, ws[0], cfg, qs[0]);
      if a.Halt? || a.Disconnect? then m1 else RunAll(m1, ws[1..], cfg, qs[1..])
  }

  /** Once an iteration disconnects, the iterations that would follow change nothing. */
  lemma {:induction false} RunAllStopsAtDisconnect(m: Meta, ws: seq<World>, cfg: Config, qs: seq<LastQueue>,
                                                   k: nat, more: seq<World>, moreQs: seq<LastQueue>)
    requires |qs| == |ws| && |moreQs| == |more| && k < |ws| && ws[k].disconnect
    ensures RunAll(m, ws + more, cfg, qs + moreQs) == RunAll(m, ws, cfg, qs)
    decreases |ws|
  {
    var (a, m1) := Run(m, ws[0], cfg, qs[0]);
    assert (ws + more)[0] == ws[0] && (qs + moreQs)[0] == qs[0];
    if !a.Halt? && !a.Disconnect? {
      assert k > 0;
      assert (ws + more)[1..] == ws[1..] + more && (qs + moreQs)[1..] == qs[1..] + moreQs;
      RunAllStopsAtDisconnect(m1, ws[1..], cfg, qs[1..], k - 1, more, moreQs);
    }
  }

  /**
   * With the shop's creation date fixed and a clock that never goes
   * back, `max_steps` never decreases, and the step stays between 0 and
   * `max_steps + 1` however many iterations run: increments stop there
   * and re-syncs and index failures go to 0.
   */
  lemma {:induction false} StepStaysInRange(m: Meta, ws: seq<World>, cfg: Config, qs: seq<LastQueue>, created: int)
    requires |qs| == |ws| && 0 <= m.step <= Steps(m) + 1
    requires forall k :: 0 <= k < |ws| ==> ws[k].shopCreated.None? || ws[k].shopCreated == Some(created)
    requires forall i, j :: 0 <= i < j < |ws| ==> ws[i].now <= ws[j].now
    requires ws != [] ==> Steps(m) <= CeilDiv(ws[0].now - created, Day)
    ensures var r := RunAll(m, ws, cfg, qs);
      0 <= r.step <= Steps(r) + 1
    decreases |ws|
  {
    if ws != [] {
      var (a, m1) := Run(m, ws[0], cfg, qs[0]);
      assert Steps(m) <= Steps(m1) && Steps(m1) <= CeilDiv(ws[0].now - created, Day);
      if !a.Halt? && !a.Disconnect? && |ws| > 1 {
        CeilDivMonotone(ws[0].now - created, ws[1].now - created, Day);
        StepStaysInRange(m1, ws[1..], cfg, qs[1..], created);
      }
    }
  }
}

=== FILE: time.dfy ===
/**
 * Instants are milliseconds since the epoch, as `Date.getTime()` returns
 * them; `minusMinutes(n)` is `n` minutes earlier and a day is taken as
 * 86400000 ms.
 */
module Time {
  const Minute: int := 60000
  const Day: int := 86400000

  /** A `{from, to}` date window. */
  datatype Range = Range(from: int, to: int)

  predicate Within(r: Range, t: int)
  {
    r.from <= t <= r.to
  }

  /** `from.minusMinutes(n)` … `to.plusMinutes(n)`: the window widened on both sides. */
  function Widen(r: Range, minutes: nat): (w: Range)
    ensures forall t :: Within(r, t) ==> Within(w, t)
    ensures w.to - w.from == r.to - r.from + 2 * minutes * Minute
  {
    Range(r.from - minutes * Minute, r.to + minutes * Minute)
  }

  /** `Math.ceil(a / b)` for a positive divisor, computed exactly. */
  function CeilDiv(a: int, b: int): (q: int)
    requires b > 0
    ensures (q - 1) * b < a <= q * b
  {
    var q := (a + b - 1) / b;
    assert q * b <= a + b - 1 < q * b + b;
    q
  }

  /** A later instant is never fewer whole days away. */
  lemma CeilDivMonotone(a: int, b: int, d: int)
    requires d > 0 && a <= b
    ensures CeilDiv(a, d) <= CeilDiv(b, d)
  {
    var qa, qb := CeilDiv(a, d), CeilDiv(b, d);
    assert (qa - 1) * d < qb * d;
    MulLessCancel(qa - 1, qb, d);
  }

  lemma MulLessCancel(x: int, y: int, d: int)
    requires d > 0 && x * d < y * d
    ensures x < y
  {
    if x >= y {
      MulMonotone(y, x, d);
    }
  }

  lemma MulMonotone(x: int, y: int, d: int)
    requires d > 0 && x <= y
    ensures x * d <= y * d
  {
    assert y * d - x * d == (y - x) * d;
  }
}

=== FILE: wrappers.dfy ===
/** Failure-compatible optional value shared by every module of the model. */
module Wrappers {

  /** A value that may be absent; `None` also stands for a JavaScript exception. */
  datatype Option<+T> = None | Some(value: T) {

    /** The carried value, or `default` when there is none. */
    function GetOr(default: T): T {
      match this
      case Some(v) => v
      case None => default
    }
  }

  /**
   * `xs.map(f)` where any call may throw: every result when none throws,
   * `None` as soon as one does.
   */
  function MapAll<A, B>(xs: seq<A>, f: A -> Option<B>): (r: Option<seq<B>>)
    ensures r.Some? <==> forall i :: 0 <= i < |xs| ==> f(xs[i]).Some?
    ensures r.Some? ==> |r.value| == |xs| && forall i :: 0 <= i < |xs| ==> r.value[i] == f(xs[i]).value
  {
    if xs == [] then Some([])
    else
      assert forall i :: 1 <= i < |xs| ==> xs[i] == xs[1..][i - 1];
      match (f(xs[0]), MapAll(xs[1..], f))
      case (Some(y), Some(rest)) => Some([y] + rest)
      case _ => None
  }
}
